=== FILE: README.md ===
# fiasco-trace-to-ctf, modelled in Dafny

The tool receives trace events from a Fiasco (L4Re) kernel and turns them
into a CTF trace with babeltrace2. Each event is a 128-byte frame sent
over the network. The model covers the sequential logic of that path:

- **Decoding** (`Decoder`, `Layout`, `EventTypes`, `Events`, `Bytes`).
  `next_event` reads the type byte at offset 44 and decodes the frame
  with the variant's little-endian layout. The six structured payloads
  are NAM, DESTROY, CONTEXT-SWITCH, MIGRATION, IPC and IPC-RESULT. Every
  other variant keeps its payload bytes as they are.
- **Admission** (`Admission`). The parser thread forwards an event only
  when its sequence number beats every earlier number. A gap in the
  numbers is reported as that many lost events.
- **Dispatch** (`Dispatch`). The converter thread routes each forwarded
  event to the queue of the CPU that recorded it.
- **Conversion** (`Converter`, `Records`, `StringCaches`, `KernelObjects`,
  `Registries`, `Texts`, `Helpers`, `Utf8`, `IpcTypes`). `convert`
  keeps a registry of kernel objects keyed by the masked context pointer.
  NAM, FACTORY and DESTROY update the registry. Scheduling records
  resolve names and thread ids from it, and the string cache interns the
  strings. A converter creates each event class at most once.
- **The source plugin's message iterator** (`Plugin`, `CtfStates`). This
  covers early shutdown, opening the stream on the first event, and the
  packet and stream end at end of file. Messages go into a bounded
  message buffer.
- **Metadata merge** (`Metadata`). `merge_traces` keeps the first
  `trace`, `env` and `clock` block it meets. It drops every later block
  with the same name, up to its closing `};`.

Threads, channels, babeltrace2 objects and file I/O are not modelled. The
values they would supply are parameters:

- the received frames;
- the read outcome;
- the interrupt flag;
- the buffer capacity;
- an `Env` holding what the library would return: the class-creation
  result, the FACTORY fields and the IPC receiver name.

The model follows the code in these places:

- NAM sets the object's debug id to the decimal event id as well as its
  name (src/converter/convert.rs:353-368).
- FACTORY stores the new object under the masked `obj` of the creating
  event, with debug id `newo` (src/converter/convert.rs:429-439). It does
  not key the object by `newo`.
- A NAM name that is not UTF-8 still updates the registry, with an empty
  name. The event itself then fails in `Nam::try_from`.

## Model

| member | source | states |
|---|---|---|
| EventTypes.FromByteSucceedsIffListed | parser/src/event/event_type.rs:6-44 | a type byte decodes to an event type exactly when it is one of the listed discriminants |
| EventTypes.FromByteOfCode | parser/src/event/event_type.rs:6-44 | each event type's discriminant decodes back to that type |
| EventTypes.CodeOfFromByte | parser/src/event/event_type.rs:6-44 | a byte that decodes is the discriminant of the type it decodes to |
| EventTypes.CodeInjective | parser/src/event/event_type.rs:6-44 | no two event types share a discriminant |
| EventTypes.FromNameOfName | parser/src/event/event_type.rs:46-87 | the display name of an event type identifies it: reading the name back gives the type |
| EventTypes.NameInjective | parser/src/event/event_type.rs:46-87 | no two event types share a display name |
| Events.IndexOfNameOfName | src/event/mod.rs:112-145 | the display name of an event determines its variant |
| Events.NameIdentifiesVariant | src/event/mod.rs:112-145 | two events have the same display name exactly when they are the same variant (event class names are per variant) |
| Bytes.LeValueOfBytes | src/parser/event/common.rs:5-17 | writing a value in n little-endian bytes and reading them back gives the value |
| Bytes.LeBytesOfValue | src/parser/event/common.rs:5-17 | reading n little-endian bytes and writing the value back gives the same bytes |
| Bytes.LeValueInjective | src/parser/event/common.rs:5-17 | distinct byte strings of one width read as distinct values |
| Bytes.ReadU64OfBytes | src/parser/event/common.rs:5-17 | a u64 field read from its own encoding gives the value and leaves the rest of the input |
| Bytes.U64BytesOfRead | src/parser/event/common.rs:5-17 | reading a u64 field consumes exactly its eight bytes |
| Bytes.ReadU32OfBytes | src/event/ipc.rs:8-22 | a u32 field read from its own encoding gives the value and leaves the rest |
| Bytes.U32BytesOfRead | src/event/ipc.rs:8-22 | reading a u32 field consumes exactly its four bytes |
| Bytes.AsI64 | src/converter/event/sched_switch.rs:89 | the `as i64` cast keeps the bit pattern: equal modulo 2^64, negative exactly when the top bit is set |
| Bytes.AsI32 | src/converter/event/sched_migrate_task.rs:65-66 | the `as i32` cast keeps the bit pattern: equal modulo 2^32, negative exactly when the top bit is set |
| Layout.CommonOffsets | src/parser/event/common.rs:5-17 | the common header's fields sit at their fixed offsets (`number` at 0, the type byte at 44, and so on) |
| Layout.ParseEncodeCommon | src/parser/event/common.rs:5-17 | parsing an encoded common header gives back the header and the rest of the frame |
| Layout.EncodeParseCommon | src/parser/event/common.rs:5-17 | re-encoding a parsed header reproduces the bytes |
| Layout.NamOffsets | src/event/nam.rs:8-17 | a NAM payload has `obj` at 48, `id` at 56 and the 32 name bytes at 64..96 |
| Layout.ParseEncodeNam | src/event/nam.rs:8-17 | NAM layout round trip, value to bytes to value |
| Layout.EncodeParseNam | src/event/nam.rs:8-17 | NAM layout round trip, bytes to value to bytes |
| Layout.DestroyOffsets | src/event/destroy.rs:8-19 | field offsets of the DESTROY payload |
| Layout.ParseEncodeDestroy | src/event/destroy.rs:8-19 | DESTROY layout round trip, value to bytes to value |
| Layout.EncodeParseDestroy | src/event/destroy.rs:8-19 | DESTROY layout round trip, bytes to value to bytes |
| Layout.ContextSwitchOffsets | src/parser/event/context_switch.rs:8-21 | field offsets of the CONTEXT-SWITCH payload |
| Layout.ParseEncodeContextSwitch | src/parser/event/context_switch.rs:8-21 | CONTEXT-SWITCH layout round trip, value to bytes to value |
| Layout.EncodeParseContextSwitch | src/parser/event/context_switch.rs:8-21 | CONTEXT-SWITCH layout round trip, bytes to value to bytes |
| Layout.MigrationOffsets | src/parser/event/migration.rs:8-19 | field offsets of the MIGRATION payload |
| Layout.ParseEncodeMigration | src/parser/event/migration.rs:8-19 | MIGRATION layout round trip, value to bytes to value |
| Layout.EncodeParseMigration | src/parser/event/migration.rs:8-19 | MIGRATION layout round trip, bytes to value to bytes |
| Layout.IpcOffsets | src/event/ipc.rs:8-22 | field offsets of the IPC payload, including the u32 timeout and its padding |
| Layout.ParseEncodeIpc | src/event/ipc.rs:8-22 | IPC layout round trip, value to bytes to value |
| Layout.EncodeParseIpc | src/event/ipc.rs:8-22 | IPC layout round trip, bytes to value to bytes |
| Layout.IpcResOffsets | src/parser/event/ipc_res.rs:8-21 | field offsets of the IPC-RESULT payload |
| Layout.ParseEncodeIpcRes | src/parser/event/ipc_res.rs:8-21 | IPC-RESULT layout round trip, value to bytes to value |
| Layout.EncodeParseIpcRes | src/parser/event/ipc_res.rs:8-21 | IPC-RESULT layout round trip, bytes to value to bytes |
| Layout.ParseEncodeRaw | src/event/mod.rs:46-75 | a pass-through variant's payload bytes survive encoding and parsing |
| Layout.EncodeParseRaw | src/event/mod.rs:46-75 | re-encoding a pass-through payload reproduces the frame |
| Decoder.NextEvent | src/parser/mod.rs:39-46 | a short read yields no event and is not an error; another I/O failure is an error; a full frame yields exactly what decoding the frame yields |
| Decoder.DecodeWith | src/parser/mod.rs:51 | every decoding failure reports the offending type byte |
| Decoder.DecodeFollowsTable | src/parser/mod.rs:49-166 | a frame decodes exactly when its byte at offset 44 selects a decodable variant in the dispatch table, and the event has that variant; otherwise the error carries that byte |
| Decoder.DecodeWithFollowsTable | src/parser/mod.rs:54-166 | for every type byte, the variant decoded is the one the dispatch table assigns |
| Decoder.TableOmitsUnreachableVariants | src/parser/mod.rs:54-166 | the dispatch table never yields FULLSIZE, KE, KE-BIN or KE-REG |
| Decoder.NeverUnreachableVariants | src/parser/mod.rs:54-166 | a decoded event is never FULLSIZE, KE, KE-BIN or KE-REG |
| Decoder.VariantDependsOnTypeByteOnly | src/parser/mod.rs:49-54 | two frames with the same type byte decode to the same variant, or both fail |
| Decoder.DecodedHeaderIsFrameHeader | src/parser/mod.rs:52 | after the seek back, the decoded event's common header is read from the start of the frame, so its type code is the dispatching byte |
| Decoder.DispatchKeepsHeader | src/parser/mod.rs:54-166 | every arm of the dispatch keeps the frame's common header |
| Decoder.DestroyCodes | src/parser/mod.rs:67-73 | the four delete/destroy type codes all decode as DESTROY |
| Decoder.SharedPassThroughCodes | src/parser/mod.rs:110-117 | the three RCU codes, the two scheduling-context codes and the two task-map codes each share one variant |
| Decoder.KeCodesDecodeEmpty | src/parser/mod.rs:150-155 | KE, KE-BIN and KE-REG frames decode as the placeholder empty event |
| Decoder.RejectedCodes | src/parser/mod.rs:146-165 | decoding fails exactly for IPC-TRACE, HIDDEN, UNUSED and unlisted bytes, and reports the byte |
| Decoder.DispatchCarries | src/parser/mod.rs:54-166 | a decoded event carries exactly the fields read from the frame by its variant's layout |
| Decoder.CarriedEventUnique | src/parser/mod.rs:54-166 | the fields read from a frame determine the event of each variant |
| Decoder.ReadAllCarries | src/parser/mod.rs:54-166 | an event encoded with its variant's layout is read back whole |
| Decoder.DecodeEncode | src/parser/mod.rs:39-166 | round trip: any event whose type code selects its variant, encoded into a frame, decodes back to itself |
| Decoder.EncodeCarried | src/parser/mod.rs:54-166 | the fields read from a frame, re-encoded over the unread tail, rebuild the frame |
| Decoder.EncodeDecode | src/parser/mod.rs:39-166 | round trip: a frame that decodes is rebuilt by encoding its event over the unread tail |
| Admission.RunForwardsFresh | src/main.rs:92-125 | the parser forwards exactly the events whose number exceeds every earlier number, in arrival order |
| Admission.RunKeepsMax | src/main.rs:92-115 | after any run the filter holds the largest number seen, and records that an event was seen |
| Admission.ForwardedIncreasing | src/main.rs:105-116 | forwarded numbers strictly increase, and the last one is the filter's maximum |
| Admission.DroppedCountsGaps | src/main.rs:106-112 | the lost-event counts add up to the numbers skipped between the first and the last forwarded event |
| Admission.DecodeAll | src/main.rs:95-98 | each received frame gives exactly one decoding result, in order |
| Admission.ParseFrames | src/main.rs:91-133 | the parser loop skips frames that fail to decode, forwards the fresh events in strictly increasing order and reports the filter's lost-event total |
| Admission.DuplicatesAndLateDropped | src/main.rs:105-125 | numbers 5, 3, 6, 6, 7 forward 5, 6, 7 and report no loss |
| Admission.GapReported | src/main.rs:106-112 | numbers 5 then 10 forward both and report four lost events |
| Dispatch.OnCpuExactly | src/main.rs:145-176 | a CPU's queue holds only that CPU's events, and is empty exactly when the CPU recorded none |
| Dispatch.QueuesPartition | src/main.rs:144-176 | across the CPUs seen, the queues together hold every routed event exactly once |
| Dispatch.RoutedStep | src/main.rs:145-176 | routing one event appends it to its CPU's queue, creating queue and CPU entry on first sight, and changes nothing else |
| Dispatch.DispatchAll | src/main.rs:144-199 | the converter loop's queues are keyed by the CPUs seen, each holds its CPU's events in order, and the CPU list names each CPU once |
| Helpers.FirstZero | src/helpers.rs:7 | the name ends at the first NUL byte, or at the end of the array |
| Helpers.I8ArrayToString | src/helpers.rs:4-11 | a name decodes exactly when the bytes before the first NUL are UTF-8, and is those bytes |
| Helpers.DecodedNameShape | src/helpers.rs:4-11 | a decoded name holds no NUL and is no longer than the array |
| Helpers.BytesAfterNulIgnored | src/helpers.rs:5-7 | bytes after the first NUL do not affect the decoded name |
| Helpers.AsciiNameDecodes | src/helpers.rs:4-11 | an all-ASCII name array always decodes |
| Utf8.EncodeScalarAccepted | src/helpers.rs:10 | the UTF-8 encoding of any scalar value is accepted by the validator |
| Utf8.AcceptedIsEncoding | src/helpers.rs:10 | every byte sequence the validator accepts at the head of the input is the encoding of a scalar value |
| Utf8.AsciiValid | src/helpers.rs:10 | ASCII bytes are valid UTF-8 |
| Texts.Decimal | src/converter/convert.rs:354 | `to_string` of an integer is a non-empty string of digits, with a leading zero only for 0 |
| Texts.DigitsValueOfDecimal | src/converter/convert.rs:354 | the decimal text of n reads back as n |
| Texts.DecimalInjective | src/converter/convert.rs:354 | distinct ids give distinct debug ids |
| Texts.DecimalNoNul | src/converter/convert.rs:354 | a decimal text never contains NUL, so interning it cannot fail |
| Texts.ParseI64OfDecimal | src/converter/event/sched_switch.rs:94 | parsing a debug id made from a u64 as i64 succeeds exactly when the value fits in i64 |
| Texts.ParseI64Empty | src/converter/event/sched_switch.rs:94 | worked example: the empty debug id does not parse as a thread id |
| StringCaches.Insert | src/converter/types.rs:12-22 | an interned string keeps its index; a new string is refused if it holds NUL and otherwise gets the next index; a refusal changes nothing |
| StringCaches.GetStr | src/converter/types.rs:24-32 | looking up an interned string gives that string |
| StringCaches.GetById | src/converter/types.rs:34-36 | the string at an index is the one interned with that index, and holds no NUL |
| StringCaches.InsertPreservesValid | src/converter/types.rs:12-22 | interning keeps the index map and the string list in agreement |
| StringCaches.GetByIdOfInsert | src/converter/types.rs:12-36 | the index returned by interning retrieves the string |
| StringCaches.InsertKeepsIndices | src/converter/types.rs:12-22 | interning never moves an existing string |
| StringCaches.InsertIdempotent | src/converter/types.rs:12-22 | interning a string twice is the same as once |
| StringCaches.GetStrAfterInsert | src/converter/types.rs:12-32 | after interning, looking the string up gives it back |
| KernelObjects.SetId | src/converter/convert.rs:356-360 | setting the id changes only the id, and keeps the object's kind and thread fields (the call site; the setter's body is not part of this model) |
| KernelObjects.SetName | src/converter/convert.rs:356-360 | setting the name changes only the name, and keeps the object's kind and thread fields (the call site; the setter's body is not part of this model) |
| KernelObjects.SetIdNameDetermined | src/converter/convert.rs:356-360 | after setting both id and name, a generic object no longer depends on its old fields |
| Registries.Mask | src/converter/mod.rs:20 | masking with CTX_MASK gives the start of the 4 KiB page holding the pointer |
| Registries.MaskClearsLowBits | src/converter/mod.rs:20 | the bitwise `& CTX_MASK` equals the arithmetic page start |
| Registries.MaskIdempotent | src/converter/mod.rs:20 | masking a key again changes nothing |
| Registries.MaskSameKey | src/converter/mod.rs:20 | two pointers share a registry key exactly when they lie in the same page |
| Converter.New | src/converter/convert.rs:74-85 | a new converter has no event classes, holds the given registry, and its cache holds only the empty string at index 0 |
| Converter.EventClass | src/converter/convert.rs:284-301 | the class constructor runs exactly when the event name has no class yet; an existing class is reused and nothing else changes |
| Converter.EventClassAtMostOnce | src/converter/convert.rs:284-301 | once a class was made, asking for it again does not run the constructor and returns the same class |
| Converter.AddEventCommonCtx | src/converter/convert.rs:212-282 | the common context copies the header fields, with the masked context pointer and the name and debug id of the registry entry |
| Converter.CommonCtxSucceeds | src/converter/convert.rs:212-282 | on a NUL-free registry, writing the common context never fails |
| Converter.ApplyNam | src/converter/convert.rs:339-368 | NAM sets the name and the decimal id at the masked object key, creating a generic object if absent, keeping a thread a thread, and leaving other keys alone |
| Converter.ApplyDestroy | src/converter/convert.rs:423-426 | DESTROY removes exactly the masked object key |
| Converter.ApplyFactory | src/converter/convert.rs:429-439 | FACTORY stores a generic object with the decimal `newo` id and an empty name at the masked `obj` key, leaving other keys alone |
| Converter.UpdateRegistryKeepsClean | src/converter/convert.rs:339-439 | registry updates never introduce a NUL into a name or id |
| Converter.ClassOf | src/converter/convert.rs:379-415 | the scheduling events use the classes made in advance; other events get their class on demand by display name |
| Converter.BuildRecord | src/converter/convert.rs:376-427 | building the event's record keeps the cache valid; it succeeds exactly when the NAM name is UTF-8 and the resolved scheduling names hold no NUL; the record is the NAM record with the decoded name, the scheduling records resolved against the registry, the IPC and IPC-RESULT projections, or the event itself; NAM fails with a bad name, the scheduling records with a NUL, and on a NUL-free registry only NAM fails |
| Converter.Convert | src/converter/convert.rs:303-482 | converting updates the registry first and keeps every existing class; the scheduling events use their fixed classes, every other event the class cached under its name, made only when absent; it succeeds exactly when that class exists or can be made, the context labels hold no NUL and the record can be built; a failure is a class failure exactly when the class could not be made; the emitted context describes the masked context pointer as the updated registry names it, and the emitted record is the one the updated registry determines |
| Converter.ConvertFailsOnlyOnClassOrName | src/converter/convert.rs:303-482 | on a NUL-free registry, conversion fails only when class creation fails or a NAM name is not UTF-8 |
| Converter.NamSeesOwnUpdate | src/converter/convert.rs:339-377 | a NAM naming its own context is emitted with the new name and id |
| Converter.DestroySeesRemoval | src/converter/convert.rs:423-427 | a DESTROY of its own context is emitted with empty name and id |
| Converter.NamIdBecomesTid | src/converter/convert.rs:354 | after a NAM, scheduling events resolve that object's thread id to the NAM's id when it fits in i64 |
| Records.NamTryFrom | src/converter/event/nam.rs:16-30 | the NAM record succeeds exactly when the name is UTF-8, interns it, and copies `obj` and `id`; a failure leaves the cache alone |
| Records.NamRecordFromFrame | src/converter/event/nam.rs:16-30 | the NAM record's fields are the frame's bytes at offsets 48, 56 and 64..96 |
| Records.InternComm | src/converter/event/sched_switch.rs:89-104 | a thread's comm is its name, else its debug id, else the key in decimal; its tid is the parsed debug id, else the key cast to i64 |
| Records.DecimalIdGivesTid | src/converter/event/sched_switch.rs:89-96 | a debug id made from n resolves to tid n when n fits in i64, otherwise to the key |
| Records.ResolvedCommNoNul | src/converter/event/sched_switch.rs:90-104 | on a NUL-free registry a resolved comm holds no NUL |
| Records.SchedSwitchTryFrom | src/converter/event/sched_switch.rs:77-133 | the switch record succeeds exactly when both comms are NUL-free, and then has both resolved comms and tids, the source priority, state running and next priority 9999 |
| Records.SchedSwitchSucceeds | src/converter/event/sched_switch.rs:77-133 | on a NUL-free registry the switch record always succeeds |
| Records.SchedMigrateTaskTryFrom | src/converter/event/sched_migrate_task.rs:30-68 | the migrate record succeeds exactly when the comm is NUL-free, and then carries the resolved comm and tid and the CPUs as i32 |
| Records.SchedMigrateTaskSucceeds | src/converter/event/sched_migrate_task.rs:30-68 | on a NUL-free registry the migrate record always succeeds |
| Records.IpcTryFrom | src/converter/event/ipc.rs:22-40 | the IPC record always succeeds |
| Records.IpcRecordFromFrame | src/converter/event/ipc.rs:22-40 | the IPC record's fields are the frame's bytes at their offsets, with the given receiver name |
| Records.IpcResTryFrom | src/converter/event/ipc_res.rs:20-35 | the IPC-RESULT record always succeeds |
| Records.IpcResRecordFromFrame | src/converter/event/ipc_res.rs:20-35 | the IPC-RESULT record's fields are the frame's bytes at their offsets |
| IpcTypes.DiscriminantValues | src/converter/event/ipc_type.rs:4-25 | the IPC type discriminants are 6, 7, 15, 3, 9 and 10 |
| IpcTypes.TryFromSucceedsIff | src/converter/event/ipc_type.rs:11-25 | a byte converts to an IPC type exactly when it is a discriminant |
| IpcTypes.TryFromOfDiscriminant | src/converter/event/ipc_type.rs:11-25 | each IPC type's discriminant converts back to it |
| IpcTypes.DiscriminantOfTryFrom | src/converter/event/ipc_type.rs:11-25 | a converted byte is the discriminant of its type |
| IpcTypes.DiscriminantInjective | src/converter/event/ipc_type.rs:4-9 | the discriminants are distinct |
| IpcTypes.DebugNameInjective | src/converter/event/ipc_type.rs:11-25 | the debug names are distinct |
| IpcTypes.NumToStrCases | src/converter/event/ipc_type.rs:27-35 | `num_to_str` gives the type's debug name for a discriminant and "Unk" otherwise; "Unk" means the Unk type or an unknown byte |
| IpcTypes.SendOpenWaitIsUnknown | src/converter/event/ipc_type.rs:27-35 | worked example: byte 5 is not a discriminant and prints as "Unk" |
| CtfStates.New | src/converter/types.rs:49-65 | a new message buffer is empty and within its non-zero capacity |
| CtfStates.Push | src/converter/types.rs:98-108 | a null message or a full buffer is refused with the buffer unchanged; otherwise the message is appended |
| CtfStates.Release | src/converter/types.rs:67-73 | releasing reports no messages exactly when the buffer is empty, else their count, and never Done |
| CtfStates.PushAll | src/converter/types.rs:98-108 | pushing several messages succeeds exactly when they fit, and appends them in order |
| Plugin.NewPlugin | src/converter/plugin.rs:38-62 | a new plugin has observed nothing and its stream is closed; it holds the given queue, end-of-file flag and registry |
| Plugin.Enqueue | src/main.rs:170-176 | pushing an event appends it to the back of the queue and changes nothing else |
| Plugin.ReadEvent | src/converter/plugin.rs:198-208 | reading yields nothing exactly when the queue is empty; otherwise it pops the front event and changes nothing else |
| Plugin.ReadManyInOrder | src/converter/plugin.rs:198-208 | successive reads yield the queue's events in order |
| Plugin.EnqueueKeepsFront | src/converter/plugin.rs:198-208 | pushing at the back does not change which event a read yields |
| Plugin.ProcessEvent | src/converter/plugin.rs:210-222 | processing marks the first event observed and runs the converter; it succeeds exactly when conversion succeeds and the buffer has room, appending the event message |
| Plugin.ShutdownStep | src/converter/plugin.rs:259-276 | early shutdown sets end of file and emits packet end then stream end, failing when fewer than two messages fit; as written nothing else changes; corrected, it ends only an open stream, closes it and records the shutdown, and answers Done on a stream never begun |
| Plugin.EventStep | src/converter/plugin.rs:278-307 | handling a queued event consumes it, leaves the stream open, never emits an end message, and reports as many messages as it emits |
| Plugin.Emit | src/converter/plugin.rs:280-306 | the event branch's pushes keep the plugin ready, emit no end message, and report as many messages as they emit |
| Plugin.EmitConverts | src/converter/plugin.rs:280-306 | the event branch succeeds exactly when the begin messages fit and conversion succeeds, and then emits the begin messages followed by the event message |
| Plugin.IdleStep | src/converter/plugin.rs:308-334 | on an empty queue: Done once the stream closed after an event (corrected: or is closed at end of file); end messages and a closed stream at end of file; otherwise no messages |
| Plugin.Next | src/converter/plugin.rs:250-336 | each call keeps the plugin ready, sets end of file exactly when interrupted or already set, and reports exactly the messages it emits; corrected, a shut-down iterator answers Done and changes nothing |
| Plugin.IteratorNextAsWritten | src/converter/plugin.rs:250-336 | the iterator as written keeps the plugin ready and records end of file |
| Plugin.IteratorNext | src/converter/plugin.rs:250-336 | the corrected iterator keeps the plugin ready and records end of file, and once shut down answers Done and changes nothing |
| Plugin.EarlyShutdown | src/converter/plugin.rs:259-276 | in either version, an interrupt before end of file on an open stream (any stream, as written) emits exactly packet end and stream end, keeps the queue and converter, and leaves the stream marked open only as written |
| Plugin.EventMessages | src/converter/plugin.rs:278-307 | in either version, with room, an event opens the stream when needed, emitting stream and packet beginning before the event message, and succeeds exactly when conversion does |
| Plugin.SmallBufferRejectsOpening | src/converter/plugin.rs:280-291 | in either version, a one-slot buffer cannot take the two begin messages, yet the stream is already marked open |
| Plugin.EmptyQueue | src/converter/plugin.rs:308-334 | in either version, the outcomes of an empty queue, and which state each leaves |
| Plugin.StreamEndFinishes | src/converter/plugin.rs:250-336 | once an event has been seen, a call that emits stream end leaves the iterator finished |
| Plugin.FinishedStaysDone | src/converter/plugin.rs:308-311 | in either version, a finished iterator with an empty queue answers Done and changes nothing |
| Plugin.ShutdownThenDone | src/converter/plugin.rs:259-307 | corrected: an interrupt ends an open stream once and a never-begun stream not at all; afterwards every call answers Done and releases nothing, whatever is queued |
| Plugin.NoEventThenDone | src/converter/plugin.rs:308-330 | corrected: with no event seen, once the input is over or an interrupt arrives, the iterator answers Done, releases nothing, and keeps answering Done |
| Plugin.AsWrittenEndsTwice | src/converter/plugin.rs:259-334 | as written, with one event queued on an open stream, the interrupt's call ends the stream, the next call emits the event after the stream end, and the call after that ends the stream a second time, because early shutdown left it marked open |
| Plugin.AsWrittenEventAfterEnd | src/converter/plugin.rs:259-307 | as written, an event still queued at the interrupt goes out on the next call after stream end, with no new stream beginning |
| Plugin.AsWrittenNeverDone | src/converter/plugin.rs:308-330 | as written, with no event seen, every call after the input is over or an interrupt arrives emits packet end and stream end again and leaves the state unchanged, so Done never comes (a state the receive loop never produces) |
| Metadata.Trim | src/main.rs:256 | `trim` removes exactly the leading and trailing whitespace |
| Metadata.TrimIdempotent | src/main.rs:256 | trimming twice is trimming once |
| Metadata.LinesOfJoin | src/main.rs:238 | splitting newline-terminated lines gives them back |
| Metadata.JoinOfLines | src/main.rs:238-253 | re-joining the lines of a newline-terminated text without CR gives the text back |
| Metadata.SectionHeaderMeans | src/main.rs:229 | a line heads a block exactly when it starts with `trace {`, `env {` or `clock {`, and the block name is that word |
| Metadata.HeaderUnambiguous | src/main.rs:229 | a line heads at most one kind of block |
| Metadata.MergeLine | src/main.rs:239-258 | a line is kept exactly when it heads an unseen block or copying is on and it heads no block; only an unseen header is recorded; afterwards copying is on exactly when the line heads an unseen block, or heads no block while copying was on, or trims to `};` |
| Metadata.SeenIsHeaders | src/main.rs:239-248 | the recorded sections are exactly the block names headed so far, each once |
| Metadata.HeadersCopiedOnce | src/main.rs:239-253 | the merged text heads each block at most once |
| Metadata.NoRepeatKeepsAll | src/main.rs:238-258 | input without a repeated block header is copied whole |
| Metadata.FirstBlockCopied | src/main.rs:238-258 | the first `clock` block is copied line by line |
| Metadata.RepeatedBlockSkipped | src/main.rs:238-258 | a fixed example: a second `clock` block is dropped up to and including its `};`, and copying resumes after it |
| Metadata.ClosingLineIsNoHeader | src/main.rs:229-256 | a line that trims to `};` heads no block |
| Metadata.SkipBody | src/main.rs:250-258 | while copying is off, lines that head no block and do not trim to `};` are all dropped and change nothing |
| Metadata.RepeatedBlockDropped | src/main.rs:238-258 | after any prefix, the header of an already seen block, any lines that head no block and do not trim to `};`, and a closing `};` line are all dropped; copying is on afterwards and the seen blocks are unchanged |
| Metadata.MergeFile | src/main.rs:238-259 | merging one file's lines continues the merge of everything before it |
| Metadata.MergeMetadata | src/main.rs:226-260 | the merged metadata is the kept lines of all files, in order, each ending in a newline |

## Left out

- Threads, channels, the mutex, the shared end-of-file flag and the
  interrupt handler. Each thread's loop is modelled as a sequential
  function over its input sequence.
- Network I/O, TCP framing, file reading and writing, directory creation,
  and copying the stream files in `merge_traces`. Frames, metadata file
  contents and read outcomes are inputs.
- babeltrace2 FFI: component and graph setup, stream and packet objects,
  clock and trace environment, field writing (`emit_event`). Messages are
  abstract tokens. Class creation is a parameter that may fail. Creating
  a message is assumed to succeed: the plugin always pushes a message,
  never a null one, so the buffer's null-message error is never reached
  from the plugin.
- The KE, KE-BIN and KE-REG converters. The decoder never produces those
  variants, and `Converter.Convert` requires an event that is not one of
  them.
- Converter.UpdateRegistry: the FACTORY fields `obj` and `newo` come from
  `Env`, because the FACTORY payload layout is not part of this model.
- Records.IpcTryFrom: the receiver name is a parameter. The call site
  passes the registry where the IPC conversion expects a name, so the
  name's resolution is not modelled.
- Records.IpcResTryFrom: follows the one-argument conversion from the
  event alone (src/converter/event/ipc_res.rs:20). The call site
  (src/converter/convert.rs:419) also passes the string cache and the
  registry, and the model ignores them.
- Converter.New: the registry is a value held by each converter. In the
  source it is a shared handle (src/converter/convert.rs:58, 74), and the
  receive loop hands every CPU's converter the same map
  (src/main.rs:142, 159). So a NAM, DESTROY or FACTORY event converted on
  one CPU also changes how the other CPUs' scheduling records resolve
  names, and such updates between two calls are not modelled. How the
  shared map reaches the converter is not part of this model either: the
  plugin constructs its converter without an argument
  (src/converter/plugin.rs:60).
- Dispatch.DispatchAll: the CPU list is in first-seen order. The source
  collects the keys of a `HashMap`, whose order is unspecified.
- `convert_once`, the per-CPU converter construction, and the
  command-line options.
- Logging (`warn!`, `info!`, `debug!`) and the `println!` for a FACTORY
  id of "0".
- Registries.Mask: CTX_MASK is written arithmetically as the page start.
  `Registries.MaskClearsLowBits` proves it equals the bitwise AND.
- Plugin.IteratorNextAsWritten: only ready-state and end-of-file facts
  are stated. Its other behaviour is given through `Plugin.Next` and the
  lemmas stated for either version, and through
  `Plugin.AsWrittenEndsTwice`, `Plugin.AsWrittenEventAfterEnd` and
  `Plugin.AsWrittenNeverDone`.
- Plugin.IteratorNext: the contract states only the shared invariants.
  The lemmas `Plugin.EarlyShutdown`, `Plugin.EventMessages`,
  `Plugin.EmptyQueue`, `Plugin.StreamEndFinishes`,
  `Plugin.ShutdownThenDone` and `Plugin.NoEventThenDone` state its
  behaviour case by case.
- Finalize and initialize of the plugin: reference counting of the
  stream and packet.

## Findings

| source | as written | input that shows it | evidently intended | confidence | as-written member | corrected member |
|---|---|---|---|---|---|---|
| src/converter/plugin.rs:259-276 | the early-shutdown branch emits packet end and stream end but leaves `stream_is_open` set | stream open, interrupt set while the event just queued by the receive loop (src/main.rs:168-176) is still waiting: the interrupt's call ends the stream and leaves the event queued; the next call emits the event after the stream end; with the queue then empty and `stream_is_open` still set, the call after that takes the end-of-file branch (lines 312-330) and emits packet end and stream end again | end the stream once and mark it closed, as the end-of-file branch does at line 328; after the shutdown every call answers Done | not executed | Plugin.AsWrittenEndsTwice | Plugin.ShutdownThenDone |
| src/converter/plugin.rs:259-307 | after an early shutdown, the event branch still drains the queue | stream open, an event queued, interrupt set: the first call ends the stream; the next call emits the queued event after stream end, with no new stream beginning | after the shutdown every call answers Done, whatever is queued | not executed | Plugin.AsWrittenEventAfterEnd | Plugin.ShutdownThenDone |
| src/converter/plugin.rs:308-330 | `Done` requires `first_event_observed`, so with no event ever seen the end-of-file branch runs on every call | latent in the component: src/main.rs:143-176 creates a plugin only together with its first queued event, so the receive loop never reaches this state. A caller that does (empty queue, no event observed, end of file reached or interrupt set) gets packet end and stream end for a stream never begun on every call, with the state unchanged, and never Done | end no stream that was never begun, and answer Done once the stream is closed and the input is over | not executed | Plugin.AsWrittenNeverDone | Plugin.NoEventThenDone |

=== FILE: admission.dfy ===
/**
 The parser thread: every 128-byte frame received from the network is
 decoded, and a decoded event is forwarded only when its sequence number
 is larger than every number seen before (or it is the first event).
 Duplicates and late events are dropped; a gap in the numbers is
 reported as that many lost events.

 Frames that do not decode are skipped. The channel to the converter
 thread is a sequence the forwarded events are appended to.
 */
module Admission {
  import opened Bytes
  import opened Wrappers
  import opened Events
  import opened Decoder

  function Number(e: Event): u64 {
    Common(e).number
  }

  /** `first_event_observed` and `biggest_event_num`. */
  datatype Filter = Filter(firstEventObserved: bool, biggest: u64)

  const START: Filter := Filter(false, 0)

  /**
   One decoded event through the filter: the new filter, whether the
   event is forwarded, and the number of lost events reported.
   */
  function Admit(f: Filter, e: Event): (r: (Filter, bool, nat))
    ensures r.1 <==> !f.firstEventObserved || Number(e) > f.biggest
    ensures r.1 ==> r.0 == Filter(true, Number(e))
    ensures !r.1 ==> r.0 == f && r.2 == 0
    ensures r.1 && f.firstEventObserved ==> f.biggest + 1 + r.2 == Number(e)
    ensures !f.firstEventObserved ==> r.2 == 0
  {
    var n := Number(e);
    if n > f.biggest || !f.firstEventObserved then
      var dropped := if f.firstEventObserved then n - f.biggest - 1 else 0;
      (Filter(true, n), true, dropped)
    else (f, false, 0)
  }

  /** The filter's state, the forwarded events and the lost-event total after a run. */
  datatype Parsed = Parsed(filter: Filter, out: seq<Event>, dropped: nat)

  function Run(es: seq<Event>): Parsed
    decreases |es|
  {
    if |es| == 0 then Parsed(START, [], 0)
    else
      var p := Run(es[..|es| - 1]);
      var (f, fwd, d) := Admit(p.filter, es[|es| - 1]);
      Parsed(f, if fwd then p.out + [es[|es| - 1]] else p.out, p.dropped + d)
  }

  // ---------------------------------------------------------------------
  // Reference definition: the events that beat every earlier number

  /** The largest sequence number among `es`. */
  function MaxNumber(es: seq<Event>): (m: u64)
    requires |es| > 0
    ensures forall i :: 0 <= i < |es| ==> Number(es[i]) <= m
    ensures exists i :: 0 <= i < |es| && Number(es[i]) == m
    decreases |es|
  {
    if |es| == 1 then Number(es[0])
    else
      var m := MaxNumber(es[..|es| - 1]);
      assert forall i :: 0 <= i < |es| - 1 ==> es[..|es| - 1][i] == es[i];
      if Number(es[|es| - 1]) > m then Number(es[|es| - 1]) else m
  }

  /** Event `i` has a larger number than every event before it. */
  predicate Fresh(es: seq<Event>, i: int)
    requires 0 <= i < |es|
  {
    forall j :: 0 <= j < i ==> Number(es[j]) < Number(es[i])
  }

  /** The fresh events, in order. */
  function FreshEvents(es: seq<Event>): seq<Event>
    decreases |es|
  {
    if |es| == 0 then []
    else if Fresh(es, |es| - 1) then FreshEvents(es[..|es| - 1]) + [es[|es| - 1]]
    else FreshEvents(es[..|es| - 1])
  }

  /** After a non-empty run the filter holds the largest number seen so far. */
  lemma {:induction false} RunKeepsMax(es: seq<Event>)
    ensures Run(es).filter == if |es| == 0 then START else Filter(true, MaxNumber(es))
    decreases |es|
  {
    if |es| > 1 {
      RunKeepsMax(es[..|es| - 1]);
    }
  }

  /** The filter forwards exactly the fresh events. */
  lemma {:induction false} RunForwardsFresh(es: seq<Event>)
    ensures Run(es).out == FreshEvents(es)
    decreases |es|
  {
    if |es| > 0 {
      var init := es[..|es| - 1];
      RunForwardsFresh(init);
      RunKeepsMax(init);
      if |init| > 0 {
        var m := MaxNumber(init);
        var k :| 0 <= k < |init| && Number(init[k]) == m;
        assert init[k] == es[k];
        assert forall j :: 0 <= j < |init| ==> init[j] == es[j];
        assert Fresh(es, |es| - 1) <==> Number(es[|es| - 1]) > m;
      }
    }
  }

  /** Forwarded numbers increase strictly, and none exceeds the filter's maximum. */
  lemma {:induction false} ForwardedIncreasing(es: seq<Event>)
    ensures var p := Run(es);
      && (forall i, j :: 0 <= i < j < |p.out| ==> Number(p.out[i]) < Number(p.out[j]))
      && (forall i :: 0 <= i < |p.out| ==> Number(p.out[i]) <= p.filter.biggest)
      && (|p.out| > 0 <==> p.filter.firstEventObserved)
      && (|p.out| > 0 ==> Number(p.out[|p.out| - 1]) == p.filter.biggest)
    decreases |es|
  {
    if |es| > 0 {
      ForwardedIncreasing(es[..|es| - 1]);
    }
  }

  /**
   The lost events reported add up to the numbers the forwarded events
   skipped: the span from the first to the last forwarded number, less
   the forwarded events themselves.
   */
  lemma {:induction false} DroppedCountsGaps(es: seq<Event>)
    ensures var p := Run(es);
      |p.out| > 0 ==> p.dropped + |p.out| == Number(p.out[|p.out| - 1]) - Number(p.out[0]) + 1
    ensures |Run(es).out| == 0 ==> Run(es).dropped == 0
    decreases |es|
  {
    if |es| > 0 {
      DroppedCountsGaps(es[..|es| - 1]);
      ForwardedIncreasing(es[..|es| - 1]);
    }
  }

  // ---------------------------------------------------------------------
  // The parser loop over received frames

  /** Running the filter over one more event. */
  lemma RunStep(es: seq<Event>, e: Event)
    ensures var p := Run(es);
      var (f, fwd, lost) := Admit(p.filter, e);
      Run(es + [e]) == Parsed(f, if fwd then p.out + [e] else p.out, p.dropped + lost)
  {
    assert (es + [e])[..|es|] == es;
  }

  /** What `next_event` makes of each received frame, in order. */
  function DecodeAll(frames: seq<Frame>): (rs: seq<Result<Event, DecodeError>>)
    ensures |rs| == |frames|
    decreases |frames|
  {
    if |frames| == 0 then []
    else DecodeAll(frames[..|frames| - 1]) + [Decode(frames[|frames| - 1])]
  }

  /** Decoding one more frame appends its result. */
  lemma DecodeAllStep(frames: seq<Frame>, i: int)
    requires 0 <= i < |frames|
    ensures DecodeAll(frames[..i + 1]) == DecodeAll(frames[..i]) + [Decode(frames[i])]
  {
    assert frames[..i + 1][..i] == frames[..i];
  }

  /** The decoded events, in order, skipping the frames that did not decode. */
  function Decoded(rs: seq<Result<Event, DecodeError>>): seq<Event>
    decreases |rs|
  {
    if |rs| == 0 then []
    else
      var d := rs[|rs| - 1];
      Decoded(rs[..|rs| - 1]) + (if d.Ok? then [d.value] else [])
  }

  /** The parser's handling of one received frame's decoding. */
  function Step(p: Parsed, d: Result<Event, DecodeError>): Parsed
  {
    match d
    case Err(_) => p
    case Ok(e) =>
      var (f, fwd, lost) := Admit(p.filter, e);
      Parsed(f, if fwd then p.out + [e] else p.out, p.dropped + lost)
  }

  /** Handling one more frame continues the run over the decoded events. */
  lemma StepContinuesRun(rs: seq<Result<Event, DecodeError>>, d: Result<Event, DecodeError>)
    ensures Run(Decoded(rs + [d])) == Step(Run(Decoded(rs)), d)
  {
    assert (rs + [d])[..|rs|] == rs;
    var es := Decoded(rs);
    match d
    case Err(_) =>
      assert Decoded(rs + [d]) == es + [];
      assert es + [] == es;
    case Ok(e) =>
      assert Decoded(rs + [d]) == es + [e];
      RunStep(es, e);
  }

  /**
   The parser thread's loop: decode each frame with `next_event`, skip
   failures, and filter by sequence number.
   */
  method ParseFrames(frames: seq<Frame>) returns (out: seq<Event>, dropped: nat)
    ensures out == FreshEvents(Decoded(DecodeAll(frames)))
    ensures dropped == Run(Decoded(DecodeAll(frames))).dropped
    ensures forall i, j :: 0 <= i < j < |out| ==> Number(out[i]) < Number(out[j])
  {
    var p := Parsed(START, [], 0);
    var i := 0;
    while i < |frames|
      invariant 0 <= i <= |frames|
      invariant Run(Decoded(DecodeAll(frames[..i]))) == p
    {
      var d := Decode(frames[i]);
      DecodeAllStep(frames, i);
      StepContinuesRun(DecodeAll(frames[..i]), d);
      p := Step(p, d);
      i := i + 1;
    }
    assert frames[..|frames|] == frames;
    RunForwardsFresh(Decoded(DecodeAll(frames)));
    ForwardedIncreasing(Decoded(DecodeAll(frames)));
    out, dropped := p.out, p.dropped;
  }

  /** Numbers 5, 3, 6, 6, 7: the late 3 and the repeated 6 are dropped. */
  lemma DuplicatesAndLateDropped(a: Event, b: Event, c: Event, d: Event, e: Event)
    requires Number(a) == 5 && Number(b) == 3 && Number(c) == 6 && Number(d) == 6
    requires Number(e) == 7
    ensures Run([a, b, c, d, e]).out == [a, c, e]
    ensures Run([a, b, c, d, e]).dropped == 0
  {
    assert [a, b, c, d, e][..4] == [a, b, c, d];
    assert [a, b, c, d][..3] == [a, b, c];
    assert [a, b, c][..2] == [a, b];
    assert [a, b][..1] == [a];
    assert [a][..0] == [];
    assert Run([a]) == Parsed(Filter(true, 5), [a], 0);
    assert Run([a, b]) == Parsed(Filter(true, 5), [a], 0);
    assert Run([a, b, c]) == Parsed(Filter(true, 6), [a, c], 0);
    assert Run([a, b, c, d]) == Parsed(Filter(true, 6), [a, c], 0);
  }

  /** Numbers 5 then 10: four events reported lost. */
  lemma GapReported(a: Event, b: Event)
    requires Number(a) == 5 && Number(b) == 10
    ensures Run([a, b]).out == [a, b] && Run([a, b]).dropped == 4
  {
    assert [a, b][..1] == [a];
    assert [a][..0] == [];
    assert Run([a]) == Parsed(Filter(true, 5), [a], 0);
  }
}

=== FILE: bytes.dfy ===
/**
 Fixed-width integers and little-endian byte decoding.

 Rust's fixed-width integers are modelled as bounded mathematical integers;
 the casts the converter performs (`u64 as i64`, `u32 as i32`) are written
 out as two's-complement reinterpretations.
 */
module Bytes {

  type u8 = x: int | 0 <= x < 0x100
  type u32 = x: int | 0 <= x < 0x1_0000_0000
  type u64 = x: int | 0 <= x < 0x1_0000_0000_0000_0000
  type i32 = x: int | -0x8000_0000 <= x < 0x8000_0000
  type i64 = x: int | -0x8000_0000_0000_0000 <= x < 0x8000_0000_0000_0000

  const TWO_POW_32: int := 0x1_0000_0000
  const TWO_POW_64: int := 0x1_0000_0000_0000_0000

  /** 256 to the power `n`: one more than the largest value `n` bytes hold. */
  function Pow256(n: nat): (r: nat)
    ensures r >= 1
  {
    if n == 0 then 1 else 256 * Pow256(n - 1)
  }

  /** The unsigned integer whose little-endian encoding is `s`. */
  function LeValue(s: seq<u8>): nat
  {
    if |s| == 0 then 0 else s[0] + 256 * LeValue(s[1..])
  }

  /** The `n`-byte little-endian encoding of `v`. */
  function LeBytes(v: nat, n: nat): (s: seq<u8>)
    requires v < Pow256(n)
    ensures |s| == n
  {
    if n == 0 then [] else [v % 256] + LeBytes(v / 256, n - 1)
  }

  /** A little-endian value always fits in as many bytes as it was read from. */
  lemma {:induction false} LeValueBound(s: seq<u8>)
    ensures LeValue(s) < Pow256(|s|)
  {
    if |s| > 0 {
      LeValueBound(s[1..]);
    }
  }

  /** Decoding an encoding gives back the encoded value. */
  lemma {:induction false} LeValueOfBytes(v: nat, n: nat)
    requires v < Pow256(n)
    ensures LeValue(LeBytes(v, n)) == v
  {
    if n > 0 {
      LeValueOfBytes(v / 256, n - 1);
      assert LeBytes(v, n)[1..] == LeBytes(v / 256, n - 1);
    }
  }

  /** Encoding a decoded value gives back the bytes it was read from. */
  lemma {:induction false} LeBytesOfValue(s: seq<u8>)
    ensures LeValue(s) < Pow256(|s|)
    ensures LeBytes(LeValue(s), |s|) == s
  {
    LeValueBound(s);
    if |s| > 0 {
      LeBytesOfValue(s[1..]);
      assert (s[0] + 256 * LeValue(s[1..])) / 256 == LeValue(s[1..]);
    }
  }

  lemma WidthBounds()
    ensures Pow256(4) == TWO_POW_32
    ensures Pow256(8) == TWO_POW_64
  {
  }

  /** Reads a little-endian u32 from the head of `s`; returns it and the rest. */
  function ReadU32(s: seq<u8>): (r: (u32, seq<u8>))
    requires |s| >= 4
  {
    LeValueBound(s[..4]);
    WidthBounds();
    (LeValue(s[..4]), s[4..])
  }

  /** Reads a little-endian u64 from the head of `s`; returns it and the rest. */
  function ReadU64(s: seq<u8>): (r: (u64, seq<u8>))
    requires |s| >= 8
  {
    LeValueBound(s[..8]);
    WidthBounds();
    (LeValue(s[..8]), s[8..])
  }

  /** Two byte strings of equal length with equal little-endian values are equal. */
  lemma LeValueInjective(a: seq<u8>, b: seq<u8>)
    requires |a| == |b| && LeValue(a) == LeValue(b)
    ensures a == b
  {
    LeBytesOfValue(a);
    LeBytesOfValue(b);
  }

  /** The 4-byte little-endian encoding of `v`. */
  ghost function U32Bytes(v: u32): (s: seq<u8>)
    ensures |s| == 4 && LeValue(s) == v
  {
    WidthBounds();
    LeValueOfBytes(v, 4);
    var s :| |s| == 4 && LeValue(s) == v;
    s
  }

  /** The 8-byte little-endian encoding of `v`. */
  ghost function U64Bytes(v: u64): (s: seq<u8>)
    ensures |s| == 8 && LeValue(s) == v
  {
    WidthBounds();
    LeValueOfBytes(v, 8);
    var s :| |s| == 8 && LeValue(s) == v;
    s
  }

  /** Reading back a written u64 in front of any tail restores value and tail. */
  lemma ReadU64OfBytes(v: u64, tail: seq<u8>)
    ensures ReadU64(U64Bytes(v) + tail) == (v, tail)
  {
    var s := U64Bytes(v) + tail;
    assert s[..8] == U64Bytes(v);
  }

  lemma ReadU32OfBytes(v: u32, tail: seq<u8>)
    ensures ReadU32(U32Bytes(v) + tail) == (v, tail)
  {
    var s := U32Bytes(v) + tail;
    assert s[..4] == U32Bytes(v);
  }

  /** Writing back a read u64 restores the bytes it was read from. */
  lemma U64BytesOfRead(s: seq<u8>)
    requires |s| >= 8
    ensures U64Bytes(ReadU64(s).0) + ReadU64(s).1 == s
  {
    LeValueInjective(U64Bytes(ReadU64(s).0), s[..8]);
    assert s[..8] + s[8..] == s;
  }

  lemma U32BytesOfRead(s: seq<u8>)
    requires |s| >= 4
    ensures U32Bytes(ReadU32(s).0) + ReadU32(s).1 == s
  {
    LeValueInjective(U32Bytes(ReadU32(s).0), s[..4]);
    assert s[..4] + s[4..] == s;
  }

  /** Rust's `x as i64` on a u64: the i64 with the same 64-bit pattern. */
  function AsI64(x: u64): (r: i64)
    ensures r % TWO_POW_64 == x
    ensures r >= 0 <==> x < 0x8000_0000_0000_0000
  {
    if x < 0x8000_0000_0000_0000 then x else x - TWO_POW_64
  }

  /** Rust's `x as i32` on a u32: the i32 with the same 32-bit pattern. */
  function AsI32(x: u32): (r: i32)
    ensures r % TWO_POW_32 == x
    ensures r >= 0 <==> x < 0x8000_0000
  {
    if x < 0x8000_0000 then x else x - TWO_POW_32
  }
}

=== FILE: convert.dfy ===
/**
 The converter proper (`TrcCtfConverter`): it keeps the registry of kernel
 objects up to date, fills every record's common context from it, caches
 one event class per event name and builds the record of each event.

 The trace library's event, message and class objects are outside the
 model: an event class is an abstract handle, and creating one is an input
 (`Env.newClass`) that may fail.
 */
module Converter {
  import opened Bytes
  import opened Wrappers
  import opened Texts
  import opened Events
  import opened Helpers
  import opened StringCaches
  import KO = KernelObjects
  import opened Registries
  import opened Records

  type ClassHandle = nat

  datatype FfiError = FfiError

  datatype ConverterState = ConverterState(
    classes: map<string, ClassHandle>,
    cache: StringCache,
    registry: Registry)

  /**
   Values the converter takes from outside the modelled code: the FACTORY
   payload's `obj` and `newo` fields, the receiver name handed to the IPC
   record, and what creating a new event class returns.
   */
  datatype Env = Env(
    factoryObj: u64,
    factoryNewo: u64,
    rcvName: Text,
    newClass: Result<ClassHandle, FfiError>)

  /** `TrcCtfConverter::new`: interns "" first, so index 0 is the empty string. */
  function New(reg: Registry): (s: ConverterState)
    ensures Valid(s.cache)
    ensures |s.cache.strings| == 1 && GetById(s.cache, 0) == []
    ensures s.registry == reg && s.classes == map[]
  {
    InsertPreservesValid(StringCaches.Empty(), []);
    ConverterState(map[], Insert(StringCaches.Empty(), []).0, reg)
  }

  // ---------------------------------------------------------------------
  // Event classes

  /**
   `event_class`: the class cached for `eventType`, or the one `made` by
   the constructor, which is invoked (third component) only when nothing
   is cached; a failed construction caches nothing.
   */
  function EventClass(classes: map<string, ClassHandle>, eventType: string,
                      made: Result<ClassHandle, FfiError>)
    : (r: (map<string, ClassHandle>, Result<ClassHandle, FfiError>, bool))
    ensures r.2 <==> eventType !in classes
    ensures eventType in classes ==> r.0 == classes && r.1 == Ok(classes[eventType])
    ensures !r.2 || r.1 == made
    ensures r.1.Ok? ==> eventType in r.0 && r.0[eventType] == r.1.value
    ensures forall k :: k in classes ==> k in r.0 && r.0[k] == classes[k]
    ensures r.0.Keys <= classes.Keys + {eventType}
  {
    if eventType in classes then (classes, Ok(classes[eventType]), false)
    else match made
      case Ok(h) => (classes[eventType := h], Ok(h), true)
      case Err(e) => (classes, Err(e), true)
  }

  /**
   The constructor runs at most once per event name: once a class has been
   made, later lookups return it without invoking the constructor, whatever
   it would return.
   */
  lemma EventClassAtMostOnce(classes: map<string, ClassHandle>, eventType: string,
                             made: Result<ClassHandle, FfiError>,
                             later: Result<ClassHandle, FfiError>)
    requires EventClass(classes, eventType, made).1.Ok?
    ensures var (c1, h1, _) := EventClass(classes, eventType, made);
      var (c2, h2, invoked) := EventClass(c1, eventType, later);
      !invoked && h2 == h1 && c2 == c1
  {
  }

  // ---------------------------------------------------------------------
  // Common context

  datatype CommonCtx = CommonCtx(
    eventId: u8, eventCount: u64, ip: u64, tsc: u64, ctx: u64,
    pmc1: u64, pmc2: u64, kclock: u64, name: Text, dbgId: Text)

  /** The name and debug id the common context shows for the object at `key`. */
  function ObjectLabels(reg: Registry, key: u64): (Text, Text)
  {
    if key in reg then (KO.Name(reg[key]), KO.Id(reg[key])) else ([], [])
  }

  /**
   `add_event_common_ctx`: copies the header, writes the masked context
   pointer, and takes name and debug id from the registry entry at that
   key (both empty when there is none), interning them. It fails only when
   one of them holds NUL.
   */
  function AddEventCommonCtx(cache: StringCache, reg: Registry, common: EventCommon)
    : (r: (StringCache, Result<CommonCtx, NulError>))
    requires Valid(cache)
    ensures Valid(r.0)
    ensures r.1.Ok? <==>
      NoNul(ObjectLabels(reg, Mask(common.ctx)).0) && NoNul(ObjectLabels(reg, Mask(common.ctx)).1)
    ensures r.1.Ok? ==> var c := r.1.value;
      && c.eventId == common.typeCode
      && c.eventCount == common.number && c.ip == common.ip && c.tsc == common.tsc
      && c.ctx == Mask(common.ctx)
      && c.pmc1 == common.pmc1 && c.pmc2 == common.pmc2 && c.kclock == common.kclock
      && (c.name, c.dbgId) == ObjectLabels(reg, Mask(common.ctx))
  {
    var key := Mask(common.ctx);
    var base := CommonCtx(common.typeCode, common.number, common.ip, common.tsc, key,
      common.pmc1, common.pmc2, common.kclock, [], []);
    if key in reg then
      var o := reg[key];
      InsertPreservesValid(cache, KO.Name(o));
      var (c1, nameId) := Insert(cache, KO.Name(o));
      if nameId.Err? then (c1, Err(nameId.error))
      else
        InsertPreservesValid(c1, KO.Id(o));
        InsertKeepsIndices(c1, KO.Id(o), KO.Name(o));
        var (c2, idId) := Insert(c1, KO.Id(o));
        if idId.Err? then (c2, Err(idId.error))
        else (c2, Ok(base.(name := GetById(c2, nameId.value), dbgId := GetById(c2, idId.value))))
    else
      InsertPreservesValid(cache, []);
      var (c1, emptyId) := Insert(cache, []);
      (c1, Ok(base.(name := GetById(c1, emptyId.value), dbgId := GetById(c1, emptyId.value))))
  }

  /** On a clean registry the common context is always filled. */
  lemma CommonCtxSucceeds(cache: StringCache, reg: Registry, common: EventCommon)
    requires Valid(cache) && Clean(reg)
    ensures AddEventCommonCtx(cache, reg, common).1.Ok?
  {
  }

  // ---------------------------------------------------------------------
  // Registry transitions

  /** The name a NAM event stores: the decoded name, or "" when it is not UTF-8. */
  function NamName(ev: NamEvent): Text
  {
    match I8ArrayToString(ev.name)
    case Ok(n) => n
    case Err(_) => []
  }

  /**
   NAM at key `obj & CTX_MASK`: an existing object gets the event's id (in
   decimal) and name, keeping its role; otherwise a generic object with
   that id and name is added.
   */
  function ApplyNam(reg: Registry, ev: NamEvent): (r: Registry)
    ensures r.Keys == reg.Keys + {Mask(ev.obj)}
    ensures KO.Id(r[Mask(ev.obj)]) == Decimal(ev.id) && KO.Name(r[Mask(ev.obj)]) == NamName(ev)
    ensures Mask(ev.obj) in reg ==> (r[Mask(ev.obj)].Thread? <==> reg[Mask(ev.obj)].Thread?)
    ensures Mask(ev.obj) !in reg ==> r[Mask(ev.obj)].Generic?
    ensures forall k :: k in reg && k != Mask(ev.obj) ==> r[k] == reg[k]
  {
    var key := Mask(ev.obj);
    var id := Decimal(ev.id);
    var name := NamName(ev);
    if key in reg then reg[key := KO.SetName(KO.SetId(reg[key], id), name)]
    else reg[key := KO.Generic(KO.BaseKernelObject(id, name))]
  }

  /** DESTROY removes key `obj & CTX_MASK` and nothing else; an absent key is a no-op. */
  function ApplyDestroy(reg: Registry, ev: DestroyEvent): (r: Registry)
    ensures r.Keys == reg.Keys - {Mask(ev.obj)}
    ensures forall k :: k in r ==> r[k] == reg[k]
  {
    reg - {Mask(ev.obj)}
  }

  /** FACTORY puts a generic object with id `newo` (decimal) and an empty name at `obj & CTX_MASK`. */
  function ApplyFactory(reg: Registry, obj: u64, newo: u64): (r: Registry)
    ensures r.Keys == reg.Keys + {Mask(obj)}
    ensures r[Mask(obj)] == KO.Generic(KO.BaseKernelObject(Decimal(newo), []))
    ensures forall k :: k in reg && k != Mask(obj) ==> r[k] == reg[k]
  {
    reg[Mask(obj) := KO.Generic(KO.BaseKernelObject(Decimal(newo), []))]
  }

  /** The registry after an event: only NAM, DESTROY and FACTORY change it. */
  function UpdateRegistry(reg: Registry, e: Event, env: Env): Registry
  {
    match e
    case Nam(ev) => ApplyNam(reg, ev)
    case Destroy(ev) => ApplyDestroy(reg, ev)
    case Factory(_) => ApplyFactory(reg, env.factoryObj, env.factoryNewo)
    case _ => reg
  }

  /** No transition ever stores a name or id with NUL in it. */
  lemma UpdateRegistryKeepsClean(reg: Registry, e: Event, env: Env)
    requires Clean(reg)
    ensures Clean(UpdateRegistry(reg, e, env))
  {
    match e
    case Nam(ev) =>
      DecimalNoNul(ev.id);
      if I8ArrayToString(ev.name).Ok? {
        DecodedNameShape(ev.name);
      }
      var r := ApplyNam(reg, ev);
      forall k | k in r
        ensures NoNul(KO.Name(r[k])) && NoNul(KO.Id(r[k]))
      {
        if k != Mask(ev.obj) {
          assert r[k] == reg[k];
        }
      }
    case Factory(_) =>
      DecimalNoNul(env.factoryNewo);
      var r := ApplyFactory(reg, env.factoryObj, env.factoryNewo);
      forall k | k in r
        ensures NoNul(KO.Name(r[k])) && NoNul(KO.Id(r[k]))
      {
        if k != Mask(env.factoryObj) {
          assert r[k] == reg[k];
        }
      }
    case _ =>
  }

  // ---------------------------------------------------------------------
  // convert

  datatype ClassRef = SchedSwitchClass | SchedMigrateTaskClass | Dynamic(handle: ClassHandle)

  /** The record written into the event: built for six variants, the decoded event itself otherwise. */
  datatype Record =
    | NamRec(nam: NamRecord)
    | SwitchRec(switch: SchedSwitchRecord)
    | MigrateRec(migrate: SchedMigrateTaskRecord)
    | IpcRec(ipc: IpcRecord)
    | IpcResRec(ipcRes: IpcResRecord)
    | Plain(event: Event)

  datatype Emitted = Emitted(eventClass: ClassRef, ctx: CommonCtx, record: Record)

  datatype ConvertError = ClassFailed | NulInString | BadName

  /** The variants the decoder produces; the converters of the others are not modelled. */
  predicate Convertible(e: Event) {
    !(e.Ke? || e.KeBin? || e.KeReg?)
  }

  /** The class of an event: the two scheduling classes are made in advance, the rest on demand. */
  function ClassOf(classes: map<string, ClassHandle>, e: Event, env: Env)
    : (r: (map<string, ClassHandle>, Result<ClassRef, FfiError>))
    ensures (e.ContextSwitch? || e.Migration?) ==> r.0 == classes && r.1.Ok?
    ensures !(e.ContextSwitch? || e.Migration?) ==>
      var (c, h, _) := EventClass(classes, Name(e), env.newClass);
      r.0 == c && (r.1.Ok? <==> h.Ok?) && (h.Ok? ==> r.1.value == Dynamic(h.value))
  {
    if e.ContextSwitch? then (classes, Ok(SchedSwitchClass))
    else if e.Migration? then (classes, Ok(SchedMigrateTaskClass))
    else
      var (c, h, _) := EventClass(classes, Name(e), env.newClass);
      match h
      case Ok(handle) => (c, Ok(Dynamic(handle)))
      case Err(err) => (c, Err(err))
  }

  /** Whether building the record of `e` against `reg` succeeds: only NAM, sched_switch and sched_migrate_task can fail. */
  predicate Buildable(e: Event, reg: Registry) {
    match e
    case Nam(ev) => I8ArrayToString(ev.name).Ok?
    case ContextSwitch(ev) => NoNul(ExpectedSwitch(ev, reg).prevComm) && NoNul(ExpectedSwitch(ev, reg).nextComm)
    case Migration(ev) => NoNul(ExpectedMigrate(ev, reg).comm)
    case _ => true
  }

  /**
   The record `e` should carry, given the updated registry: the NAM record
   with the decoded name, the two scheduling records as resolved against
   the registry, the IPC and IPC-RES field projections, and the event
   itself for every other variant.
   */
  ghost predicate RecordFor(e: Event, reg: Registry, env: Env, rec: Record) {
    match e
    case Nam(ev) =>
      I8ArrayToString(ev.name).Ok? && rec == NamRec(NamRecord(ev.obj, ev.id, I8ArrayToString(ev.name).value))
    case ContextSwitch(ev) => rec == SwitchRec(ExpectedSwitch(ev, reg))
    case Migration(ev) => rec == MigrateRec(ExpectedMigrate(ev, reg))
    case Ipc(ev) => rec == IpcRec(IpcTryFrom(ev, env.rcvName).value)
    case IpcRes(ev) => rec == IpcResRec(IpcResTryFrom(ev).value)
    case _ => rec == Plain(e)
  }

  /** The record of `e`, built against the updated registry. */
  function BuildRecord(cache: StringCache, reg: Registry, e: Event, env: Env)
    : (r: (StringCache, Result<Record, ConvertError>))
    requires Valid(cache)
    ensures Valid(r.0)
    ensures r.1.Ok? <==> Buildable(e, reg)
    ensures r.1.Ok? ==> RecordFor(e, reg, env, r.1.value)
    ensures r.1.Err? ==> r.1.error == (if e.Nam? then BadName else NulInString)
    ensures Clean(reg) && r.1.Err? ==> e.Nam? && r.1.error == BadName
  {
    match e
    case Nam(ev) =>
      var (c, rec) := NamTryFrom(ev, cache);
      (c, if rec.Ok? then Ok(NamRec(rec.value)) else Err(BadName))
    case ContextSwitch(ev) =>
      SchedSwitchSucceeds(ev, cache, reg);
      var (c, rec) := SchedSwitchTryFrom(ev, cache, reg);
      (c, if rec.Ok? then Ok(SwitchRec(rec.value)) else Err(NulInString))
    case Migration(ev) =>
      SchedMigrateTaskSucceeds(ev, cache, reg);
      var (c, rec) := SchedMigrateTaskTryFrom(ev, cache, reg);
      (c, if rec.Ok? then Ok(MigrateRec(rec.value)) else Err(NulInString))
    case Ipc(ev) => (cache, Ok(IpcRec(IpcTryFrom(ev, env.rcvName).value)))
    case IpcRes(ev) => (cache, Ok(IpcResRec(IpcResTryFrom(ev).value)))
    case _ => (cache, Ok(Plain(e)))
  }

  /**
   `convert`: applies the registry transition first, then picks the event
   class, fills the common context from the updated registry and builds
   the record. State changes made before a failure are kept.
   */
  function Convert(st: ConverterState, e: Event, env: Env)
    : (r: (ConverterState, Result<Emitted, ConvertError>))
    requires Valid(st.cache) && Convertible(e)
    ensures Valid(r.0.cache)
    ensures r.0.registry == UpdateRegistry(st.registry, e, env)
    ensures forall k :: k in st.classes ==> k in r.0.classes && r.0.classes[k] == st.classes[k]
    ensures r.1.Ok? ==> r.1.value.ctx.ctx == Mask(Common(e).ctx)
    ensures r.1.Ok? ==>
      (r.1.value.ctx.name, r.1.value.ctx.dbgId) == ObjectLabels(r.0.registry, Mask(Common(e).ctx))
    ensures e.ContextSwitch? ==> r.0.classes == st.classes && (r.1.Ok? ==> r.1.value.eventClass == SchedSwitchClass)
    ensures e.Migration? ==> r.0.classes == st.classes && (r.1.Ok? ==> r.1.value.eventClass == SchedMigrateTaskClass)
    ensures !(e.ContextSwitch? || e.Migration?) ==>
      r.0.classes == EventClass(st.classes, Name(e), env.newClass).0 &&
      (r.1.Ok? ==> Name(e) in r.0.classes && r.1.value.eventClass == Dynamic(r.0.classes[Name(e)]))
    ensures r.1.Ok? <==>
      (e.ContextSwitch? || e.Migration? || Name(e) in st.classes || env.newClass.Ok?) &&
      NoNul(ObjectLabels(r.0.registry, Mask(Common(e).ctx)).0) &&
      NoNul(ObjectLabels(r.0.registry, Mask(Common(e).ctx)).1) &&
      Buildable(e, r.0.registry)
    ensures r.1.Err? ==>
      (r.1.error == ClassFailed <==> !(e.ContextSwitch? || e.Migration? || Name(e) in st.classes || env.newClass.Ok?))
    ensures r.1.Ok? ==> RecordFor(e, r.0.registry, env, r.1.value.record)
  {
    var reg := UpdateRegistry(st.registry, e, env);
    var (classes, cls) := ClassOf(st.classes, e, env);
    if cls.Err? then (ConverterState(classes, st.cache, reg), Err(ClassFailed))
    else
      var (c1, ctx) := AddEventCommonCtx(st.cache, reg, Common(e));
      if ctx.Err? then (ConverterState(classes, c1, reg), Err(NulInString))
      else
        var (c2, rec) := BuildRecord(c1, reg, e, env);
        var st' := ConverterState(classes, c2, reg);
        match rec
        case Ok(record) => (st', Ok(Emitted(cls.value, ctx.value, record)))
        case Err(err) => (st', Err(err))
  }

  /**
   Starting from a clean registry, `convert` fails only when a new event
   class cannot be made or a NAM name is not UTF-8, and the registry stays
   clean.
   */
  lemma ConvertFailsOnlyOnClassOrName(st: ConverterState, e: Event, env: Env)
    requires Valid(st.cache) && Convertible(e) && Clean(st.registry)
    ensures Clean(Convert(st, e, env).0.registry)
    ensures Convert(st, e, env).1.Err? ==>
      Convert(st, e, env).1.error == ClassFailed ||
      (e.Nam? && Convert(st, e, env).1.error == BadName && !I8ArrayToString(e.nam.name).Ok?)
  {
    var reg := UpdateRegistry(st.registry, e, env);
    UpdateRegistryKeepsClean(st.registry, e, env);
    var (classes, cls) := ClassOf(st.classes, e, env);
    if cls.Ok? {
      CommonCtxSucceeds(st.cache, reg, Common(e));
      var c1 := AddEventCommonCtx(st.cache, reg, Common(e)).0;
      if e.Nam? {
        assert BuildRecord(c1, reg, e, env).1.Err? ==> !I8ArrayToString(e.nam.name).Ok?;
      }
    }
  }

  /**
   A NAM event about the object that is itself running sees its own
   update: the common context shows the new name and id.
   */
  lemma NamSeesOwnUpdate(st: ConverterState, ev: NamEvent, env: Env)
    requires Valid(st.cache)
    requires Mask(ev.common.ctx) == Mask(ev.obj)
    requires Convert(st, Nam(ev), env).1.Ok?
    ensures Convert(st, Nam(ev), env).1.value.ctx.name == NamName(ev)
    ensures Convert(st, Nam(ev), env).1.value.ctx.dbgId == Decimal(ev.id)
  {
  }

  /** A DESTROY of the running object leaves its common context with empty labels. */
  lemma DestroySeesRemoval(st: ConverterState, ev: DestroyEvent, env: Env)
    requires Valid(st.cache)
    requires Mask(ev.common.ctx) == Mask(ev.obj)
    requires Convert(st, Destroy(ev), env).1.Ok?
    ensures Convert(st, Destroy(ev), env).1.value.ctx.name == []
    ensures Convert(st, Destroy(ev), env).1.value.ctx.dbgId == []
  {
  }

  /** After a NAM, a thread looked up at that key resolves to the NAM's id as its tid. */
  lemma NamIdBecomesTid(reg: Registry, ev: NamEvent, env: Env, key: u64)
    requires key == Mask(ev.obj) && ev.id <= I64_MAX
    ensures ResolvedTid(Lookup(UpdateRegistry(reg, Nam(ev), env), key), key) == ev.id
  {
    DecimalIdGivesTid(Lookup(UpdateRegistry(reg, Nam(ev), env), key), key, ev.id);
  }
}

=== FILE: ctf_state.dfy ===
/**
 The bounded message buffer one call of the message iterator fills
 (`BorrowedCtfState`): messages are stored in order in a caller-provided
 slice of fixed capacity, and releasing the buffer reports how many there
 are.

 Messages are abstract tokens; a message the trace library failed to
 create (a null pointer) is `None`.
 */
module CtfStates {
  import opened Wrappers

  datatype BufferError = NullMessage | Full

  datatype Status = NoMessages | Messages(count: nat) | Done

  datatype MsgBuffer<M> = MsgBuffer(capacity: nat, msgs: seq<M>)

  /** `msgs_len` never exceeds the slice length, which is never zero. */
  predicate Bounded<M>(b: MsgBuffer<M>) {
    0 < b.capacity && |b.msgs| <= b.capacity
  }

  /** `BorrowedCtfState::new`: the slice must not be empty; the buffer starts empty. */
  function New<M>(capacity: nat): (b: MsgBuffer<M>)
    requires capacity > 0
    ensures Bounded(b) && b.msgs == [] && b.capacity == capacity
  {
    MsgBuffer(capacity, [])
  }

  /**
   `push_message`: a null message and a full buffer are refused and leave
   the buffer as it is; otherwise the message is stored after the others.
   */
  function Push<M>(b: MsgBuffer<M>, m: Option<M>): (r: Result<MsgBuffer<M>, BufferError>)
    requires Bounded(b)
    ensures m.None? ==> r == Err(NullMessage)
    ensures m.Some? ==> (r.Ok? <==> |b.msgs| < b.capacity)
    ensures m.Some? && r.Err? ==> r.error == Full
    ensures r.Ok? ==> Bounded(r.value) && r.value.capacity == b.capacity
    ensures r.Ok? ==> r.value.msgs == b.msgs + [m.value]
  {
    if m.None? then Err(NullMessage)
    else if |b.msgs| >= b.capacity then Err(Full)
    else Ok(b.(msgs := b.msgs + [m.value]))
  }

  /** `release`: `NoMessages` exactly when nothing was pushed, else the count. */
  function Release<M>(b: MsgBuffer<M>): (s: Status)
    ensures s.NoMessages? <==> |b.msgs| == 0
    ensures s.Messages? ==> s.count == |b.msgs|
    ensures !s.Done?
  {
    if |b.msgs| == 0 then NoMessages else Messages(|b.msgs|)
  }

  /** Pushing a list of messages one by one, stopping at the first refusal. */
  function PushAll<M>(b: MsgBuffer<M>, ms: seq<M>): (r: Result<MsgBuffer<M>, BufferError>)
    requires Bounded(b)
    ensures r.Ok? <==> |b.msgs| + |ms| <= b.capacity
    ensures r.Ok? ==> Bounded(r.value) && r.value.msgs == b.msgs + ms
    ensures r.Ok? ==> r.value.capacity == b.capacity
    ensures r.Err? ==> r.error == Full
    decreases |ms|
  {
    if |ms| == 0 then Ok(b)
    else
      match Push(b, Some(ms[0]))
      case Err(e) => Err(e)
      case Ok(b1) =>
        var r := PushAll(b1, ms[1..]);
        assert r.Ok? ==> b1.msgs + ms[1..] == b.msgs + ms;
        r
  }
}

=== FILE: decoder.dfy ===
/**
 The frame decoder (`EventParser::next_event`).

 A frame is 128 bytes. Byte 44 selects the variant through the event-type
 code table; decoding then starts again from byte 0 and reads the variant's
 fixed layout. Several codes share one variant, the Ke codes decode to the
 `Empty` placeholder, and the codes for unused, hidden and IPC-trace events
 are rejected with the offending byte.
 */
module Decoder {
  import opened Bytes
  import opened Wrappers
  import opened Events
  import opened Layout
  import ET = EventTypes

  /** Position of the type byte inside a frame. */
  const EVENT_TYPE_POSITION: nat := 44

  datatype DecodeError =
    | EventTypeError(code: u8)   // the byte is not a decodable event type
    | Io                         // the underlying read failed
    | Parse                      // the fixed layout could not be read

  /** What `read_exact` of 128 bytes produced. */
  datatype ReadOutcome =
    | Full(frame: Frame)
    | ShortRead                  // end of input before 128 bytes
    | IoFailure                  // any other I/O error

  /**
   The frame read with each of the fixed layouts. Reading is side-effect
   free, so reading every layout and keeping the one the type byte selects
   gives the same event as reading only the selected layout.
   */
  datatype Readings = Readings(
    raw: RawEvent,
    nam: NamEvent,
    destroy: DestroyEvent,
    contextSwitch: ContextSwitchEvent,
    migration: MigrationEvent,
    ipc: IpcEvent,
    ipcRes: IpcResEvent)

  function ReadAll(f: Frame): Readings
  {
    Readings(ParseRaw(f), ParseNam(f), ParseDestroy(f), ParseContextSwitch(f),
      ParseMigration(f), ParseIpc(f), ParseIpcRes(f))
  }

  /** Decodes one complete frame. */
  function Decode(f: Frame): Result<Event, DecodeError>
  {
    DecodeWith(f[EVENT_TYPE_POSITION], ReadAll(f))
  }

  /** The decoding of a frame whose type byte is `b` and whose layouts read as `r`. */
  function DecodeWith(b: u8, r: Readings): (res: Result<Event, DecodeError>)
    ensures res.Err? ==> res.error == EventTypeError(b)
  {
    match ET.FromByte(b)
    case None => Err(EventTypeError(b))
    case Some(t) =>
      ET.CodeOfFromByte(b);
      Dispatch(t, r)
  }

  /** The event that type `t` makes of the frame, or the rejection of `t`. */
  function Dispatch(t: ET.EventType, r: Readings): Result<Event, DecodeError>
  {
    match t
    case Breakpoint => Ok(Bp(r.raw))
    case KobjectNames => Ok(Nam(r.nam))
    case KobjectCreate => Ok(Factory(r.raw))
    case KobjectDestroy => Ok(Destroy(r.destroy))
    case FactoryDelete => Ok(Destroy(r.destroy))
    case KobjectDelete => Ok(Destroy(r.destroy))
    case KobjectDeleteGeneric => Ok(Destroy(r.destroy))
    case ContextSwitch => Ok(Event.ContextSwitch(r.contextSwitch))
    case Pf => Ok(Event.Pf(r.raw))
    case Ipc => Ok(Event.Ipc(r.ipc))
    case IpcRes => Ok(Event.IpcRes(r.ipcRes))
    case DrqHandling => Ok(Drq(r.raw))
    case ExRegs => Ok(Exregs(r.raw))
    case IpcGateInvoke => Ok(Gate(r.raw))
    case IrqObjectTriggers => Ok(Irq(r.raw))
    case PageFaultInvalidPager => Ok(Ipfh(r.raw))
    case RcuCall => Ok(Rcu(r.raw))
    case RcuCallbacks => Ok(Rcu(r.raw))
    case RcuIdle => Ok(Rcu(r.raw))
    case SchedulingContextLoad => Ok(Sched(r.raw))
    case SchedulingContextSave => Ok(Sched(r.raw))
    case ThreadMigration => Ok(Migration(r.migration))
    case TimerIrqsKernelScheduling => Ok(Timer(r.raw))
    case VcpuEvents => Ok(Vcpu(r.raw))
    case VmSvm => Ok(Svm(r.raw))
    case ExceptionInvalidHandler => Ok(Ieh(r.raw))
    case Exceptions => Ok(Trap(r.raw))
    case TaskMap => Ok(Tmap(r.raw))
    case TaskUnmap => Ok(Tmap(r.raw))
    case IpcTrace => Err(EventTypeError(ET.Code(t)))
    case KeReg => Ok(Empty(r.raw))
    case KeBin => Ok(Empty(r.raw))
    case Ke => Ok(Empty(r.raw))
    case Hidden => Err(EventTypeError(ET.Code(t)))
    case Unused => Err(EventTypeError(ET.Code(t)))
  }

  /** `next_event`: a short read ends the input, other I/O failures are errors. */
  function NextEvent(o: ReadOutcome): (r: Result<Option<Event>, DecodeError>)
    ensures o.ShortRead? ==> r == Ok(None)
    ensures o.IoFailure? ==> r == Err(Io)
    ensures o.Full? ==> (r.Ok? <==> Decode(o.frame).Ok?)
    ensures o.Full? && r.Ok? ==> r.value == Some(Decode(o.frame).value)
  {
    match o
    case ShortRead => Ok(None)
    case IoFailure => Err(Io)
    case Full(f) =>
      var e :- Decode(f);
      Ok(Some(e))
  }

  // ---------------------------------------------------------------------
  // Reference table: for each code, the position of the variant it decodes
  // to in the declaration of `Event`, or -1 when the code is rejected.

  function ExpectedVariant(b: u8): int
  {
    match b
    case 0 => -1 // Unused
    case 1 => 17 // Pf
    case 2 => 12 // Ipc
    case 3 => 13 // IpcRes
    case 4 => -1 // IpcTrace
    case 5 => 11 // Ke -> Empty
    case 6 => 11 // KeReg -> Empty
    case 7 => 9 // Breakpoint -> Bp
    case 8 => 11 // KeBin -> Empty
    case 9 => 10 // ContextSwitch
    case 10 => 0 // DrqHandling -> Drq
    case 11 => 23 // ExRegs -> Exregs
    case 12 => 21 // ExceptionInvalidHandler -> Ieh
    case 13 => 19 // Exceptions -> Trap
    case 14 => 5 // FactoryDelete -> Destroy
    case 15 => 3 // IpcGateInvoke -> Gate
    case 16 => 4 // IrqObjectTriggers -> Irq
    case 17 => 2 // KobjectCreate -> Factory
    case 18 => 5 // KobjectDelete -> Destroy
    case 19 => 5 // KobjectDeleteGeneric -> Destroy
    case 20 => 5 // KobjectDestroy -> Destroy
    case 21 => 6 // KobjectNames -> Nam
    case 22 => 22 // PageFaultInvalidPager -> Ipfh
    case 23 => 7 // RcuCall -> Rcu
    case 24 => 7 // RcuCallbacks -> Rcu
    case 25 => 7 // RcuIdle -> Rcu
    case 26 => 18 // SchedulingContextLoad -> Sched
    case 27 => 18 // SchedulingContextSave -> Sched
    case 28 => 8 // TaskMap -> Tmap
    case 29 => 8 // TaskUnmap -> Tmap
    case 30 => 24 // ThreadMigration -> Migration
    case 31 => 25 // TimerIrqsKernelScheduling -> Timer
    case 32 => 1 // VcpuEvents -> Vcpu
    case 33 => 26 // VmSvm -> Svm
    case _ => -1 // Hidden (128) and unlisted bytes
  }

  /** The table never names `Ke`, `KeBin`, `KeReg` or `Fullsize`. */
  lemma TableOmitsUnreachableVariants(b: u8)
    ensures ExpectedVariant(b) !in {14, 15, 16, 20}
  {
  }

  /**
   Decoding agrees with the reference table: it succeeds exactly for the
   codes the table maps to a variant, with that variant, and otherwise fails
   with the type byte.
   */
  lemma DecodeWithFollowsTable(b: u8, r: Readings)
    ensures DecodeWith(b, r).Ok? <==> ExpectedVariant(b) >= 0
    ensures DecodeWith(b, r).Ok? ==> VariantIndex(DecodeWith(b, r).value) == ExpectedVariant(b)
  {
    if b < 17 {
      LowCodesFollowTable(b, r);
    } else {
      HighCodesFollowTable(b, r);
    }
  }

  lemma LowCodesFollowTable(b: u8, r: Readings)
    requires b < 17
    ensures DecodeWith(b, r).Ok? <==> ExpectedVariant(b) >= 0
    ensures DecodeWith(b, r).Ok? ==> VariantIndex(DecodeWith(b, r).value) == ExpectedVariant(b)
  {
  }

  lemma HighCodesFollowTable(b: u8, r: Readings)
    requires b >= 17
    ensures DecodeWith(b, r).Ok? <==> ExpectedVariant(b) >= 0
    ensures DecodeWith(b, r).Ok? ==> VariantIndex(DecodeWith(b, r).value) == ExpectedVariant(b)
  {
    if b < 26 {
      MiddleCodesFollowTable(b, r);
    } else {
      TopCodesFollowTable(b, r);
    }
  }

  lemma MiddleCodesFollowTable(b: u8, r: Readings)
    requires 17 <= b < 26
    ensures DecodeWith(b, r).Ok? <==> ExpectedVariant(b) >= 0
    ensures DecodeWith(b, r).Ok? ==> VariantIndex(DecodeWith(b, r).value) == ExpectedVariant(b)
  {
  }

  lemma TopCodesFollowTable(b: u8, r: Readings)
    requires b >= 26
    ensures DecodeWith(b, r).Ok? <==> ExpectedVariant(b) >= 0
    ensures DecodeWith(b, r).Ok? ==> VariantIndex(DecodeWith(b, r).value) == ExpectedVariant(b)
  {
    if b < 34 {
      ListedTopCodesFollowTable(b, r);
    } else {
      OtherCodesFollowTable(b, r);
    }
  }

  lemma ListedTopCodesFollowTable(b: u8, r: Readings)
    requires 26 <= b < 34
    ensures DecodeWith(b, r).Ok? <==> ExpectedVariant(b) >= 0
    ensures DecodeWith(b, r).Ok? ==> VariantIndex(DecodeWith(b, r).value) == ExpectedVariant(b)
  {
    if b < 30 {
      SchedulingCodesFollowTable(b, r);
    } else {
      LastCodesFollowTable(b, r);
    }
  }

  lemma SchedulingCodesFollowTable(b: u8, r: Readings)
    requires 26 <= b < 30
    ensures DecodeWith(b, r).Ok? <==> ExpectedVariant(b) >= 0
    ensures DecodeWith(b, r).Ok? ==> VariantIndex(DecodeWith(b, r).value) == ExpectedVariant(b)
  {
  }

  lemma LastCodesFollowTable(b: u8, r: Readings)
    requires 30 <= b < 34
    ensures DecodeWith(b, r).Ok? <==> ExpectedVariant(b) >= 0
    ensures DecodeWith(b, r).Ok? ==> VariantIndex(DecodeWith(b, r).value) == ExpectedVariant(b)
  {
  }

  lemma OtherCodesFollowTable(b: u8, r: Readings)
    requires b >= 34
    ensures DecodeWith(b, r).Ok? <==> ExpectedVariant(b) >= 0
    ensures DecodeWith(b, r).Ok? ==> VariantIndex(DecodeWith(b, r).value) == ExpectedVariant(b)
  {
  }

  lemma DecodeFollowsTable(f: Frame)
    ensures Decode(f).Ok? <==> ExpectedVariant(f[EVENT_TYPE_POSITION]) >= 0
    ensures Decode(f).Ok? ==> VariantIndex(Decode(f).value) == ExpectedVariant(f[EVENT_TYPE_POSITION])
    ensures Decode(f).Err? ==> Decode(f).error == EventTypeError(f[EVENT_TYPE_POSITION])
  {
    DecodeWithFollowsTable(f[EVENT_TYPE_POSITION], ReadAll(f));
  }

  /** The variant depends on byte 44 alone. */
  lemma VariantDependsOnTypeByteOnly(f: Frame, g: Frame)
    requires f[EVENT_TYPE_POSITION] == g[EVENT_TYPE_POSITION]
    ensures Decode(f).Ok? <==> Decode(g).Ok?
    ensures Decode(f).Ok? ==> VariantIndex(Decode(f).value) == VariantIndex(Decode(g).value)
  {
    DecodeFollowsTable(f);
    DecodeFollowsTable(g);
  }

  /** All layouts agree on the header, which is the one read from byte 0. */
  predicate SameHeader(r: Readings)
  {
    && r.nam.common == r.raw.common
    && r.destroy.common == r.raw.common
    && r.contextSwitch.common == r.raw.common
    && r.migration.common == r.raw.common
    && r.ipc.common == r.raw.common
    && r.ipcRes.common == r.raw.common
  }

  lemma ReadAllSameHeader(f: Frame)
    ensures SameHeader(ReadAll(f))
    ensures ReadAll(f).raw.common == ParseCommon(f).0
  {
  }

  lemma DispatchKeepsHeader(t: ET.EventType, r: Readings)
    requires SameHeader(r)
    ensures Dispatch(t, r).Ok? ==> Common(Dispatch(t, r).value) == r.raw.common
  {
  }

  /**
   Decoding restarts at byte 0: every decoded event carries the header read
   from the start of the frame, so its type code is the dispatch byte.
   */
  lemma DecodedHeaderIsFrameHeader(f: Frame)
    requires Decode(f).Ok?
    ensures Common(Decode(f).value) == ParseCommon(f).0
    ensures Common(Decode(f).value).typeCode == f[EVENT_TYPE_POSITION]
  {
    CommonOffsets(f);
    ReadAllSameHeader(f);
    DispatchKeepsHeader(ET.FromByte(f[EVENT_TYPE_POSITION]).value, ReadAll(f));
  }

  /** Codes 14, 18, 19 and 20 all decode to `Destroy`. */
  lemma DestroyCodes(b: u8, r: Readings)
    requires b in {14, 18, 19, 20}
    ensures DecodeWith(b, r) == Ok(Destroy(r.destroy))
  {
  }

  /** Codes 23, 24 and 25 decode to `Rcu`; 26 and 27 to `Sched`; 28 and 29 to `Tmap`. */
  lemma SharedPassThroughCodes(b: u8, r: Readings)
    ensures b in {23, 24, 25} ==> DecodeWith(b, r) == Ok(Rcu(r.raw))
    ensures b in {26, 27} ==> DecodeWith(b, r) == Ok(Sched(r.raw))
    ensures b in {28, 29} ==> DecodeWith(b, r) == Ok(Tmap(r.raw))
  {
  }

  /** The Ke codes 5, 6 and 8 decode to the `Empty` placeholder. */
  lemma KeCodesDecodeEmpty(b: u8, r: Readings)
    requires b in {5, 6, 8}
    ensures DecodeWith(b, r) == Ok(Empty(r.raw))
  {
  }

  /**
   Codes 0 (unused), 4 (IPC trace) and 128 (hidden), and every byte outside
   the code table, are rejected with the byte itself.
   */
  lemma RejectedCodes(b: u8, r: Readings)
    ensures DecodeWith(b, r).Err? <==> (b in {0, 4, 128} || !ET.IsListedCode(b))
    ensures DecodeWith(b, r).Err? ==> DecodeWith(b, r).error == EventTypeError(b)
  {
    ET.FromByteSucceedsIffListed(b);
    DecodeWithFollowsTable(b, r);
  }

  /** No type byte decodes to a `Fullsize`, `Ke`, `KeBin` or `KeReg` event. */
  lemma NeverUnreachableVariants(b: u8, r: Readings)
    requires DecodeWith(b, r).Ok?
    ensures !DecodeWith(b, r).value.Fullsize?
    ensures !DecodeWith(b, r).value.Ke? && !DecodeWith(b, r).value.KeBin? && !DecodeWith(b, r).value.KeReg?
  {
    var e := DecodeWith(b, r).value;
    DecodeWithFollowsTable(b, r);
    TableOmitsUnreachableVariants(b);
    assert VariantIndex(e) !in {14, 15, 16, 20};
  }

  // ---------------------------------------------------------------------
  // Encoding a decodable event back into a frame.

  /** Where the variant's structure ends inside the frame. */
  function LayoutEnd(e: Event): nat
  {
    if e.Nam? then NAM_END
    else if e.Destroy? then DESTROY_END
    else if e.ContextSwitch? then CONTEXT_SWITCH_END
    else if e.Migration? then MIGRATION_END
    else if e.Ipc? then IPC_END
    else if e.IpcRes? then IPC_RES_END
    else FRAME_SIZE
  }

  /** Writes `e` at the front of a frame, followed by the unread bytes. */
  ghost function EncodeEvent(e: Event, unread: seq<u8>): seq<u8>
    requires |unread| == FRAME_SIZE - LayoutEnd(e)
  {
    if e.Nam? then EncodeNam(e.nam, unread)
    else if e.Destroy? then EncodeDestroy(e.destroy, unread)
    else if e.ContextSwitch? then EncodeContextSwitch(e.cs, unread)
    else if e.Migration? then EncodeMigration(e.migration, unread)
    else if e.Ipc? then EncodeIpc(e.ipc, unread)
    else if e.IpcRes? then EncodeIpcRes(e.ipcRes, unread)
    else EncodeRaw(e.raw)
  }

  /** The header's type code selects `e`'s own variant. */
  predicate TypeCodeSelects(e: Event)
  {
    ExpectedVariant(Common(e).typeCode) == VariantIndex(e)
  }

  /** `r` holds the payload of `e` in the layout `e`'s variant reads. */
  predicate Carries(r: Readings, e: Event)
  {
    if e.Nam? then r.nam == e.nam
    else if e.Destroy? then r.destroy == e.destroy
    else if e.ContextSwitch? then r.contextSwitch == e.cs
    else if e.Migration? then r.migration == e.migration
    else if e.Ipc? then r.ipc == e.ipc
    else if e.IpcRes? then r.ipcRes == e.ipcRes
    else r.raw == e.raw
  }

  lemma DispatchCarries(t: ET.EventType, r: Readings)
    ensures Dispatch(t, r).Ok? ==> Carries(r, Dispatch(t, r).value)
  {
  }

  /** Variant and payload determine the event. */
  lemma CarriedEventUnique(r: Readings, d: Event, e: Event)
    requires Carries(r, d) && Carries(r, e)
    requires VariantIndex(d) == VariantIndex(e)
    ensures d == e
  {
  }

  lemma ReadAllCarries(e: Event, unread: seq<u8>)
    requires |unread| == FRAME_SIZE - LayoutEnd(e)
    ensures |EncodeEvent(e, unread)| == FRAME_SIZE
    ensures Carries(ReadAll(EncodeEvent(e, unread)), e)
    ensures ParseCommon(EncodeEvent(e, unread)).0 == Common(e)
  {
    if e.Nam? {
      ParseEncodeNam(e.nam, unread);
      ReadAllCarriesNam(e, unread, EncodeEvent(e, unread));
    } else if e.Destroy? {
      ParseEncodeDestroy(e.destroy, unread);
      ReadAllCarriesDestroy(e, unread, EncodeEvent(e, unread));
    } else if e.ContextSwitch? {
      ParseEncodeContextSwitch(e.cs, unread);
      ReadAllCarriesContextSwitch(e, unread, EncodeEvent(e, unread));
    } else if e.Migration? {
      ParseEncodeMigration(e.migration, unread);
      ReadAllCarriesMigration(e, unread, EncodeEvent(e, unread));
    } else if e.Ipc? {
      ParseEncodeIpc(e.ipc, unread);
      ReadAllCarriesIpc(e, unread, EncodeEvent(e, unread));
    } else if e.IpcRes? {
      ParseEncodeIpcRes(e.ipcRes, unread);
      ReadAllCarriesIpcRes(e, unread, EncodeEvent(e, unread));
    } else {
      ParseEncodeRaw(e.raw);
      ReadAllCarriesRaw(e, EncodeEvent(e, unread));
    }
  }

  lemma ReadAllCarriesNam(e: Event, unread: seq<u8>, f: Frame)
    requires e.Nam? && |unread| == FRAME_SIZE - NAM_END
    requires f == EncodeNam(e.nam, unread)
    ensures Carries(ReadAll(f), e) && ParseCommon(f).0 == Common(e)
  {
    assert Common(e) == e.nam.common;
    ReadBackNam(e.nam, unread);
  }

  lemma ReadBackNam(n: NamEvent, unread: seq<u8>)
    requires |unread| == FRAME_SIZE - NAM_END
    ensures |EncodeNam(n, unread)| == FRAME_SIZE
    ensures ReadAll(EncodeNam(n, unread)).nam == n
    ensures ParseCommon(EncodeNam(n, unread)).0 == n.common
  {
    ParseEncodeNam(n, unread);
  }

  lemma ReadAllCarriesDestroy(e: Event, unread: seq<u8>, f: Frame)
    requires e.Destroy? && |unread| == FRAME_SIZE - DESTROY_END
    requires f == EncodeDestroy(e.destroy, unread)
    ensures Carries(ReadAll(f), e) && ParseCommon(f).0 == Common(e)
  {
    assert Common(e) == e.destroy.common;
    ReadBackDestroy(e.destroy, unread);
  }

  lemma ReadBackDestroy(n: DestroyEvent, unread: seq<u8>)
    requires |unread| == FRAME_SIZE - DESTROY_END
    ensures |EncodeDestroy(n, unread)| == FRAME_SIZE
    ensures ReadAll(EncodeDestroy(n, unread)).destroy == n
    ensures ParseCommon(EncodeDestroy(n, unread)).0 == n.common
  {
    ParseEncodeDestroy(n, unread);
  }

  lemma ReadAllCarriesContextSwitch(e: Event, unread: seq<u8>, f: Frame)
    requires e.ContextSwitch? && |unread| == FRAME_SIZE - CONTEXT_SWITCH_END
    requires f == EncodeContextSwitch(e.cs, unread)
    ensures Carries(ReadAll(f), e) && ParseCommon(f).0 == Common(e)
  {
    assert Common(e) == e.cs.common;
    ReadBackContextSwitch(e.cs, unread);
  }

  lemma ReadBackContextSwitch(n: ContextSwitchEvent, unread: seq<u8>)
    requires |unread| == FRAME_SIZE - CONTEXT_SWITCH_END
    ensures |EncodeContextSwitch(n, unread)| == FRAME_SIZE
    ensures ReadAll(EncodeContextSwitch(n, unread)).contextSwitch == n
    ensures ParseCommon(EncodeContextSwitch(n, unread)).0 == n.common
  {
    ParseEncodeContextSwitch(n, unread);
  }

  lemma ReadAllCarriesMigration(e: Event, unread: seq<u8>, f: Frame)
    requires e.Migration? && |unread| == FRAME_SIZE - MIGRATION_END
    requires f == EncodeMigration(e.migration, unread)
    ensures Carries(ReadAll(f), e) && ParseCommon(f).0 == Common(e)
  {
    assert Common(e) == e.migration.common;
    ReadBackMigration(e.migration, unread);
  }

  lemma ReadBackMigration(n: MigrationEvent, unread: seq<u8>)
    requires |unread| == FRAME_SIZE - MIGRATION_END
    ensures |EncodeMigration(n, unread)| == FRAME_SIZE
    ensures ReadAll(EncodeMigration(n, unread)).migration == n
    ensures ParseCommon(EncodeMigration(n, unread)).0 == n.common
  {
    ParseEncodeMigration(n, unread);
  }

  lemma ReadAllCarriesIpc(e: Event, unread: seq<u8>, f: Frame)
    requires e.Ipc? && |unread| == FRAME_SIZE - IPC_END
    requires f == EncodeIpc(e.ipc, unread)
    ensures Carries(ReadAll(f), e) && ParseCommon(f).0 == Common(e)
  {
    assert Common(e) == e.ipc.common;
    ReadBackIpc(e.ipc, unread);
  }

  lemma ReadBackIpc(n: IpcEvent, unread: seq<u8>)
    requires |unread| == FRAME_SIZE - IPC_END
    ensures |EncodeIpc(n, unread)| == FRAME_SIZE
    ensures ReadAll(EncodeIpc(n, unread)).ipc == n
    ensures ParseCommon(EncodeIpc(n, unread)).0 == n.common
  {
    ParseEncodeIpc(n, unread);
  }

  lemma ReadAllCarriesIpcRes(e: Event, unread: seq<u8>, f: Frame)
    requires e.IpcRes? && |unread| == FRAME_SIZE - IPC_RES_END
    requires f == EncodeIpcRes(e.ipcRes, unread)
    ensures Carries(ReadAll(f), e) && ParseCommon(f).0 == Common(e)
  {
    assert Common(e) == e.ipcRes.common;
    ReadBackIpcRes(e.ipcRes, unread);
  }

  lemma ReadBackIpcRes(n: IpcResEvent, unread: seq<u8>)
    requires |unread| == FRAME_SIZE - IPC_RES_END
    ensures |EncodeIpcRes(n, unread)| == FRAME_SIZE
    ensures ReadAll(EncodeIpcRes(n, unread)).ipcRes == n
    ensures ParseCommon(EncodeIpcRes(n, unread)).0 == n.common
  {
    ParseEncodeIpcRes(n, unread);
  }

  lemma ReadAllCarriesRaw(e: Event, f: Frame)
    requires LayoutEnd(e) == FRAME_SIZE && f == EncodeRaw(e.raw)
    ensures Carries(ReadAll(f), e) && ParseCommon(f).0 == Common(e)
  {
    assert Common(e) == e.raw.common;
    ParseEncodeRaw(e.raw);
  }

  /** Parsing a decodable event's encoding gives the event back. */
  lemma DecodeEncode(e: Event, unread: seq<u8>)
    requires |unread| == FRAME_SIZE - LayoutEnd(e)
    requires TypeCodeSelects(e)
    ensures |EncodeEvent(e, unread)| == FRAME_SIZE
    ensures Decode(EncodeEvent(e, unread)) == Ok(e)
  {
    ReadAllCarries(e, unread);
    var f: Frame := EncodeEvent(e, unread);
    CommonOffsets(f);
    DecodeFollowsTable(f);
    var t := ET.FromByte(f[EVENT_TYPE_POSITION]).value;
    DispatchCarries(t, ReadAll(f));
    CarriedEventUnique(ReadAll(f), Decode(f).value, e);
  }

  /** A frame is the encoding of any event its readings carry. */
  lemma EncodeCarried(f: Frame, e: Event)
    requires Carries(ReadAll(f), e)
    ensures LayoutEnd(e) <= FRAME_SIZE
    ensures EncodeEvent(e, f[LayoutEnd(e)..]) == f
  {
    if e.Nam? {
      EncodeCarriedNam(f, e);
    }     else if e.Destroy? {
      EncodeCarriedDestroy(f, e);
    }     else if e.ContextSwitch? {
      EncodeCarriedContextSwitch(f, e);
    }     else if e.Migration? {
      EncodeCarriedMigration(f, e);
    }     else if e.Ipc? {
      EncodeCarriedIpc(f, e);
    }     else if e.IpcRes? {
      EncodeCarriedIpcRes(f, e);
    } else {
      EncodeCarriedRaw(f, e);
    }
  }

  lemma EncodeCarriedNam(f: Frame, e: Event)
    requires e.Nam? && ReadAll(f).nam == e.nam
    ensures LayoutEnd(e) <= FRAME_SIZE
    ensures EncodeEvent(e, f[LayoutEnd(e)..]) == f
  {
    EncodeParseNam(f);
  }

  lemma EncodeCarriedDestroy(f: Frame, e: Event)
    requires e.Destroy? && ReadAll(f).destroy == e.destroy
    ensures LayoutEnd(e) <= FRAME_SIZE
    ensures EncodeEvent(e, f[LayoutEnd(e)..]) == f
  {
    EncodeParseDestroy(f);
  }

  lemma EncodeCarriedContextSwitch(f: Frame, e: Event)
    requires e.ContextSwitch? && ReadAll(f).contextSwitch == e.cs
    ensures LayoutEnd(e) <= FRAME_SIZE
    ensures EncodeEvent(e, f[LayoutEnd(e)..]) == f
  {
    EncodeParseContextSwitch(f);
  }

  lemma EncodeCarriedMigration(f: Frame, e: Event)
    requires e.Migration? && ReadAll(f).migration == e.migration
    ensures LayoutEnd(e) <= FRAME_SIZE
    ensures EncodeEvent(e, f[LayoutEnd(e)..]) == f
  {
    EncodeParseMigration(f);
  }

  lemma EncodeCarriedIpc(f: Frame, e: Event)
    requires e.Ipc? && ReadAll(f).ipc == e.ipc
    ensures LayoutEnd(e) <= FRAME_SIZE
    ensures EncodeEvent(e, f[LayoutEnd(e)..]) == f
  {
    EncodeParseIpc(f);
  }

  lemma EncodeCarriedIpcRes(f: Frame, e: Event)
    requires e.IpcRes? && ReadAll(f).ipcRes == e.ipcRes
    ensures LayoutEnd(e) <= FRAME_SIZE
    ensures EncodeEvent(e, f[LayoutEnd(e)..]) == f
  {
    EncodeParseIpcRes(f);
  }

  lemma EncodeCarriedRaw(f: Frame, e: Event)
    requires LayoutEnd(e) == FRAME_SIZE && ReadAll(f).raw == e.raw
    ensures LayoutEnd(e) <= FRAME_SIZE
    ensures EncodeEvent(e, f[LayoutEnd(e)..]) == f
  {
    EncodeParseRaw(f);
  }

  /** Every decoded frame is the encoding of its event and its unread bytes. */
  lemma EncodeDecode(f: Frame)
    requires Decode(f).Ok?
    ensures var e := Decode(f).value;
      && LayoutEnd(e) <= FRAME_SIZE
      && TypeCodeSelects(e)
      && EncodeEvent(e, f[LayoutEnd(e)..]) == f
  {
    var e := Decode(f).value;
    DecodeFollowsTable(f);
    DecodedHeaderIsFrameHeader(f);
    DispatchCarries(ET.FromByte(f[EVENT_TYPE_POSITION]).value, ReadAll(f));
    EncodeCarried(f, e);
  }
}

=== FILE: dispatch.dfy ===
/**
 The converter thread's dispatch: each forwarded event is appended to the
 queue of the CPU that recorded it, a queue (and its converter) being
 created the first time a CPU is seen. The CPUs seen are handed on so
 their streams can be merged.
 */
module Dispatch {
  import opened Bytes
  import opened Events

  function Cpu(e: Event): u8 {
    Common(e).cpu
  }

  /** The events of `es` recorded on CPU `c`, in their original order. */
  function OnCpu(es: seq<Event>, c: u8): seq<Event>
    decreases |es|
  {
    if |es| == 0 then []
    else
      var last := es[|es| - 1];
      OnCpu(es[..|es| - 1], c) + (if Cpu(last) == c then [last] else [])
  }

  /** The CPUs that recorded some event of `es`. */
  function CpusOf(es: seq<Event>): set<u8> {
    set i | 0 <= i < |es| :: Cpu(es[i])
  }

  /** One more event extends exactly its own CPU's queue. */
  lemma OnCpuStep(es: seq<Event>, e: Event, c: u8)
    ensures OnCpu(es + [e], c) == OnCpu(es, c) + (if Cpu(e) == c then [e] else [])
  {
    assert (es + [e])[..|es|] == es;
  }

  /** A queue holds only events of its own CPU, and each such event of `es`. */
  lemma {:induction false} OnCpuExactly(es: seq<Event>, c: u8)
    ensures forall i :: 0 <= i < |OnCpu(es, c)| ==> Cpu(OnCpu(es, c)[i]) == c
    ensures c !in CpusOf(es) <==> OnCpu(es, c) == []
    decreases |es|
  {
    if |es| > 0 {
      var init := es[..|es| - 1];
      OnCpuExactly(init, c);
      assert init + [es[|es| - 1]] == es;
      CpusOfStep(init, es[|es| - 1]);
    }
  }

  /** The CPUs of a longer run: the earlier ones and the new event's. */
  lemma CpusOfStep(es: seq<Event>, e: Event)
    ensures CpusOf(es + [e]) == CpusOf(es) + {Cpu(e)}
  {
    var es' := es + [e];
    assert es'[..|es|] == es;
    forall x | x in CpusOf(es') ensures x in CpusOf(es) + {Cpu(e)} {
      var i :| 0 <= i < |es'| && Cpu(es'[i]) == x;
      if i < |es| {
        assert es'[i] == es[i];
      }
    }
    forall x | x in CpusOf(es) ensures x in CpusOf(es') {
      var i :| 0 <= i < |es| && Cpu(es[i]) == x;
      assert es'[i] == es[i];
    }
    assert es'[|es|] == e;
  }

  /** No CPU is listed twice. */
  predicate Distinct(cs: seq<u8>) {
    forall i, j :: 0 <= i < j < |cs| ==> cs[i] != cs[j]
  }

  /** The total length of the queues of the CPUs in `cs`. */
  function QueuedCount(es: seq<Event>, cs: seq<u8>): nat
    decreases |cs|
  {
    if |cs| == 0 then 0 else |OnCpu(es, cs[0])| + QueuedCount(es, cs[1..])
  }

  /** Appending an event grows the total by one exactly when its CPU is listed. */
  lemma {:induction false} QueuedCountStep(es: seq<Event>, e: Event, cs: seq<u8>)
    requires Distinct(cs)
    ensures QueuedCount(es + [e], cs) == QueuedCount(es, cs) + (if Cpu(e) in cs then 1 else 0)
    decreases |cs|
  {
    if |cs| > 0 {
      var rest := cs[1..];
      assert Distinct(rest) by {
        forall i, j | 0 <= i < j < |rest| ensures rest[i] != rest[j] {
          assert rest[i] == cs[i + 1] && rest[j] == cs[j + 1];
        }
      }
      assert cs == [cs[0]] + rest;
      assert cs[0] !in rest by {
        forall k | 0 <= k < |rest| ensures rest[k] != cs[0] {
          assert rest[k] == cs[k + 1];
        }
      }
      OnCpuStep(es, e, cs[0]);
      QueuedCountStep(es, e, rest);
    }
  }

  /** The queues partition the events: across all CPUs seen, every event is queued once. */
  lemma {:induction false} QueuesPartition(es: seq<Event>, cs: seq<u8>)
    requires Distinct(cs) && CpusOf(es) <= set c | c in cs
    ensures QueuedCount(es, cs) == |es|
    decreases |es|
  {
    if |es| == 0 {
      QueuedCountEmpty(cs);
    } else {
      var init := es[..|es| - 1];
      var e := es[|es| - 1];
      assert init + [e] == es;
      CpusOfStep(init, e);
      QueuesPartition(init, cs);
      QueuedCountStep(init, e, cs);
    }
  }

  /** With no events every queue is empty. */
  lemma {:induction false} QueuedCountEmpty(cs: seq<u8>)
    ensures QueuedCount([], cs) == 0
    decreases |cs|
  {
    if |cs| > 0 {
      QueuedCountEmpty(cs[1..]);
    }
  }

  /** The queues and the CPU list agree with the events routed so far. */
  predicate Routed(queues: map<u8, seq<Event>>, cpus: seq<u8>, es: seq<Event>) {
    && queues.Keys == CpusOf(es) == (set c | c in cpus)
    && Distinct(cpus)
    && forall c :: c in queues ==> queues[c] == OnCpu(es, c)
  }

  /** Routing one more event keeps the queues in agreement. */
  lemma RoutedStep(queues: map<u8, seq<Event>>, cpus: seq<u8>, es: seq<Event>, e: Event)
    requires Routed(queues, cpus, es)
    ensures var c := Cpu(e);
      if c in queues then Routed(queues[c := queues[c] + [e]], cpus, es + [e])
      else Routed(queues[c := [e]], cpus + [c], es + [e])
  {
    var c := Cpu(e);
    CpusOfStep(es, e);
    forall d | d in queues
      ensures OnCpu(es + [e], d) == queues[d] + (if c == d then [e] else [])
    {
      OnCpuStep(es, e, d);
    }
    if c !in queues {
      OnCpuExactly(es, c);
      OnCpuStep(es, e, c);
    }
  }

  /**
   The converter thread's loop: route every event to its CPU's queue,
   creating the queue on first sight. Also returns the CPUs seen, each
   once.
   */
  method DispatchAll(es: seq<Event>) returns (queues: map<u8, seq<Event>>, cpus: seq<u8>)
    ensures queues.Keys == CpusOf(es)
    ensures forall c :: c in queues ==> queues[c] == OnCpu(es, c)
    ensures Distinct(cpus) && (set c | c in cpus) == CpusOf(es)
  {
    queues, cpus := map[], [];
    var i := 0;
    while i < |es|
      invariant 0 <= i <= |es|
      invariant Routed(queues, cpus, es[..i])
    {
      var e := es[i];
      var c := Cpu(e);
      assert es[..i + 1] == es[..i] + [e];
      RoutedStep(queues, cpus, es[..i], e);
      if c in queues {
        queues := queues[c := queues[c] + [e]];
      } else {
        queues := queues[c := [e]];
        cpus := cpus + [c];
      }
      i := i + 1;
    }
    assert es[..|es|] == es;
  }
}

=== FILE: event_type.dfy ===
/**
 The trace buffer's numeric event type codes (`EventType`), their byte
 conversions and their display names.

 The table is the code generator's output for the Fiasco kernel: codes 0 to
 33 and 128. Conversion from a byte succeeds exactly for a listed code.
 */
module EventTypes {
  import opened Bytes
  import opened Wrappers

  datatype EventType =
    | Unused
    | Pf
    | Ipc
    | IpcRes
    | IpcTrace
    | Ke
    | KeReg
    | Breakpoint
    | KeBin
    | ContextSwitch
    | DrqHandling
    | ExRegs
    | ExceptionInvalidHandler
    | Exceptions
    | FactoryDelete
    | IpcGateInvoke
    | IrqObjectTriggers
    | KobjectCreate
    | KobjectDelete
    | KobjectDeleteGeneric
    | KobjectDestroy
    | KobjectNames
    | PageFaultInvalidPager
    | RcuCall
    | RcuCallbacks
    | RcuIdle
    | SchedulingContextLoad
    | SchedulingContextSave
    | TaskMap
    | TaskUnmap
    | ThreadMigration
    | TimerIrqsKernelScheduling
    | VcpuEvents
    | VmSvm
    | Hidden

  /** The discriminant of each variant (`EventType as u8`). */
  function Code(t: EventType): u8
  {
    match t
    case Unused => 0
    case Pf => 1
    case Ipc => 2
    case IpcRes => 3
    case IpcTrace => 4
    case Ke => 5
    case KeReg => 6
    case Breakpoint => 7
    case KeBin => 8
    case ContextSwitch => 9
    case DrqHandling => 10
    case ExRegs => 11
    case ExceptionInvalidHandler => 12
    case Exceptions => 13
    case FactoryDelete => 14
    case IpcGateInvoke => 15
    case IrqObjectTriggers => 16
    case KobjectCreate => 17
    case KobjectDelete => 18
    case KobjectDeleteGeneric => 19
    case KobjectDestroy => 20
    case KobjectNames => 21
    case PageFaultInvalidPager => 22
    case RcuCall => 23
    case RcuCallbacks => 24
    case RcuIdle => 25
    case SchedulingContextLoad => 26
    case SchedulingContextSave => 27
    case TaskMap => 28
    case TaskUnmap => 29
    case ThreadMigration => 30
    case TimerIrqsKernelScheduling => 31
    case VcpuEvents => 32
    case VmSvm => 33
    case Hidden => 128
  }

  /** `EventType::try_from(b)`: the variant whose discriminant is `b`, if any. */
  function FromByte(b: u8): Option<EventType>
  {
    match b
    case 0 => Some(Unused)
    case 1 => Some(Pf)
    case 2 => Some(Ipc)
    case 3 => Some(IpcRes)
    case 4 => Some(IpcTrace)
    case 5 => Some(Ke)
    case 6 => Some(KeReg)
    case 7 => Some(Breakpoint)
    case 8 => Some(KeBin)
    case 9 => Some(ContextSwitch)
    case 10 => Some(DrqHandling)
    case 11 => Some(ExRegs)
    case 12 => Some(ExceptionInvalidHandler)
    case 13 => Some(Exceptions)
    case 14 => Some(FactoryDelete)
    case 15 => Some(IpcGateInvoke)
    case 16 => Some(IrqObjectTriggers)
    case 17 => Some(KobjectCreate)
    case 18 => Some(KobjectDelete)
    case 19 => Some(KobjectDeleteGeneric)
    case 20 => Some(KobjectDestroy)
    case 21 => Some(KobjectNames)
    case 22 => Some(PageFaultInvalidPager)
    case 23 => Some(RcuCall)
    case 24 => Some(RcuCallbacks)
    case 25 => Some(RcuIdle)
    case 26 => Some(SchedulingContextLoad)
    case 27 => Some(SchedulingContextSave)
    case 28 => Some(TaskMap)
    case 29 => Some(TaskUnmap)
    case 30 => Some(ThreadMigration)
    case 31 => Some(TimerIrqsKernelScheduling)
    case 32 => Some(VcpuEvents)
    case 33 => Some(VmSvm)
    case 128 => Some(Hidden)
    case _ => None
  }

  /** The `Display` name of each variant. */
  function Name(t: EventType): string
  {
    match t
    case Unused => "UNUSED"
    case Pf => "PF"
    case Ipc => "IPC"
    case IpcRes => "IPCRES"
    case IpcTrace => "IPCTRACE"
    case Ke => "KE"
    case KeReg => "KEREG"
    case Breakpoint => "BREAKPOINT"
    case KeBin => "KEBIN"
    case ContextSwitch => "CONTEXTSWITCH"
    case DrqHandling => "DRQHANDLING"
    case ExRegs => "EXREGS"
    case ExceptionInvalidHandler => "EXCEPTIONINVALIDHANDLER"
    case Exceptions => "EXCEPTIONS"
    case FactoryDelete => "FACTORYDELETE"
    case IpcGateInvoke => "IPCGATEINVOKE"
    case IrqObjectTriggers => "IRQOBJECTTRIGGERS"
    case KobjectCreate => "KOBJECTCREATE"
    case KobjectDelete => "KOBJECTDELETE"
    case KobjectDeleteGeneric => "KOBJECTDELETEGENERIC"
    case KobjectDestroy => "KOBJECTDESTROY"
    case KobjectNames => "KOBJECTNAMES"
    case PageFaultInvalidPager => "PAGEFAULTINVALIDPAGER"
    case RcuCall => "RCUCALL"
    case RcuCallbacks => "RCUCALLBACKS"
    case RcuIdle => "RCUIDLE"
    case SchedulingContextLoad => "SCHEDULINGCONTEXTLOAD"
    case SchedulingContextSave => "SCHEDULINGCONTEXTSAVE"
    case TaskMap => "TASKMAP"
    case TaskUnmap => "TASKUNMAP"
    case ThreadMigration => "THREADMIGRATION"
    case TimerIrqsKernelScheduling => "TIMERIRQSKERNELSCHEDULING"
    case VcpuEvents => "VCPUEVENTS"
    case VmSvm => "VMSVM"
    case Hidden => "HIDDEN"
  }

  /**
   Recovers a variant from its display name; the inverse of `Name`. Names
   are grouped by length so that each lookup compares few strings.
   */
  function FromName(s: string): Option<EventType>
  {
    match |s|
    case 2 =>
      if s == "PF" then Some(Pf)
      else if s == "KE" then Some(Ke)
      else None
    case 3 =>
      if s == "IPC" then Some(Ipc)
      else None
    case 5 =>
      if s == "KEREG" then Some(KeReg)
      else if s == "KEBIN" then Some(KeBin)
      else if s == "VMSVM" then Some(VmSvm)
      else None
    case 6 =>
      if s == "UNUSED" then Some(Unused)
      else if s == "IPCRES" then Some(IpcRes)
      else if s == "EXREGS" then Some(ExRegs)
      else if s == "HIDDEN" then Some(Hidden)
      else None
    case 7 =>
      if s == "RCUCALL" then Some(RcuCall)
      else if s == "RCUIDLE" then Some(RcuIdle)
      else if s == "TASKMAP" then Some(TaskMap)
      else None
    case 8 =>
      if s == "IPCTRACE" then Some(IpcTrace)
      else None
    case 9 =>
      if s == "TASKUNMAP" then Some(TaskUnmap)
      else None
    case 10 =>
      if s == "BREAKPOINT" then Some(Breakpoint)
      else if s == "EXCEPTIONS" then Some(Exceptions)
      else if s == "VCPUEVENTS" then Some(VcpuEvents)
      else None
    case 11 =>
      if s == "DRQHANDLING" then Some(DrqHandling)
      else None
    case 12 =>
      if s == "KOBJECTNAMES" then Some(KobjectNames)
      else if s == "RCUCALLBACKS" then Some(RcuCallbacks)
      else None
    case 13 =>
      if s == "CONTEXTSWITCH" then Some(ContextSwitch)
      else if s == "FACTORYDELETE" then Some(FactoryDelete)
      else if s == "IPCGATEINVOKE" then Some(IpcGateInvoke)
      else if s == "KOBJECTCREATE" then Some(KobjectCreate)
      else if s == "KOBJECTDELETE" then Some(KobjectDelete)
      else None
    case 14 =>
      if s == "KOBJECTDESTROY" then Some(KobjectDestroy)
      else None
    case 15 =>
      if s == "THREADMIGRATION" then Some(ThreadMigration)
      else None
    case 17 =>
      if s == "IRQOBJECTTRIGGERS" then Some(IrqObjectTriggers)
      else None
    case 20 =>
      if s == "KOBJECTDELETEGENERIC" then Some(KobjectDeleteGeneric)
      else None
    case 21 =>
      if s == "PAGEFAULTINVALIDPAGER" then Some(PageFaultInvalidPager)
      else if s == "SCHEDULINGCONTEXTLOAD" then Some(SchedulingContextLoad)
      else if s == "SCHEDULINGCONTEXTSAVE" then Some(SchedulingContextSave)
      else None
    case 23 =>
      if s == "EXCEPTIONINVALIDHANDLER" then Some(ExceptionInvalidHandler)
      else None
    case 25 =>
      if s == "TIMERIRQSKERNELSCHEDULING" then Some(TimerIrqsKernelScheduling)
      else None
    case _ => None
  }

  predicate IsListedCode(b: int) {
    0 <= b <= 33 || b == 128
  }

  /** Conversion from a byte succeeds exactly for the codes 0..33 and 128. */
  lemma FromByteSucceedsIffListed(b: u8)
    ensures FromByte(b).Some? <==> IsListedCode(b)
  {
  }

  /** Converting a variant to its byte and back gives the same variant. */
  lemma FromByteOfCode(t: EventType)
    ensures FromByte(Code(t)) == Some(t)
  {
  }

  /** Converting a byte to its variant and back gives the same byte. */
  lemma CodeOfFromByte(b: u8)
    requires FromByte(b).Some?
    ensures Code(FromByte(b).value) == b
  {
  }

  /** No two variants share a discriminant. */
  lemma CodeInjective(s: EventType, t: EventType)
    requires Code(s) == Code(t)
    ensures s == t
  {
    FromByteOfCode(s);
    FromByteOfCode(t);
  }

  lemma FromNameOfName(t: EventType)
    ensures FromName(Name(t)) == Some(t)
  {
    if Code(t) < 17 {
      FromNameOfNameLow(t);
    } else {
      FromNameOfNameHigh(t);
    }
  }

  lemma FromNameOfNameLow(t: EventType)
    requires Code(t) < 17
    ensures FromName(Name(t)) == Some(t)
  {
  }

  lemma FromNameOfNameHigh(t: EventType)
    requires Code(t) >= 17
    ensures FromName(Name(t)) == Some(t)
  {
  }

  /** Display names are pairwise distinct. */
  lemma NameInjective(s: EventType, t: EventType)
    requires Name(s) == Name(t)
    ensures s == t
  {
    FromNameOfName(s);
    FromNameOfName(t);
  }
}

=== FILE: events.dfy ===
/**
 Decoded trace events: the common header every frame starts with, the
 payload structures the converter inspects, and the closed sum `Event`.

 Integer fields are little-endian in the frame. Variants whose fields the
 converter only passes through carry their payload as the raw bytes 46..128
 of the frame.
 */
module Events {
  import opened Bytes

  const FRAME_SIZE: nat := 128
  const COMMON_SIZE: nat := 46
  const PAYLOAD_SIZE: nat := 82

  type Frame = s: seq<u8> | |s| == FRAME_SIZE witness seq(FRAME_SIZE, _ => 0)
  type Bytes2 = s: seq<u8> | |s| == 2 witness [0, 0]
  type Bytes4 = s: seq<u8> | |s| == 4 witness [0, 0, 0, 0]
  type Bytes32 = s: seq<u8> | |s| == 32 witness seq(32, _ => 0)
  type Payload = s: seq<u8> | |s| == PAYLOAD_SIZE witness seq(PAYLOAD_SIZE, _ => 0)
  type Words2 = s: seq<u64> | |s| == 2 witness [0, 0]

  /** The 46-byte header shared by every event. */
  datatype EventCommon = EventCommon(
    number: u64,
    ip: u64,
    tsc: u64,
    ctx: u64,
    pmc1: u32,
    pmc2: u32,
    kclock: u32,
    typeCode: u8,
    cpu: u8)

  /** NAM: a kernel object receives a debug id and a name. */
  datatype NamEvent = NamEvent(
    common: EventCommon, prePad: Bytes2, obj: u64, id: u64, name: Bytes32)

  /** DESTROY: a kernel object goes away. */
  datatype DestroyEvent = DestroyEvent(
    common: EventCommon, prePad: Bytes2, obj: u64, id: u64, objType: u64, ram: u64)

  /** CONTEXT-SWITCH: the running context hands the CPU to `dst`. */
  datatype ContextSwitchEvent = ContextSwitchEvent(
    common: EventCommon, prePad: Bytes2, dst: u64, dstOrig: u64, kernelIp: u64,
    lockCnt: u64, fromSpace: u64, fromSched: u64, fromPrio: u64)

  /** MIGRATION: a thread moves from `srcCpu` to `targetCpu`. */
  datatype MigrationEvent = MigrationEvent(
    common: EventCommon, prePad: Bytes2, state: u64, userIp: u64, srcCpu: u32, targetCpu: u32)

  /** IPC: a send/receive request. */
  datatype IpcEvent = IpcEvent(
    common: EventCommon, prePad: Bytes2, tag: u64, dword: Words2, dst: u64, dbgId: u64,
    ipcLabel: u64, timeout: u32, pad1: Bytes4, toAbsRcv: u64)

  /** IPC-RES: the result of an IPC. */
  datatype IpcResEvent = IpcResEvent(
    common: EventCommon, haveSnd: u8, isNp: u8, tag: u64, dword: Words2, result: u64,
    from: u64, dst: u64, pairEvent: u64)

  /** Any event whose payload is passed through unread: bytes 46..128. */
  datatype RawEvent = RawEvent(common: EventCommon, payload: Payload)

  /** The closed sum of the 27 event variants. */
  datatype Event =
    | Drq(raw: RawEvent)
    | Vcpu(raw: RawEvent)
    | Factory(raw: RawEvent)
    | Gate(raw: RawEvent)
    | Irq(raw: RawEvent)
    | Destroy(destroy: DestroyEvent)
    | Nam(nam: NamEvent)
    | Rcu(raw: RawEvent)
    | Tmap(raw: RawEvent)
    | Bp(raw: RawEvent)
    | ContextSwitch(cs: ContextSwitchEvent)
    | Empty(raw: RawEvent)
    | Ipc(ipc: IpcEvent)
    | IpcRes(ipcRes: IpcResEvent)
    | Ke(raw: RawEvent)
    | KeBin(raw: RawEvent)
    | KeReg(raw: RawEvent)
    | Pf(raw: RawEvent)
    | Sched(raw: RawEvent)
    | Trap(raw: RawEvent)
    | Fullsize(raw: RawEvent)
    | Ieh(raw: RawEvent)
    | Ipfh(raw: RawEvent)
    | Exregs(raw: RawEvent)
    | Migration(migration: MigrationEvent)
    | Timer(raw: RawEvent)
    | Svm(raw: RawEvent)

  /** `event_common`: the header embedded in the event. */
  function Common(e: Event): EventCommon
  {
    match e
    case Drq(ev) => ev.common
    case Vcpu(ev) => ev.common
    case Factory(ev) => ev.common
    case Gate(ev) => ev.common
    case Irq(ev) => ev.common
    case Destroy(ev) => ev.common
    case Nam(ev) => ev.common
    case Rcu(ev) => ev.common
    case Tmap(ev) => ev.common
    case Bp(ev) => ev.common
    case ContextSwitch(ev) => ev.common
    case Empty(ev) => ev.common
    case Ipc(ev) => ev.common
    case IpcRes(ev) => ev.common
    case Ke(ev) => ev.common
    case KeBin(ev) => ev.common
    case KeReg(ev) => ev.common
    case Pf(ev) => ev.common
    case Sched(ev) => ev.common
    case Trap(ev) => ev.common
    case Fullsize(ev) => ev.common
    case Ieh(ev) => ev.common
    case Ipfh(ev) => ev.common
    case Exregs(ev) => ev.common
    case Migration(ev) => ev.common
    case Timer(ev) => ev.common
    case Svm(ev) => ev.common
  }

  /** The `Display` name of the event; it keys the converter's class cache. */
  function Name(e: Event): string
  {
    match e
    case Drq(_) => "DRQ"
    case Vcpu(_) => "VCPU"
    case Factory(_) => "FACTORY"
    case Gate(_) => "GATE"
    case Irq(_) => "IRQ"
    case Destroy(_) => "DESTROY"
    case Nam(_) => "NAM"
    case Rcu(_) => "RCU"
    case Tmap(_) => "TMAP"
    case Bp(_) => "BP"
    case ContextSwitch(_) => "CONTEXTSWITCH"
    case Empty(_) => "EMPTY"
    case Ipc(_) => "IPC"
    case IpcRes(_) => "IPCRES"
    case Ke(_) => "KE"
    case KeBin(_) => "KEBIN"
    case KeReg(_) => "KEREG"
    case Pf(_) => "PF"
    case Sched(_) => "SCHED"
    case Trap(_) => "TRAP"
    case Fullsize(_) => "FULLSIZE"
    case Ieh(_) => "IEH"
    case Ipfh(_) => "IPFH"
    case Exregs(_) => "EXREGS"
    case Migration(_) => "MIGRATION"
    case Timer(_) => "TIMER"
    case Svm(_) => "SVM"
  }

  /** The position of the event's variant in the declaration of `Event`. */
  function VariantIndex(e: Event): nat
  {
    match e
    case Drq(_) => 0
    case Vcpu(_) => 1
    case Factory(_) => 2
    case Gate(_) => 3
    case Irq(_) => 4
    case Destroy(_) => 5
    case Nam(_) => 6
    case Rcu(_) => 7
    case Tmap(_) => 8
    case Bp(_) => 9
    case ContextSwitch(_) => 10
    case Empty(_) => 11
    case Ipc(_) => 12
    case IpcRes(_) => 13
    case Ke(_) => 14
    case KeBin(_) => 15
    case KeReg(_) => 16
    case Pf(_) => 17
    case Sched(_) => 18
    case Trap(_) => 19
    case Fullsize(_) => 20
    case Ieh(_) => 21
    case Ipfh(_) => 22
    case Exregs(_) => 23
    case Migration(_) => 24
    case Timer(_) => 25
    case Svm(_) => 26
  }

  /**
   The position of the variant whose display name is `s`, or -1; names are
   grouped by length to keep each lookup short.
   */
  function IndexOfName(s: string): int
  {
    match |s|
    case 2 =>
      if s == "BP" then 9
      else if s == "KE" then 14
      else if s == "PF" then 17
      else -1
    case 3 =>
      if s == "DRQ" then 0
      else if s == "IRQ" then 4
      else if s == "NAM" then 6
      else if s == "RCU" then 7
      else if s == "IPC" then 12
      else if s == "IEH" then 21
      else if s == "SVM" then 26
      else -1
    case 4 =>
      if s == "VCPU" then 1
      else if s == "GATE" then 3
      else if s == "TMAP" then 8
      else if s == "TRAP" then 19
      else if s == "IPFH" then 22
      else -1
    case 5 =>
      if s == "EMPTY" then 11
      else if s == "KEBIN" then 15
      else if s == "KEREG" then 16
      else if s == "SCHED" then 18
      else if s == "TIMER" then 25
      else -1
    case 6 =>
      if s == "IPCRES" then 13
      else if s == "EXREGS" then 23
      else -1
    case 7 =>
      if s == "FACTORY" then 2
      else if s == "DESTROY" then 5
      else -1
    case 8 =>
      if s == "FULLSIZE" then 20
      else -1
    case 9 =>
      if s == "MIGRATION" then 24
      else -1
    case 13 =>
      if s == "CONTEXTSWITCH" then 10
      else -1
    case _ => -1
  }

  lemma IndexOfNameOfName(e: Event)
    ensures IndexOfName(Name(e)) == VariantIndex(e)
  {
  }

  /** Two events have the same display name exactly when they are the same variant. */
  lemma NameIdentifiesVariant(d: Event, e: Event)
    ensures Name(d) == Name(e) <==> VariantIndex(d) == VariantIndex(e)
  {
    IndexOfNameOfName(d);
    IndexOfNameOfName(e);
  }
}

=== FILE: helpers.dfy ===
/**
 The NUL-truncating name decoder applied to the 32-byte name field of a
 NAM event (`helpers::i8_array_to_string`).

 The field is an array of `i8`; the decoder reinterprets each element as a
 `u8`, which keeps its bit pattern, so the model holds the raw bytes.
 */
module Helpers {
  import opened Bytes
  import opened Wrappers
  import opened Texts
  import Utf8

  const NAME_LEN: nat := 32

  datatype Utf8Error = Utf8Error

  /** Position of the first zero byte of `a`, or `|a|` when there is none. */
  function FirstZero(a: seq<u8>): (n: nat)
    ensures n <= |a|
    ensures forall i :: 0 <= i < n ==> a[i] != 0
    ensures n < |a| ==> a[n] == 0
  {
    if |a| == 0 then 0
    else if a[0] == 0 then 0
    else 1 + FirstZero(a[1..])
  }

  /**
   Decodes a 32-byte name: the bytes before the first NUL (all 32 when there
   is none), accepted when they are well-formed UTF-8.
   */
  function I8ArrayToString(a: seq<u8>): (r: Result<Text, Utf8Error>)
    requires |a| == NAME_LEN
    ensures r.Ok? <==> Utf8.Valid(a[..FirstZero(a)])
    ensures r.Ok? ==> r.value == a[..FirstZero(a)]
  {
    var bytes := a[..FirstZero(a)];
    if Utf8.Valid(bytes) then Ok(bytes) else Err(Utf8Error)
  }

  /**
   A decoded name is a prefix of the field, at most 32 bytes long, holds no
   NUL, and ends at the field's end or just before a NUL byte.
   */
  lemma DecodedNameShape(a: seq<u8>)
    requires |a| == NAME_LEN
    requires I8ArrayToString(a).Ok?
    ensures var t := I8ArrayToString(a).value;
      && |t| <= NAME_LEN
      && t == a[..|t|]
      && NoNul(t)
      && (|t| == NAME_LEN || a[|t|] == 0)
  {
  }

  /** Bytes after the first NUL never influence the decoded name. */
  lemma BytesAfterNulIgnored(a: seq<u8>, b: seq<u8>, k: nat)
    requires |a| == NAME_LEN && |b| == NAME_LEN
    requires k < NAME_LEN && a[k] == 0
    requires a[..k + 1] == b[..k + 1]
    ensures I8ArrayToString(a) == I8ArrayToString(b)
  {
    FirstZeroAgree(a, b, k);
    var n := FirstZero(a);
    assert a[..n] == a[..k + 1][..n] == b[..k + 1][..n] == b[..n];
  }

  lemma {:induction false} FirstZeroAgree(a: seq<u8>, b: seq<u8>, k: nat)
    requires k < |a| && k < |b| && a[k] == 0
    requires a[..k + 1] == b[..k + 1]
    ensures FirstZero(a) == FirstZero(b) <= k
  {
    if a[0] != 0 {
      assert a[1..][..k] == a[..k + 1][1..] == b[..k + 1][1..] == b[1..][..k];
      FirstZeroAgree(a[1..], b[1..], k - 1);
    } else {
      assert b[0] == a[..k + 1][0];
    }
  }

  /** A name of plain ASCII bytes always decodes successfully. */
  lemma AsciiNameDecodes(a: seq<u8>)
    requires |a| == NAME_LEN
    requires forall i :: 0 <= i < |a| ==> a[i] <= 0x7F
    ensures I8ArrayToString(a).Ok?
  {
    Utf8.AsciiValid(a[..FirstZero(a)]);
  }
}

=== FILE: ipc_type.dfy ===
/**
 IPC operation kinds (`IpcType`) and their rendering by `num_to_str`.

 The composite kinds take the bitwise OR of the flag kinds as their
 discriminant; `Unk` takes the next value after `SendRcap`. A byte that is
 no discriminant renders as `Unk` (after an error log, not modelled).
 */
module IpcTypes {
  import opened Bytes
  import opened Wrappers

  datatype IpcType =
    | Call
    | Send
    | Recv
    | OpenWait
    | Reply
    | Wait
    | SendAndWait
    | ReplyAndWait
    | CallIpc
    | SendRcap
    | Unk

  const CALL: bv8 := 0
  const SEND: bv8 := 1
  const RECV: bv8 := 2
  const OPEN_WAIT: bv8 := 4
  const REPLY: bv8 := 8
  const IPC_WAIT: bv8 := OPEN_WAIT | RECV
  const IPC_SEND_AND_WAIT: bv8 := OPEN_WAIT | SEND | RECV
  const IPC_REPLY_AND_WAIT: bv8 := OPEN_WAIT | SEND | RECV | REPLY
  const IPC_CALL_IPC: bv8 := SEND | RECV
  const SEND_RCAP: bv8 := SEND | REPLY

  /** `IpcType as u8`. */
  function Discriminant(t: IpcType): u8
  {
    match t
    case Call => CALL as int
    case Send => SEND as int
    case Recv => RECV as int
    case OpenWait => OPEN_WAIT as int
    case Reply => REPLY as int
    case Wait => IPC_WAIT as int
    case SendAndWait => IPC_SEND_AND_WAIT as int
    case ReplyAndWait => IPC_REPLY_AND_WAIT as int
    case CallIpc => IPC_CALL_IPC as int
    case SendRcap => SEND_RCAP as int
    case Unk => SEND_RCAP as int + 1
  }

  /** The derived `TryFromPrimitive`: the kind whose discriminant is `b`. */
  function TryFromByte(b: u8): Option<IpcType>
  {
    if b == Discriminant(Call) then Some(Call)
    else if b == Discriminant(Send) then Some(Send)
    else if b == Discriminant(Recv) then Some(Recv)
    else if b == Discriminant(OpenWait) then Some(OpenWait)
    else if b == Discriminant(Reply) then Some(Reply)
    else if b == Discriminant(Wait) then Some(Wait)
    else if b == Discriminant(SendAndWait) then Some(SendAndWait)
    else if b == Discriminant(ReplyAndWait) then Some(ReplyAndWait)
    else if b == Discriminant(CallIpc) then Some(CallIpc)
    else if b == Discriminant(SendRcap) then Some(SendRcap)
    else if b == Discriminant(Unk) then Some(Unk)
    else None
  }

  /** The derived `Debug` rendering: the variant's own name. */
  function DebugName(t: IpcType): string
  {
    match t
    case Call => "Call"
    case Send => "Send"
    case Recv => "Recv"
    case OpenWait => "OpenWait"
    case Reply => "Reply"
    case Wait => "Wait"
    case SendAndWait => "SendAndWait"
    case ReplyAndWait => "ReplyAndWait"
    case CallIpc => "CallIpc"
    case SendRcap => "SendRcap"
    case Unk => "Unk"
  }

  /** `num_to_str`: total; unknown bytes fall back to `Unk`. */
  function NumToStr(b: u8): string
  {
    match TryFromByte(b)
    case Some(t) => DebugName(t)
    case None => DebugName(Unk)
  }

  /** The bytes that are discriminants. */
  predicate IsDiscriminant(b: int) {
    b in {0, 1, 2, 3, 4, 6, 7, 8, 9, 10, 15}
  }

  /** The discriminants the composite kinds compute. */
  lemma DiscriminantValues()
    ensures Discriminant(Wait) == 6 && Discriminant(SendAndWait) == 7
    ensures Discriminant(ReplyAndWait) == 15 && Discriminant(CallIpc) == 3
    ensures Discriminant(SendRcap) == 9 && Discriminant(Unk) == 10
  {
  }

  /** Conversion succeeds exactly on the discriminants; 5 is not one. */
  lemma TryFromSucceedsIff(b: u8)
    ensures TryFromByte(b).Some? <==> IsDiscriminant(b)
  {
    DiscriminantValues();
  }

  /** Converting a kind's discriminant gives the kind back. */
  lemma TryFromOfDiscriminant(t: IpcType)
    ensures TryFromByte(Discriminant(t)) == Some(t)
  {
    DiscriminantValues();
  }

  /** A successful conversion gives a kind whose discriminant is the byte. */
  lemma DiscriminantOfTryFrom(b: u8)
    requires TryFromByte(b).Some?
    ensures Discriminant(TryFromByte(b).value) == b
  {
  }

  /** Distinct kinds have distinct discriminants. */
  lemma DiscriminantInjective(s: IpcType, t: IpcType)
    requires Discriminant(s) == Discriminant(t)
    ensures s == t
  {
    TryFromOfDiscriminant(s);
    TryFromOfDiscriminant(t);
  }

  /** Distinct kinds render to distinct names. */
  lemma DebugNameInjective(s: IpcType, t: IpcType)
    requires DebugName(s) == DebugName(t)
    ensures s == t
  {
  }

  /**
   `num_to_str` renders a discriminant as its kind's name and every other
   byte as "Unk"; a byte renders as "Unk" exactly when it is 10 or no
   discriminant at all.
   */
  lemma NumToStrCases(b: u8)
    ensures IsDiscriminant(b) ==> NumToStr(b) == DebugName(TryFromByte(b).value)
    ensures !IsDiscriminant(b) ==> NumToStr(b) == "Unk"
    ensures NumToStr(b) == "Unk" <==> (b == 10 || !IsDiscriminant(b))
  {
    TryFromSucceedsIff(b);
    if TryFromByte(b).Some? {
      DiscriminantOfTryFrom(b);
      if NumToStr(b) == "Unk" {
        DebugNameInjective(TryFromByte(b).value, Unk);
      }
    }
  }

  /** Byte 5, Send together with OpenWait, has no kind of its own. */
  lemma SendOpenWaitIsUnknown()
    ensures NumToStr(5) == "Unk"
  {
    TryFromSucceedsIff(5);
  }
}

=== FILE: kernel_object.dfy ===
/**
 The kernel objects the converter tracks, keyed by masked object pointer.

 Every object carries a debug id and a name (`BaseKernelObject`); a thread
 additionally carries a scheduling state and a priority. The only roles
 are `Generic` and `Thread`.
 */
module KernelObjects {
  import opened Bytes
  import opened Texts

  datatype ThreadState = Running | Blocked

  datatype BaseKernelObject = BaseKernelObject(id: Text, name: Text)

  datatype ThreadObject = ThreadObject(base: BaseKernelObject, state: ThreadState, prio: u64)

  datatype KernelObject =
    | Generic(generic: BaseKernelObject)
    | Thread(thread: ThreadObject)

  /** The id and name part of an object, whatever its role. */
  function Base(o: KernelObject): BaseKernelObject
  {
    match o
    case Generic(b) => b
    case Thread(t) => t.base
  }

  function Id(o: KernelObject): Text
  {
    Base(o).id
  }

  function Name(o: KernelObject): Text
  {
    Base(o).name
  }

  /** Replaces the id; the role, the name and any thread state stay. */
  function SetId(o: KernelObject, id: Text): (r: KernelObject)
    ensures Id(r) == id && Name(r) == Name(o)
    ensures r.Generic? <==> o.Generic?
    ensures r.Thread? ==> r.thread.state == o.thread.state && r.thread.prio == o.thread.prio
  {
    match o
    case Generic(b) => Generic(b.(id := id))
    case Thread(t) => Thread(t.(base := t.base.(id := id)))
  }

  /** Replaces the name; the role, the id and any thread state stay. */
  function SetName(o: KernelObject, name: Text): (r: KernelObject)
    ensures Name(r) == name && Id(r) == Id(o)
    ensures r.Generic? <==> o.Generic?
    ensures r.Thread? ==> r.thread.state == o.thread.state && r.thread.prio == o.thread.prio
  {
    match o
    case Generic(b) => Generic(b.(name := name))
    case Thread(t) => Thread(t.(base := t.base.(name := name)))
  }

  /** Setting both fields determines the object up to its role-specific part. */
  lemma SetIdNameDetermined(o: KernelObject, p: KernelObject, id: Text, name: Text)
    requires o.Generic? && p.Generic?
    ensures SetName(SetId(o, id), name) == SetName(SetId(p, id), name)
  {
  }
}

=== FILE: layout.dfy ===
/**
 Fixed little-endian layouts of the event header and of the six payloads the
 converter reads.

 Each `Parse` function reads fields one after another from the front of the
 frame, as a derived binary reader does; each `Encode` function writes them
 back in front of the unread rest of the frame. The `...Offsets` lemmas give
 the byte range every field comes from, and the round-trip lemmas show that
 parsing and encoding are inverse in both directions.
 */
module Layout {
  import opened Bytes
  import opened Events

  /** Where each structure ends: the bytes after it are not read. */
  const NAM_END: nat := 96
  const DESTROY_END: nat := 80
  const CONTEXT_SWITCH_END: nat := 104
  const MIGRATION_END: nat := 72
  const IPC_END: nat := 112
  const IPC_RES_END: nat := 104

  // ---------------------------------------------------------------------
  // The common header: bytes 0..46.

  function ParseCommon(s: seq<u8>): (EventCommon, seq<u8>)
    requires |s| >= COMMON_SIZE
  {
    var (number, s1) := ReadU64(s);
    var (ip, s2) := ReadU64(s1);
    var (tsc, s3) := ReadU64(s2);
    var (ctx, s4) := ReadU64(s3);
    var (pmc1, s5) := ReadU32(s4);
    var (pmc2, s6) := ReadU32(s5);
    var (kclock, s7) := ReadU32(s6);
    (EventCommon(number, ip, tsc, ctx, pmc1, pmc2, kclock, s7[0], s7[1]), s7[2..])
  }

  ghost function EncodeCommon(c: EventCommon, rest: seq<u8>): (s: seq<u8>)
    ensures |s| == COMMON_SIZE + |rest|
  {
    U64Bytes(c.number) + (U64Bytes(c.ip) + (U64Bytes(c.tsc) + (U64Bytes(c.ctx) +
    (U32Bytes(c.pmc1) + (U32Bytes(c.pmc2) + (U32Bytes(c.kclock) +
    ([c.typeCode, c.cpu] + rest)))))))
  }

  /**
   `number`, `ip`, `tsc` and `ctx` are the u64 values at bytes 0, 8, 16 and
   24; `pmc1`, `pmc2` and `kclock` the u32 values at 32, 36 and 40; the type
   code is byte 44 and the CPU byte 45; the payload starts at byte 46.
   */
  lemma CommonOffsets(s: seq<u8>)
    requires |s| >= COMMON_SIZE
    ensures var (c, rest) := ParseCommon(s);
      && c.number == LeValue(s[0..8])
      && c.ip == LeValue(s[8..16])
      && c.tsc == LeValue(s[16..24])
      && c.ctx == LeValue(s[24..32])
      && c.pmc1 == LeValue(s[32..36])
      && c.pmc2 == LeValue(s[36..40])
      && c.kclock == LeValue(s[40..44])
      && c.typeCode == s[44]
      && c.cpu == s[45]
      && rest == s[COMMON_SIZE..]
  {
    assert s[8..][..8] == s[8..16];
    assert s[16..][..8] == s[16..24];
    assert s[24..][..8] == s[24..32];
    assert s[32..][..4] == s[32..36];
    assert s[36..][..4] == s[36..40];
    assert s[40..][..4] == s[40..44];
  }

  lemma CommonRest(s: seq<u8>)
    requires |s| >= COMMON_SIZE
    ensures ParseCommon(s).1 == s[COMMON_SIZE..]
  {
    CommonOffsets(s);
  }

  lemma ParseEncodeCommon(c: EventCommon, rest: seq<u8>)
    ensures ParseCommon(EncodeCommon(c, rest)) == (c, rest)
  {
    var t7 := [c.typeCode, c.cpu] + rest;
    var t6 := U32Bytes(c.kclock) + t7;
    var t5 := U32Bytes(c.pmc2) + t6;
    var t4 := U32Bytes(c.pmc1) + t5;
    var t3 := U64Bytes(c.ctx) + t4;
    var t2 := U64Bytes(c.tsc) + t3;
    var t1 := U64Bytes(c.ip) + t2;
    ReadU64OfBytes(c.number, t1);
    ReadU64OfBytes(c.ip, t2);
    ReadU64OfBytes(c.tsc, t3);
    ReadU64OfBytes(c.ctx, t4);
    ReadU32OfBytes(c.pmc1, t5);
    ReadU32OfBytes(c.pmc2, t6);
    ReadU32OfBytes(c.kclock, t7);
    assert t7[2..] == rest;
  }

  lemma EncodeParseCommon(s: seq<u8>)
    requires |s| >= COMMON_SIZE
    ensures EncodeCommon(ParseCommon(s).0, ParseCommon(s).1) == s
  {
    var (number, s1) := ReadU64(s);
    var (ip, s2) := ReadU64(s1);
    var (tsc, s3) := ReadU64(s2);
    var (ctx, s4) := ReadU64(s3);
    var (pmc1, s5) := ReadU32(s4);
    var (pmc2, s6) := ReadU32(s5);
    var (kclock, s7) := ReadU32(s6);
    var c := EventCommon(number, ip, tsc, ctx, pmc1, pmc2, kclock, s7[0], s7[1]);
    assert ParseCommon(s) == (c, s7[2..]);
    assert [s7[0], s7[1]] + s7[2..] == s7;
    U32BytesOfRead(s6);
    U32BytesOfRead(s5);
    U32BytesOfRead(s4);
    U64BytesOfRead(s3);
    U64BytesOfRead(s2);
    U64BytesOfRead(s1);
    U64BytesOfRead(s);
  }

  // ---------------------------------------------------------------------
  // NAM: pad 46..48, obj 48..56, id 56..64, name 64..96.

  function ParseNam(f: Frame): NamEvent
  {
    var (common, p0) := ParseCommon(f);
    var (obj, p1) := ReadU64(p0[2..]);
    var (id, p2) := ReadU64(p1);
    NamEvent(common, p0[..2], obj, id, p2[..32])
  }

  ghost function EncodeNam(e: NamEvent, unread: seq<u8>): (s: seq<u8>)
    ensures |s| == NAM_END + |unread|
  {
    EncodeCommon(e.common, e.prePad + (U64Bytes(e.obj) + (U64Bytes(e.id) + (e.name + unread))))
  }

  lemma NamOffsets(f: Frame)
    ensures var e := ParseNam(f);
      && e.common == ParseCommon(f).0
      && e.prePad == f[46..48]
      && e.obj == LeValue(f[48..56])
      && e.id == LeValue(f[56..64])
      && e.name == f[64..NAM_END]
  {
    CommonOffsets(f);
    assert f[46..][2..][..8] == f[48..56];
    assert f[46..][2..][8..][..8] == f[56..64];
    assert f[46..][2..][8..][8..][..32] == f[64..96];
  }

  lemma ParseEncodeNam(e: NamEvent, unread: seq<u8>)
    requires |unread| == FRAME_SIZE - NAM_END
    ensures |EncodeNam(e, unread)| == FRAME_SIZE
    ensures ParseNam(EncodeNam(e, unread)) == e
  {
    var t2 := e.name + unread;
    var t1 := U64Bytes(e.id) + t2;
    var t0 := U64Bytes(e.obj) + t1;
    var p0 := e.prePad + t0;
    ParseEncodeCommon(e.common, p0);
    assert p0[2..] == t0;
    ReadU64OfBytes(e.obj, t1);
    ReadU64OfBytes(e.id, t2);
  }

  lemma EncodeParseNam(f: Frame)
    ensures EncodeNam(ParseNam(f), f[NAM_END..]) == f
  {
    var (c, p0) := ParseCommon(f);
    var (obj, p1) := ReadU64(p0[2..]);
    var (id, p2) := ReadU64(p1);
    assert ParseNam(f) == NamEvent(c, p0[..2], obj, id, p2[..32]);
    CommonRest(f);
    assert p2 == f[64..];
    assert f[NAM_END..] == p2[32..];
    U64BytesOfRead(p0[2..]);
    U64BytesOfRead(p1);
    EncodeParseCommon(f);
    calc {
      EncodeNam(ParseNam(f), f[NAM_END..]);
      EncodeCommon(c, p0[..2] + (U64Bytes(obj) + (U64Bytes(id) + (p2[..32] + p2[32..]))));
      { assert p2[..32] + p2[32..] == p2; }
      EncodeCommon(c, p0[..2] + (U64Bytes(obj) + p1));
      { assert p0[..2] + p0[2..] == p0; }
      EncodeCommon(c, p0);
    }
  }

  // ---------------------------------------------------------------------
  // DESTROY: pad 46..48, obj 48..56, id 56..64, type 64..72, ram 72..80.

  function ParseDestroy(f: Frame): DestroyEvent
  {
    var (common, p0) := ParseCommon(f);
    var (obj, p1) := ReadU64(p0[2..]);
    var (id, p2) := ReadU64(p1);
    var (objType, p3) := ReadU64(p2);
    var (ram, _) := ReadU64(p3);
    DestroyEvent(common, p0[..2], obj, id, objType, ram)
  }

  ghost function EncodeDestroy(e: DestroyEvent, unread: seq<u8>): (s: seq<u8>)
    ensures |s| == DESTROY_END + |unread|
  {
    EncodeCommon(e.common, e.prePad + (U64Bytes(e.obj) + (U64Bytes(e.id) +
      (U64Bytes(e.objType) + (U64Bytes(e.ram) + unread)))))
  }

  lemma DestroyOffsets(f: Frame)
    ensures var e := ParseDestroy(f);
      && e.common == ParseCommon(f).0
      && e.prePad == f[46..48]
      && e.obj == LeValue(f[48..56])
      && e.id == LeValue(f[56..64])
      && e.objType == LeValue(f[64..72])
      && e.ram == LeValue(f[72..DESTROY_END])
  {
    CommonOffsets(f);
    assert f[46..][2..][..8] == f[48..56];
    assert f[46..][2..][8..][..8] == f[56..64];
    assert f[46..][2..][8..][8..][..8] == f[64..72];
    assert f[46..][2..][8..][8..][8..][..8] == f[72..80];
  }

  lemma ParseEncodeDestroy(e: DestroyEvent, unread: seq<u8>)
    requires |unread| == FRAME_SIZE - DESTROY_END
    ensures |EncodeDestroy(e, unread)| == FRAME_SIZE
    ensures ParseDestroy(EncodeDestroy(e, unread)) == e
  {
    var t3 := U64Bytes(e.ram) + unread;
    var t2 := U64Bytes(e.objType) + t3;
    var t1 := U64Bytes(e.id) + t2;
    var t0 := U64Bytes(e.obj) + t1;
    var p0 := e.prePad + t0;
    ParseEncodeCommon(e.common, p0);
    assert p0[2..] == t0;
    ReadU64OfBytes(e.obj, t1);
    ReadU64OfBytes(e.id, t2);
    ReadU64OfBytes(e.objType, t3);
    ReadU64OfBytes(e.ram, unread);
  }

  lemma EncodeParseDestroy(f: Frame)
    ensures EncodeDestroy(ParseDestroy(f), f[DESTROY_END..]) == f
  {
    var p0 := ParseCommon(f).1;
    EncodeParseCommon(f);
    var p1 := ReadU64(p0[2..]).1;
    var p2 := ReadU64(p1).1;
    var p3 := ReadU64(p2).1;
    U64BytesOfRead(p0[2..]);
    U64BytesOfRead(p1);
    U64BytesOfRead(p2);
    U64BytesOfRead(p3);
    CommonOffsets(f);
    assert ReadU64(p3).1 == f[DESTROY_END..];
    assert p0[..2] + p0[2..] == p0;
  }

  // ---------------------------------------------------------------------
  // CONTEXT-SWITCH: pad 46..48, then seven u64 fields from 48 to 104.

  function ParseContextSwitch(f: Frame): ContextSwitchEvent
  {
    var (common, p0) := ParseCommon(f);
    var (dst, p1) := ReadU64(p0[2..]);
    var (dstOrig, p2) := ReadU64(p1);
    var (kernelIp, p3) := ReadU64(p2);
    var (lockCnt, p4) := ReadU64(p3);
    var (fromSpace, p5) := ReadU64(p4);
    var (fromSched, p6) := ReadU64(p5);
    var (fromPrio, _) := ReadU64(p6);
    ContextSwitchEvent(common, p0[..2], dst, dstOrig, kernelIp, lockCnt, fromSpace, fromSched, fromPrio)
  }

  ghost function EncodeContextSwitch(e: ContextSwitchEvent, unread: seq<u8>): (s: seq<u8>)
    ensures |s| == CONTEXT_SWITCH_END + |unread|
  {
    EncodeCommon(e.common, e.prePad + (U64Bytes(e.dst) + (U64Bytes(e.dstOrig) +
      (U64Bytes(e.kernelIp) + (U64Bytes(e.lockCnt) + (U64Bytes(e.fromSpace) +
      (U64Bytes(e.fromSched) + (U64Bytes(e.fromPrio) + unread))))))))
  }

  lemma ContextSwitchOffsets(f: Frame)
    ensures var e := ParseContextSwitch(f);
      && e.common == ParseCommon(f).0
      && e.prePad == f[46..48]
      && e.dst == LeValue(f[48..56])
      && e.dstOrig == LeValue(f[56..64])
      && e.kernelIp == LeValue(f[64..72])
      && e.lockCnt == LeValue(f[72..80])
      && e.fromSpace == LeValue(f[80..88])
      && e.fromSched == LeValue(f[88..96])
      && e.fromPrio == LeValue(f[96..CONTEXT_SWITCH_END])
  {
    CommonOffsets(f);
    var q := f[48..];
    assert f[46..][2..] == q;
    assert q[..8] == f[48..56];
    assert q[8..][..8] == f[56..64];
    assert q[8..][8..][..8] == f[64..72];
    assert q[8..][8..][8..][..8] == f[72..80];
    assert q[8..][8..][8..][8..][..8] == f[80..88];
    assert q[8..][8..][8..][8..][8..][..8] == f[88..96];
    assert q[8..][8..][8..][8..][8..][8..][..8] == f[96..104];
  }

  lemma ParseEncodeContextSwitch(e: ContextSwitchEvent, unread: seq<u8>)
    requires |unread| == FRAME_SIZE - CONTEXT_SWITCH_END
    ensures |EncodeContextSwitch(e, unread)| == FRAME_SIZE
    ensures ParseContextSwitch(EncodeContextSwitch(e, unread)) == e
  {
    var t6 := U64Bytes(e.fromPrio) + unread;
    var t5 := U64Bytes(e.fromSched) + t6;
    var t4 := U64Bytes(e.fromSpace) + t5;
    var t3 := U64Bytes(e.lockCnt) + t4;
    var t2 := U64Bytes(e.kernelIp) + t3;
    var t1 := U64Bytes(e.dstOrig) + t2;
    var t0 := U64Bytes(e.dst) + t1;
    var p0 := e.prePad + t0;
    ParseEncodeCommon(e.common, p0);
    assert p0[2..] == t0;
    ReadU64OfBytes(e.dst, t1);
    ReadU64OfBytes(e.dstOrig, t2);
    ReadU64OfBytes(e.kernelIp, t3);
    ReadU64OfBytes(e.lockCnt, t4);
    ReadU64OfBytes(e.fromSpace, t5);
    ReadU64OfBytes(e.fromSched, t6);
    ReadU64OfBytes(e.fromPrio, unread);
  }

  lemma EncodeParseContextSwitch(f: Frame)
    ensures EncodeContextSwitch(ParseContextSwitch(f), f[CONTEXT_SWITCH_END..]) == f
  {
    var p0 := ParseCommon(f).1;
    EncodeParseCommon(f);
    var p1 := ReadU64(p0[2..]).1;
    var p2 := ReadU64(p1).1;
    var p3 := ReadU64(p2).1;
    var p4 := ReadU64(p3).1;
    var p5 := ReadU64(p4).1;
    var p6 := ReadU64(p5).1;
    U64BytesOfRead(p0[2..]);
    U64BytesOfRead(p1);
    U64BytesOfRead(p2);
    U64BytesOfRead(p3);
    U64BytesOfRead(p4);
    U64BytesOfRead(p5);
    U64BytesOfRead(p6);
    CommonOffsets(f);
    assert ReadU64(p6).1 == f[CONTEXT_SWITCH_END..];
    assert p0[..2] + p0[2..] == p0;
  }

  // ---------------------------------------------------------------------
  // MIGRATION: pad 46..48, state 48..56, user_ip 56..64, src_cpu 64..68,
  // target_cpu 68..72.

  function ParseMigration(f: Frame): MigrationEvent
  {
    var (common, p0) := ParseCommon(f);
    var (state, p1) := ReadU64(p0[2..]);
    var (userIp, p2) := ReadU64(p1);
    var (srcCpu, p3) := ReadU32(p2);
    var (targetCpu, _) := ReadU32(p3);
    MigrationEvent(common, p0[..2], state, userIp, srcCpu, targetCpu)
  }

  ghost function EncodeMigration(e: MigrationEvent, unread: seq<u8>): (s: seq<u8>)
    ensures |s| == MIGRATION_END + |unread|
  {
    EncodeCommon(e.common, e.prePad + (U64Bytes(e.state) + (U64Bytes(e.userIp) +
      (U32Bytes(e.srcCpu) + (U32Bytes(e.targetCpu) + unread)))))
  }

  lemma MigrationOffsets(f: Frame)
    ensures var e := ParseMigration(f);
      && e.common == ParseCommon(f).0
      && e.prePad == f[46..48]
      && e.state == LeValue(f[48..56])
      && e.userIp == LeValue(f[56..64])
      && e.srcCpu == LeValue(f[64..68])
      && e.targetCpu == LeValue(f[68..MIGRATION_END])
  {
    CommonOffsets(f);
    var q := f[48..];
    assert f[46..][2..] == q;
    assert q[..8] == f[48..56];
    assert q[8..][..8] == f[56..64];
    assert q[8..][8..][..4] == f[64..68];
    assert q[8..][8..][4..][..4] == f[68..72];
  }

  lemma ParseEncodeMigration(e: MigrationEvent, unread: seq<u8>)
    requires |unread| == FRAME_SIZE - MIGRATION_END
    ensures |EncodeMigration(e, unread)| == FRAME_SIZE
    ensures ParseMigration(EncodeMigration(e, unread)) == e
  {
    var t3 := U32Bytes(e.targetCpu) + unread;
    var t2 := U32Bytes(e.srcCpu) + t3;
    var t1 := U64Bytes(e.userIp) + t2;
    var t0 := U64Bytes(e.state) + t1;
    var p0 := e.prePad + t0;
    ParseEncodeCommon(e.common, p0);
    assert p0[2..] == t0;
    ReadU64OfBytes(e.state, t1);
    ReadU64OfBytes(e.userIp, t2);
    ReadU32OfBytes(e.srcCpu, t3);
    ReadU32OfBytes(e.targetCpu, unread);
  }

  lemma EncodeParseMigration(f: Frame)
    ensures EncodeMigration(ParseMigration(f), f[MIGRATION_END..]) == f
  {
    var p0 := ParseCommon(f).1;
    EncodeParseCommon(f);
    var p1 := ReadU64(p0[2..]).1;
    var p2 := ReadU64(p1).1;
    var p3 := ReadU32(p2).1;
    U64BytesOfRead(p0[2..]);
    U64BytesOfRead(p1);
    U32BytesOfRead(p2);
    U32BytesOfRead(p3);
    CommonOffsets(f);
    assert ReadU32(p3).1 == f[MIGRATION_END..];
    assert p0[..2] + p0[2..] == p0;
  }

  // ---------------------------------------------------------------------
  // IPC: pad 46..48, tag 48..56, dword 56..72, dst 72..80, dbg_id 80..88,
  // label 88..96, timeout 96..100, pad 100..104, to_abs_rcv 104..112.

  function ParseIpc(f: Frame): IpcEvent
  {
    var (common, p0) := ParseCommon(f);
    var (tag, p1) := ReadU64(p0[2..]);
    var (dword0, p2) := ReadU64(p1);
    var (dword1, p3) := ReadU64(p2);
    var (dst, p4) := ReadU64(p3);
    var (dbgId, p5) := ReadU64(p4);
    var (ipcLabel, p6) := ReadU64(p5);
    var (timeout, p7) := ReadU32(p6);
    var (toAbsRcv, _) := ReadU64(p7[4..]);
    IpcEvent(common, p0[..2], tag, [dword0, dword1], dst, dbgId, ipcLabel, timeout, p7[..4], toAbsRcv)
  }

  ghost function EncodeIpc(e: IpcEvent, unread: seq<u8>): (s: seq<u8>)
    ensures |s| == IPC_END + |unread|
  {
    EncodeCommon(e.common, e.prePad + (U64Bytes(e.tag) + (U64Bytes(e.dword[0]) +
      (U64Bytes(e.dword[1]) + (U64Bytes(e.dst) + (U64Bytes(e.dbgId) +
      (U64Bytes(e.ipcLabel) + (U32Bytes(e.timeout) + (e.pad1 +
      (U64Bytes(e.toAbsRcv) + unread))))))))))
  }

  lemma IpcOffsets(f: Frame)
    ensures var e := ParseIpc(f);
      && e.common == ParseCommon(f).0
      && e.prePad == f[46..48]
      && e.tag == LeValue(f[48..56])
      && e.dword[0] == LeValue(f[56..64])
      && e.dword[1] == LeValue(f[64..72])
      && e.dst == LeValue(f[72..80])
      && e.dbgId == LeValue(f[80..88])
      && e.ipcLabel == LeValue(f[88..96])
      && e.timeout == LeValue(f[96..100])
      && e.pad1 == f[100..104]
      && e.toAbsRcv == LeValue(f[104..IPC_END])
  {
    CommonOffsets(f);
    var q := f[48..];
    assert f[46..][2..] == q;
    assert q[..8] == f[48..56];
    var q1 := q[8..];
    assert q1[..8] == f[56..64];
    var q2 := q1[8..];
    assert q2[..8] == f[64..72];
    var q3 := q2[8..];
    assert q3[..8] == f[72..80];
    var q4 := q3[8..];
    assert q4[..8] == f[80..88];
    var q5 := q4[8..];
    assert q5[..8] == f[88..96];
    var q6 := q5[8..];
    assert q6[..4] == f[96..100];
    var q7 := q6[4..];
    assert q7[..4] == f[100..104];
    assert q7[4..][..8] == f[104..112];
  }

  lemma ParseEncodeIpc(e: IpcEvent, unread: seq<u8>)
    requires |unread| == FRAME_SIZE - IPC_END
    ensures |EncodeIpc(e, unread)| == FRAME_SIZE
    ensures ParseIpc(EncodeIpc(e, unread)) == e
  {
    var t8 := U64Bytes(e.toAbsRcv) + unread;
    var t7 := e.pad1 + t8;
    var t6 := U32Bytes(e.timeout) + t7;
    var t5 := U64Bytes(e.ipcLabel) + t6;
    var t4 := U64Bytes(e.dbgId) + t5;
    var t3 := U64Bytes(e.dst) + t4;
    var t2 := U64Bytes(e.dword[1]) + t3;
    var t1 := U64Bytes(e.dword[0]) + t2;
    var t0 := U64Bytes(e.tag) + t1;
    var p0 := e.prePad + t0;
    ParseEncodeCommon(e.common, p0);
    assert p0[2..] == t0;
    ReadU64OfBytes(e.tag, t1);
    ReadU64OfBytes(e.dword[0], t2);
    ReadU64OfBytes(e.dword[1], t3);
    ReadU64OfBytes(e.dst, t4);
    ReadU64OfBytes(e.dbgId, t5);
    ReadU64OfBytes(e.ipcLabel, t6);
    ReadU32OfBytes(e.timeout, t7);
    assert t7[4..] == t8;
    ReadU64OfBytes(e.toAbsRcv, unread);
    assert [e.dword[0], e.dword[1]] == e.dword;
  }

  lemma EncodeParseIpc(f: Frame)
    ensures EncodeIpc(ParseIpc(f), f[IPC_END..]) == f
  {
    var (c, p0) := ParseCommon(f);
    var (tag, p1) := ReadU64(p0[2..]);
    var (dword0, p2) := ReadU64(p1);
    var (dword1, p3) := ReadU64(p2);
    var (dst, p4) := ReadU64(p3);
    var (dbgId, p5) := ReadU64(p4);
    var (ipcLabel, p6) := ReadU64(p5);
    var (timeout, p7) := ReadU32(p6);
    var (toAbsRcv, p8) := ReadU64(p7[4..]);
    var e := IpcEvent(c, p0[..2], tag, [dword0, dword1], dst, dbgId, ipcLabel, timeout, p7[..4], toAbsRcv);
    assert ParseIpc(f) == e;
    CommonRest(f);
    assert p8 == f[IPC_END..];
    U64BytesOfRead(p0[2..]);
    U64BytesOfRead(p1);
    U64BytesOfRead(p2);
    U64BytesOfRead(p3);
    U64BytesOfRead(p4);
    U64BytesOfRead(p5);
    U32BytesOfRead(p6);
    U64BytesOfRead(p7[4..]);
    EncodeParseCommon(f);
    calc {
      EncodeIpc(e, p8);
      EncodeCommon(c, p0[..2] + (U64Bytes(tag) + (U64Bytes(dword0) + (U64Bytes(dword1) +
        (U64Bytes(dst) + (U64Bytes(dbgId) + (U64Bytes(ipcLabel) + (U32Bytes(timeout) +
        (p7[..4] + p7[4..])))))))));
      { assert p7[..4] + p7[4..] == p7; }
      EncodeCommon(c, p0[..2] + p0[2..]);
      { assert p0[..2] + p0[2..] == p0; }
      EncodeCommon(c, p0);
    }
  }

  // ---------------------------------------------------------------------
  // IPC-RES: have_snd 46, is_np 47, tag 48..56, dword 56..72, result 72..80,
  // from 80..88, dst 88..96, pair_event 96..104.

  function ParseIpcRes(f: Frame): IpcResEvent
  {
    var (common, p0) := ParseCommon(f);
    var (tag, p1) := ReadU64(p0[2..]);
    var (dword0, p2) := ReadU64(p1);
    var (dword1, p3) := ReadU64(p2);
    var (result, p4) := ReadU64(p3);
    var (from, p5) := ReadU64(p4);
    var (dst, p6) := ReadU64(p5);
    var (pairEvent, _) := ReadU64(p6);
    IpcResEvent(common, p0[0], p0[1], tag, [dword0, dword1], result, from, dst, pairEvent)
  }

  ghost function EncodeIpcRes(e: IpcResEvent, unread: seq<u8>): (s: seq<u8>)
    ensures |s| == IPC_RES_END + |unread|
  {
    EncodeCommon(e.common, [e.haveSnd, e.isNp] + (U64Bytes(e.tag) + (U64Bytes(e.dword[0]) +
      (U64Bytes(e.dword[1]) + (U64Bytes(e.result) + (U64Bytes(e.from) +
      (U64Bytes(e.dst) + (U64Bytes(e.pairEvent) + unread))))))))
  }

  lemma IpcResOffsets(f: Frame)
    ensures var e := ParseIpcRes(f);
      && e.common == ParseCommon(f).0
      && e.haveSnd == f[46]
      && e.isNp == f[47]
      && e.tag == LeValue(f[48..56])
      && e.dword[0] == LeValue(f[56..64])
      && e.dword[1] == LeValue(f[64..72])
      && e.result == LeValue(f[72..80])
      && e.from == LeValue(f[80..88])
      && e.dst == LeValue(f[88..96])
      && e.pairEvent == LeValue(f[96..IPC_RES_END])
  {
    CommonOffsets(f);
    var q := f[48..];
    assert f[46..][2..] == q;
    assert q[..8] == f[48..56];
    var q1 := q[8..];
    assert q1[..8] == f[56..64];
    var q2 := q1[8..];
    assert q2[..8] == f[64..72];
    var q3 := q2[8..];
    assert q3[..8] == f[72..80];
    var q4 := q3[8..];
    assert q4[..8] == f[80..88];
    var q5 := q4[8..];
    assert q5[..8] == f[88..96];
    assert q5[8..][..8] == f[96..104];
  }

  lemma ParseEncodeIpcRes(e: IpcResEvent, unread: seq<u8>)
    requires |unread| == FRAME_SIZE - IPC_RES_END
    ensures |EncodeIpcRes(e, unread)| == FRAME_SIZE
    ensures ParseIpcRes(EncodeIpcRes(e, unread)) == e
  {
    var t6 := U64Bytes(e.pairEvent) + unread;
    var t5 := U64Bytes(e.dst) + t6;
    var t4 := U64Bytes(e.from) + t5;
    var t3 := U64Bytes(e.result) + t4;
    var t2 := U64Bytes(e.dword[1]) + t3;
    var t1 := U64Bytes(e.dword[0]) + t2;
    var t0 := U64Bytes(e.tag) + t1;
    var p0 := [e.haveSnd, e.isNp] + t0;
    ParseEncodeCommon(e.common, p0);
    assert p0[2..] == t0;
    ReadU64OfBytes(e.tag, t1);
    ReadU64OfBytes(e.dword[0], t2);
    ReadU64OfBytes(e.dword[1], t3);
    ReadU64OfBytes(e.result, t4);
    ReadU64OfBytes(e.from, t5);
    ReadU64OfBytes(e.dst, t6);
    ReadU64OfBytes(e.pairEvent, unread);
    assert [e.dword[0], e.dword[1]] == e.dword;
  }

  lemma EncodeParseIpcRes(f: Frame)
    ensures EncodeIpcRes(ParseIpcRes(f), f[IPC_RES_END..]) == f
  {
    var (c, p0) := ParseCommon(f);
    var (tag, p1) := ReadU64(p0[2..]);
    var (dword0, p2) := ReadU64(p1);
    var (dword1, p3) := ReadU64(p2);
    var (result, p4) := ReadU64(p3);
    var (from, p5) := ReadU64(p4);
    var (dst, p6) := ReadU64(p5);
    var (pairEvent, p7) := ReadU64(p6);
    var e := IpcResEvent(c, p0[0], p0[1], tag, [dword0, dword1], result, from, dst, pairEvent);
    assert ParseIpcRes(f) == e;
    assert p7 == f[IPC_RES_END..] by {
      CommonRest(f);
    }
    calc {
      EncodeIpcRes(e, p7);
      EncodeCommon(c, [p0[0], p0[1]] + (U64Bytes(tag) + (U64Bytes(dword0) +
        (U64Bytes(dword1) + (U64Bytes(result) + (U64Bytes(from) +
        (U64Bytes(dst) + (U64Bytes(pairEvent) + p7))))))));
      { U64BytesOfRead(p6); U64BytesOfRead(p5); U64BytesOfRead(p4); }
      EncodeCommon(c, [p0[0], p0[1]] + (U64Bytes(tag) + (U64Bytes(dword0) +
        (U64Bytes(dword1) + (U64Bytes(result) + p4)))));
      { U64BytesOfRead(p3); U64BytesOfRead(p2); U64BytesOfRead(p1); U64BytesOfRead(p0[2..]); }
      EncodeCommon(c, [p0[0], p0[1]] + p0[2..]);
      { assert [p0[0], p0[1]] + p0[2..] == p0; }
      EncodeCommon(c, p0);
      { EncodeParseCommon(f); }
      f;
    }
  }

  // ---------------------------------------------------------------------
  // Pass-through variants: the payload is bytes 46..128, unread.

  function ParseRaw(f: Frame): RawEvent
  {
    var (common, p0) := ParseCommon(f);
    RawEvent(common, p0)
  }

  ghost function EncodeRaw(e: RawEvent): seq<u8>
  {
    EncodeCommon(e.common, e.payload)
  }

  lemma ParseEncodeRaw(e: RawEvent)
    ensures |EncodeRaw(e)| == FRAME_SIZE
    ensures ParseRaw(EncodeRaw(e)) == e
  {
    ParseEncodeCommon(e.common, e.payload);
  }

  lemma EncodeParseRaw(f: Frame)
    ensures EncodeRaw(ParseRaw(f)) == f
  {
    EncodeParseCommon(f);
  }
}

=== FILE: metadata.dfy ===
/**
 Merging the per-CPU CTF metadata files into one (`merge_traces`): the
 files are read in the order of the CPU list, split into lines, and every
 line is copied with a newline after it, except that a `trace`, `env` or
 `clock` block already copied from an earlier file (or earlier in the
 same file) is skipped, from its header line up to the first line that
 trims to `};`. Whether lines are being copied carries over from one
 file to the next.

 Copying the stream files and the file system operations are not part
 of this model; the files' contents are the input and the merged text is
 the output.
 */
module Metadata {
  import opened Wrappers

  // ---------------------------------------------------------------------
  // `str::lines` and `str::trim`

  /**
   `char::is_whitespace`: the characters with the Unicode White_Space
   property.
   */
  predicate IsWhitespace(c: char) {
    var n := c as int;
    (0x09 <= n <= 0x0D) || n == 0x20 || n == 0x85 || n == 0xA0 || n == 0x1680
    || (0x2000 <= n <= 0x200A) || n == 0x2028 || n == 0x2029 || n == 0x202F
    || n == 0x205F || n == 0x3000
  }

  /** The first index at or after `i` that is not whitespace, or `|s|`. */
  function SkipWhitespace(s: string, i: nat): (k: nat)
    requires i <= |s|
    ensures i <= k <= |s|
    ensures forall m :: i <= m < k ==> IsWhitespace(s[m])
    ensures k < |s| ==> !IsWhitespace(s[k])
    decreases |s| - i
  {
    if i == |s| || !IsWhitespace(s[i]) then i else SkipWhitespace(s, i + 1)
  }

  /** The index just past the last character before `j` that is not whitespace, or `lo`. */
  function SkipWhitespaceBack(s: string, lo: nat, j: nat): (k: nat)
    requires lo <= j <= |s|
    ensures lo <= k <= j
    ensures forall m :: k <= m < j ==> IsWhitespace(s[m])
    ensures k > lo ==> !IsWhitespace(s[k - 1])
    decreases j
  {
    if j == lo || !IsWhitespace(s[j - 1]) then j else SkipWhitespaceBack(s, lo, j - 1)
  }

  /**
   `str::trim`: the slice between the leading and the trailing
   whitespace. It starts and ends with a non-whitespace character unless
   it is empty, in which case `s` was all whitespace.
   */
  function Trim(s: string): (t: string)
    ensures exists i, j :: (0 <= i <= j <= |s| && t == s[i..j]
      && (forall m :: 0 <= m < i ==> IsWhitespace(s[m]))
      && (forall m :: j <= m < |s| ==> IsWhitespace(s[m])))
    ensures |t| > 0 ==> !IsWhitespace(t[0]) && !IsWhitespace(t[|t| - 1])
    ensures |t| == 0 ==> forall m :: 0 <= m < |s| ==> IsWhitespace(s[m])
  {
    var i := SkipWhitespace(s, 0);
    var j := SkipWhitespaceBack(s, i, |s|);
    s[i..j]
  }

  /** Trimming twice is trimming once. */
  lemma TrimIdempotent(s: string)
    ensures Trim(Trim(s)) == Trim(s)
  {
    var t := Trim(s);
    if |t| > 0 {
      assert SkipWhitespace(t, 0) == 0;
      assert SkipWhitespaceBack(t, 0, |t|) == |t|;
      assert t[0..|t|] == t;
    }
  }

  /** The index of the first `'\n'` at or after `i`, or `|s|`. */
  function NextNewline(s: string, i: nat): (k: nat)
    requires i <= |s|
    ensures i <= k <= |s|
    ensures forall m :: i <= m < k ==> s[m] != '\n'
    ensures k < |s| ==> s[k] == '\n'
    decreases |s| - i
  {
    if i == |s| || s[i] == '\n' then i else NextNewline(s, i + 1)
  }

  /** Drops one `'\r'` at the end, as a line ending `"\r\n"` loses both characters. */
  function StripCr(s: string): string {
    if |s| > 0 && s[|s| - 1] == '\r' then s[..|s| - 1] else s
  }

  /**
   `str::lines`: split at each `'\n'`, removing a `'\r'` just before it;
   a final line ending adds no empty line.
   */
  function Lines(s: string): seq<string>
    decreases |s|
  {
    if |s| == 0 then []
    else
      var k := NextNewline(s, 0);
      if k == |s| then [s] else [StripCr(s[..k])] + Lines(s[k + 1..])
  }

  /** Each line followed by a newline, all concatenated. */
  function Join(lines: seq<string>): string
    decreases |lines|
  {
    if |lines| == 0 then "" else lines[0] + "\n" + Join(lines[1..])
  }

  /** No line contains a newline or ends with a carriage return. */
  predicate PlainLines(lines: seq<string>) {
    forall i :: 0 <= i < |lines| ==>
      (forall m :: 0 <= m < |lines[i]| ==> lines[i][m] != '\n')
      && (|lines[i]| == 0 || lines[i][|lines[i]| - 1] != '\r')
  }

  /** Splitting joined lines gives them back, as long as they are plain. */
  lemma {:induction false} LinesOfJoin(lines: seq<string>)
    requires PlainLines(lines)
    ensures Lines(Join(lines)) == lines
    decreases |lines|
  {
    if |lines| > 0 {
      var l, rest := lines[0], lines[1..];
      assert lines == [l] + rest;
      JoinCons(l, rest);
      LinesOfLine(l, Join(rest));
      PlainTail(lines);
      LinesOfJoin(rest);
    }
  }

  /** A plain line before a newline comes back as the first line. */
  lemma LinesOfLine(l: string, t: string)
    requires forall m :: 0 <= m < |l| ==> l[m] != '\n'
    requires |l| == 0 || l[|l| - 1] != '\r'
    ensures Lines(l + "\n" + t) == [l] + Lines(t)
  {
    var s := l + "\n" + t;
    ConcatParts(l, t);
    assert forall m :: 0 <= m < |l| ==> s[m] != '\n' by {
      forall m | 0 <= m < |l| ensures s[m] == l[m] {
        assert s[..|l|][m] == s[m];
      }
    }
    NextNewlineFinds(s, |l|);
    LinesSplit(s);
  }

  /** Dropping the first line keeps the rest plain. */
  lemma PlainTail(lines: seq<string>)
    requires PlainLines(lines) && |lines| > 0
    ensures PlainLines(lines[1..])
  {
    forall i | 0 <= i < |lines| - 1
      ensures lines[1..][i] == lines[i + 1]
    {
    }
  }

  /** The parts of a line, a newline and the text after it. */
  lemma ConcatParts(a: string, b: string)
    ensures var s := a + "\n" + b;
      && |s| == |a| + 1 + |b| && s[|a|] == '\n'
      && s[..|a|] == a && s[|a| + 1..] == b
  {
    var s := a + "\n" + b;
    assert s[..|a|] == a;
    assert s[|a| + 1..] == b;
  }

  /** A text cut around a newline is the part before, the newline and the part after. */
  lemma SplitAt(s: string, k: nat)
    requires k < |s| && s[k] == '\n'
    ensures s == s[..k] + "\n" + s[k + 1..]
  {
  }

  /** The first newline is found where it is. */
  lemma NextNewlineFinds(s: string, k: nat)
    requires k < |s| && s[k] == '\n' && forall m :: 0 <= m < k ==> s[m] != '\n'
    ensures NextNewline(s, 0) == k
  {
  }

  /** Joining a line in front of others. */
  lemma JoinCons(l: string, rest: seq<string>)
    ensures Join([l] + rest) == l + "\n" + Join(rest)
  {
    assert ([l] + rest)[1..] == rest;
  }

  /** A text with a newline splits into the line before it and the lines after. */
  lemma LinesSplit(s: string)
    requires NextNewline(s, 0) < |s|
    ensures var k := NextNewline(s, 0);
      Lines(s) == [StripCr(s[..k])] + Lines(s[k + 1..])
  {
  }

  /** Joining the lines of a text with no `'\r'` that is empty or ends in a newline gives it back. */
  lemma {:induction false} JoinOfLines(s: string)
    requires forall m :: 0 <= m < |s| ==> s[m] != '\r'
    requires |s| == 0 || s[|s| - 1] == '\n'
    ensures Join(Lines(s)) == s
    decreases |s|
  {
    if |s| > 0 {
      var k := NextNewline(s, 0);
      var line, rest := s[..k], s[k + 1..];
      assert forall m :: 0 <= m < |rest| ==> rest[m] != '\r' by {
        forall m | 0 <= m < |rest| ensures rest[m] == s[k + 1 + m] {
        }
      }
      assert |rest| == 0 || rest[|rest| - 1] == '\n' by {
        if |rest| > 0 {
          assert rest[|rest| - 1] == s[|s| - 1];
        }
      }
      JoinOfLines(rest);
      assert StripCr(line) == line by {
        if k > 0 {
          assert line[k - 1] == s[k - 1];
        }
      }
      LinesSplit(s);
      JoinCons(line, Lines(rest));
      SplitAt(s, k);
    }
  }

  // ---------------------------------------------------------------------
  // Section headers

  /** The names of the blocks kept once. */
  const SECTIONS: seq<string> := ["trace", "env", "clock"]

  predicate StartsWith(s: string, p: string) {
    |p| <= |s| && s[..|p|] == p
  }

  /**
   The regular expression `^(trace|env|clock) \{`: the block a header
   line opens, if the line starts with one of the names, a space and a
   brace.
   */
  function SectionHeader(line: string): Option<string>
  {
    if StartsWith(line, "trace {") then Some("trace")
    else if StartsWith(line, "env {") then Some("env")
    else if StartsWith(line, "clock {") then Some("clock")
    else None
  }

  /** A line opens a block exactly when it starts with a block name, a space and a brace. */
  lemma SectionHeaderMeans(line: string)
    ensures var r := SectionHeader(line);
      && (r.Some? <==> exists k :: 0 <= k < |SECTIONS| && StartsWith(line, SECTIONS[k] + " {"))
      && (r.Some? ==> r.value in SECTIONS && StartsWith(line, r.value + " {"))
  {
    assert SECTIONS[0] + " {" == "trace {";
    assert SECTIONS[1] + " {" == "env {";
    assert SECTIONS[2] + " {" == "clock {";
  }

  /** Every line starts at most one header pattern. */
  lemma HeaderUnambiguous(line: string, a: string, b: string)
    requires a in SECTIONS && b in SECTIONS
    requires StartsWith(line, a + " {") && StartsWith(line, b + " {")
    ensures a == b
  {
    assert line[0] == (a + " {")[0] == a[0];
    assert line[0] == (b + " {")[0] == b[0];
  }

  // ---------------------------------------------------------------------
  // The merge

  /** The blocks copied so far, in first-seen order, and whether lines are being copied. */
  datatype MergeState = MergeState(seen: seq<string>, copying: bool)

  const START: MergeState := MergeState([], true)

  /**
   One line: a header of a block already seen starts skipping, a header
   of a new block records it and resumes copying; the line is copied when
   copying is on; while skipping, a line that trims to `};` ends the
   skip after itself.
   */
  function MergeLine(st: MergeState, line: string): (r: (MergeState, bool))
    ensures var h := SectionHeader(line);
      r.1 <==> (h.None? && st.copying) || (h.Some? && h.value !in st.seen)
    ensures var h := SectionHeader(line);
      r.0.seen == if h.Some? && h.value !in st.seen then st.seen + [h.value] else st.seen
    ensures var h := SectionHeader(line);
      r.0.copying == ((if h.Some? then h.value !in st.seen else st.copying) || Trim(line) == "};")
  {
    var st1 :=
      match SectionHeader(line)
      case Some(sec) =>
        if sec in st.seen then st.(copying := false)
        else MergeState(st.seen + [sec], true)
      case None => st;
    var kept := st1.copying;
    var st2 := if !st1.copying && Trim(line) == "};" then st1.(copying := true) else st1;
    (st2, kept)
  }

  /** The state after `lines` and the lines copied, in order. */
  datatype Merged = Merged(st: MergeState, kept: seq<string>)

  function MergeLines(lines: seq<string>): Merged
    decreases |lines|
  {
    if |lines| == 0 then Merged(START, [])
    else
      var m := MergeLines(lines[..|lines| - 1]);
      var (st, keep) := MergeLine(m.st, lines[|lines| - 1]);
      Merged(st, if keep then m.kept + [lines[|lines| - 1]] else m.kept)
  }

  /** Merging one more line. */
  lemma MergeLinesStep(lines: seq<string>, line: string)
    ensures var m := MergeLines(lines);
      var (st, keep) := MergeLine(m.st, line);
      MergeLines(lines + [line]) == Merged(st, if keep then m.kept + [line] else m.kept)
  {
    assert (lines + [line])[..|lines|] == lines;
  }

  /** The sections that open some block in `lines`. */
  function HeadersOf(lines: seq<string>): set<string> {
    set i | 0 <= i < |lines| && SectionHeader(lines[i]).Some? :: SectionHeader(lines[i]).value
  }

  /** The blocks headed in a longer input: the earlier ones and the new line's. */
  lemma HeadersOfStep(lines: seq<string>, line: string)
    ensures HeadersOf(lines + [line]) ==
      HeadersOf(lines) + (if SectionHeader(line).Some? then {SectionHeader(line).value} else {})
  {
    var ls := lines + [line];
    forall x | x in HeadersOf(ls)
      ensures x in HeadersOf(lines) || (SectionHeader(line).Some? && x == SectionHeader(line).value)
    {
      var i :| 0 <= i < |ls| && SectionHeader(ls[i]).Some? && SectionHeader(ls[i]).value == x;
      if i < |lines| {
        assert ls[i] == lines[i];
      }
    }
    forall x | x in HeadersOf(lines) ensures x in HeadersOf(ls) {
      var i :| 0 <= i < |lines| && SectionHeader(lines[i]).Some? && SectionHeader(lines[i]).value == x;
      assert ls[i] == lines[i];
    }
    if SectionHeader(line).Some? {
      assert ls[|lines|] == line;
    }
  }

  /** The blocks recorded are exactly those headed somewhere in the input, each once. */
  lemma {:induction false} SeenIsHeaders(lines: seq<string>)
    ensures var m := MergeLines(lines);
      && (set s | s in m.st.seen) == HeadersOf(lines)
      && (forall i, j :: 0 <= i < j < |m.st.seen| ==> m.st.seen[i] != m.st.seen[j])
    decreases |lines|
  {
    if |lines| > 0 {
      var init := lines[..|lines| - 1];
      var line := lines[|lines| - 1];
      SeenIsHeaders(init);
      assert init + [line] == lines;
      HeadersOfStep(init, line);
      MergeLinesStep(init, line);
    }
  }

  /**
   Each of the `trace`, `env` and `clock` blocks is opened at most once
   in the merged text: no two copied lines are headers of the same block,
   and every copied header's block is recorded as seen.
   */
  lemma {:induction false} HeadersCopiedOnce(lines: seq<string>)
    ensures var m := MergeLines(lines);
      && (forall i :: 0 <= i < |m.kept| && SectionHeader(m.kept[i]).Some? ==>
            SectionHeader(m.kept[i]).value in m.st.seen)
      && (forall i, j :: 0 <= i < j < |m.kept| && SectionHeader(m.kept[i]).Some? ==>
            SectionHeader(m.kept[j]) != SectionHeader(m.kept[i]))
    decreases |lines|
  {
    if |lines| > 0 {
      var init := lines[..|lines| - 1];
      var line := lines[|lines| - 1];
      HeadersCopiedOnce(init);
      assert init + [line] == lines;
      MergeLinesStep(init, line);
      var m0 := MergeLines(init);
      var (st, keep) := MergeLine(m0.st, line);
      assert forall x :: x in m0.st.seen ==> x in st.seen;
      if keep {
        var k := m0.kept + [line];
        assert forall i :: 0 <= i < |m0.kept| ==> k[i] == m0.kept[i];
        assert k[|m0.kept|] == line;
        assert SectionHeader(line).Some? ==> SectionHeader(line).value !in m0.st.seen;
      }
    }
  }

  /** No block is headed twice in `lines`. */
  predicate NoRepeatedHeader(lines: seq<string>) {
    forall i, j :: 0 <= i < j < |lines| && SectionHeader(lines[i]).Some? ==>
      SectionHeader(lines[j]) != SectionHeader(lines[i])
  }

  /** Without repeats, the last line's block has not been recorded before it. */
  lemma LastHeaderNew(lines: seq<string>)
    requires |lines| > 0 && NoRepeatedHeader(lines)
    ensures var h := SectionHeader(lines[|lines| - 1]);
      h.Some? ==> h.value !in MergeLines(lines[..|lines| - 1]).st.seen
  {
    var init := lines[..|lines| - 1];
    var h := SectionHeader(lines[|lines| - 1]);
    SeenIsHeaders(init);
    if h.Some? {
      forall i | 0 <= i < |init| && SectionHeader(init[i]).Some?
        ensures SectionHeader(init[i]).value != h.value
      {
        assert init[i] == lines[i];
      }
      assert h.value !in HeadersOf(init);
    }
  }

  /**
   When no block is headed twice, nothing is skipped: the merge copies
   every line.
   */
  lemma {:induction false} NoRepeatKeepsAll(lines: seq<string>)
    requires NoRepeatedHeader(lines)
    ensures MergeLines(lines).kept == lines
    ensures MergeLines(lines).st.copying
    decreases |lines|
  {
    if |lines| > 0 {
      var init := lines[..|lines| - 1];
      var line := lines[|lines| - 1];
      assert forall i :: 0 <= i < |init| ==> init[i] == lines[i];
      NoRepeatKeepsAll(init);
      LastHeaderNew(lines);
      assert init + [line] == lines;
      MergeLinesStep(init, line);
    }
  }

  /** How the merge treats the lines of the example below. */
  lemma ExampleLines()
    ensures SectionHeader("clock {") == Some("clock")
    ensures SectionHeader("};") == None && Trim("};") == "};"
    ensures Trim("clock {") == "clock {"
  {
    assert SkipWhitespace("clock {", 0) == 0;
    assert SkipWhitespaceBack("clock {", 0, 7) == 7;
    assert "clock {"[0..7] == "clock {";
    assert "clock {"[..7] != "trace {" by {
      assert "clock {"[..7][0] == 'c';
    }
    assert "clock {"[..5] != "env {" by {
      assert "clock {"[..5][0] == 'c';
    }
    assert "clock {"[..7] == "clock {";
    assert SkipWhitespace("};", 0) == 0;
    assert SkipWhitespaceBack("};", 0, 2) == 2;
  }

  /** A first block is copied whole. */
  lemma FirstBlockCopied(a: string)
    requires SectionHeader(a).None?
    ensures MergeLines(["clock {", a, "};"]) == Merged(MergeState(["clock"], true), ["clock {", a, "};"])
  {
    ExampleLines();
    MergeLinesStep([], "clock {");
    assert [] + ["clock {"] == ["clock {"];
    MergeLinesStep(["clock {"], a);
    assert ["clock {"] + [a] == ["clock {", a];
    MergeLinesStep(["clock {", a], "};");
    assert ["clock {", a] + ["};"] == ["clock {", a, "};"];
  }

  /**
   A repeated block's header, its body and its closing line are all
   dropped, and copying resumes after it.
   */
  lemma RepeatedBlockSkipped(a: string, b: string)
    requires SectionHeader(a).None? && SectionHeader(b).None?
    requires Trim(b) != "};"
    ensures var m := MergeLines(["clock {", a, "};", "clock {", b, "};"]);
      m.kept == ["clock {", a, "};"] && m.st.copying
  {
    var l3 := ["clock {", a, "};"];
    var l4 := l3 + ["clock {"];
    var l5 := l4 + [b];
    var seen := MergeState(["clock"], false);
    ExampleLines();
    assert MergeLine(MergeState(["clock"], true), "clock {") == (seen, false);
    assert MergeLine(seen, b) == (seen, false);
    assert MergeLine(seen, "};") == (MergeState(["clock"], true), false);
    FirstBlockCopied(a);
    SkipStep(l3, "clock {", MergeState(["clock"], true), seen, l3);
    SkipStep(l4, b, seen, seen, l3);
    SkipStep(l5, "};", seen, MergeState(["clock"], true), l3);
    assert l5 + ["};"] == ["clock {", a, "};", "clock {", b, "};"];
  }

  /** A line that is not copied moves the merge state and keeps the copied lines. */
  lemma SkipStep(lines: seq<string>, line: string, st: MergeState, st1: MergeState,
                 kept: seq<string>)
    requires MergeLines(lines) == Merged(st, kept)
    requires MergeLine(st, line) == (st1, false)
    ensures MergeLines(lines + [line]) == Merged(st1, kept)
  {
    MergeLinesStep(lines, line);
  }

  /** A line that trims to `};` opens no block: a header starts with a letter, which trimming keeps. */
  lemma ClosingLineIsNoHeader(line: string)
    requires Trim(line) == "};"
    ensures SectionHeader(line).None?
  {
    var t := Trim(line);
    var i, j :| 0 <= i <= j <= |line| && t == line[i..j]
      && (forall m :: 0 <= m < i ==> IsWhitespace(line[m]))
      && (forall m :: j <= m < |line| ==> IsWhitespace(line[m]));
    if |line| > 0 && !IsWhitespace(line[0]) {
      assert i == 0 && line[0] == t[0] == '}';
    }
  }

  /** While skipping, lines that open no block and do not close one are all dropped. */
  lemma {:induction false} SkipBody(done: seq<string>, body: seq<string>)
    requires !MergeLines(done).st.copying
    requires forall k :: 0 <= k < |body| ==> SectionHeader(body[k]).None? && Trim(body[k]) != "};"
    ensures MergeLines(done + body) == MergeLines(done)
    decreases |body|
  {
    if |body| > 0 {
      var front := body[..|body| - 1];
      var last := body[|body| - 1];
      SkipBody(done, front);
      assert done + body == (done + front) + [last];
      MergeLinesStep(done + front, last);
    } else {
      assert done + body == done;
    }
  }

  /**
   For any prefix: a header of a block already seen, any lines that open
   no block and do not close one, and a line that trims to `};` are all
   dropped; afterwards copying is on and the seen blocks are unchanged.
   */
  lemma RepeatedBlockDropped(done: seq<string>, header: string, body: seq<string>, close: string)
    requires SectionHeader(header).Some? && SectionHeader(header).value in MergeLines(done).st.seen
    requires forall k :: 0 <= k < |body| ==> SectionHeader(body[k]).None? && Trim(body[k]) != "};"
    requires Trim(close) == "};"
    ensures var m := MergeLines(done + [header] + body + [close]);
      m.kept == MergeLines(done).kept && m.st == MergeState(MergeLines(done).st.seen, true)
  {
    var m := MergeLines(done);
    var skipping := MergeState(m.st.seen, false);
    MergeLinesStep(done, header);
    assert MergeLines(done + [header]) == Merged(skipping, m.kept) by {
      if Trim(header) == "};" {
        ClosingLineIsNoHeader(header);
      }
    }
    SkipBody(done + [header], body);
    ClosingLineIsNoHeader(close);
    MergeLinesStep(done + [header] + body, close);
  }

  // ---------------------------------------------------------------------
  // The files

  /** The lines of all files, in order. */
  function AllLines(files: seq<string>): seq<string>
    decreases |files|
  {
    if |files| == 0 then [] else AllLines(files[..|files| - 1]) + Lines(files[|files| - 1])
  }

  /** A prefix one element longer, after a fixed start. */
  lemma AppendTakeOneMore<T>(a: seq<T>, s: seq<T>, i: int)
    requires 0 <= i < |s|
    ensures a + s[..i + 1] == (a + s[..i]) + [s[i]]
  {
    assert s[..i + 1] == s[..i] + [s[i]];
  }

  /** Merging one more line into a merge in progress, and into its joined text. */
  lemma MergeOne(done: seq<string>, st: MergeState, kept: seq<string>, line: string)
    requires MergeLines(done) == Merged(st, kept)
    ensures var r := MergeLine(st, line);
      var kept1 := if r.1 then kept + [line] else kept;
      && MergeLines(done + [line]) == Merged(r.0, kept1)
      && Join(kept1) == if r.1 then Join(kept) + line + "\n" else Join(kept)
  {
    MergeLinesStep(done, line);
    JoinAppend(kept, line);
  }

  /** One step of the loop over a file's lines. */
  lemma MergeFileStep(done0: seq<string>, lines: seq<string>, i: int, st: MergeState,
                      kept: seq<string>, merged: string)
    requires 0 <= i < |lines|
    requires MergeLines(done0 + lines[..i]) == Merged(st, kept) && merged == Join(kept)
    ensures var r := MergeLine(st, lines[i]);
      var kept1 := if r.1 then kept + [lines[i]] else kept;
      && MergeLines(done0 + lines[..i + 1]) == Merged(r.0, kept1)
      && Join(kept1) == if r.1 then merged + lines[i] + "\n" else merged
  {
    AppendTakeOneMore(done0, lines, i);
    MergeOne(done0 + lines[..i], st, kept, lines[i]);
  }

  /** One more file adds its lines. */
  lemma AllLinesStep(files: seq<string>, f: int)
    requires 0 <= f < |files|
    ensures AllLines(files[..f + 1]) == AllLines(files[..f]) + Lines(files[f])
  {
    assert files[..f + 1][..f] == files[..f];
  }

  /**
   The lines of one file, continuing from the state the earlier files
   left: appends every copied line and a newline to the merged text.
   */
  method MergeFile(st0: MergeState, merged0: string, lines: seq<string>,
                   ghost done0: seq<string>, ghost kept0: seq<string>)
    returns (st: MergeState, merged: string, ghost kept: seq<string>)
    requires MergeLines(done0) == Merged(st0, kept0) && merged0 == Join(kept0)
    ensures st == MergeLines(done0 + lines).st
    ensures merged == Join(MergeLines(done0 + lines).kept)
    ensures kept == MergeLines(done0 + lines).kept
  {
    st, merged, kept := st0, merged0, kept0;
    var i := 0;
    assert done0 + lines[..0] == done0;
    while i < |lines|
      invariant 0 <= i <= |lines|
      invariant MergeLines(done0 + lines[..i]) == Merged(st, kept)
      invariant merged == Join(kept)
    {
      var line := lines[i];
      var r := MergeLine(st, line);
      MergeFileStep(done0, lines, i, st, kept, merged);
      merged := if r.1 then merged + line + "\n" else merged;
      kept := if r.1 then kept + [line] else kept;
      st := r.0;
      i := i + 1;
      assert MergeLines(done0 + lines[..i]) == Merged(st, kept);
    }
    assert lines[..|lines|] == lines;
  }

  /**
   `merge_traces`' metadata half: reads each file's lines in turn, with
   the block bookkeeping and the copying flag shared across files, and
   appends every copied line and a newline to the merged text.
   */
  method MergeMetadata(files: seq<string>) returns (merged: string)
    ensures merged == Join(MergeLines(AllLines(files)).kept)
  {
    merged := "";
    var st := START;
    ghost var kept: seq<string> := [];
    var f := 0;
    while f < |files|
      invariant 0 <= f <= |files|
      invariant MergeLines(AllLines(files[..f])) == Merged(st, kept)
      invariant merged == Join(kept)
    {
      AllLinesStep(files, f);
      st, merged, kept := MergeFile(st, merged, Lines(files[f]), AllLines(files[..f]), kept);
      f := f + 1;
    }
    assert files[..|files|] == files;
  }

  /** Appending a line to the joined text. */
  lemma {:induction false} JoinAppend(lines: seq<string>, line: string)
    ensures Join(lines + [line]) == Join(lines) + line + "\n"
    decreases |lines|
  {
    if |lines| > 0 {
      assert (lines + [line])[1..] == lines[1..] + [line];
      JoinAppend(lines[1..], line);
    }
  }
}

=== FILE: plugin.dfy ===
/**
 The source component's message iterator (`TrcPluginState`): each call
 drains at most one event from the per-CPU queue, wraps the first one in
 stream and packet beginning messages, and closes the stream with packet
 and stream end messages once the input is exhausted or the user
 interrupts.

 The shared queue and the end-of-file flag written by the parser thread
 are plain state here; `interrupted` is the state of the Ctrl-C flag at
 the time of the call. Creating a message is assumed to succeed, so the
 buffer only refuses a message when it is full.
 */
module Plugin {
  import opened Wrappers
  import opened Events
  import opened StringCaches
  import opened Registries
  import opened Converter
  import opened CtfStates

  datatype Msg =
    | StreamBegin
    | PacketBegin
    | EventMsg(emitted: Emitted)
    | PacketEnd
    | StreamEnd

  datatype PluginError = BufferFailed(buffer: BufferError) | ConvertFailed(convert: ConvertError)

  datatype PluginState = PluginState(
    queue: seq<Event>,
    firstEventObserved: bool,
    eofReached: bool,
    streamIsOpen: bool,
    shutDown: bool,
    converter: ConverterState)

  /** What one call hands back: the new state, the status, and the messages released. */
  datatype Outcome = Outcome(st: PluginState, status: Result<Status, PluginError>, msgs: seq<Msg>)

  /**
   The converter's cache is consistent, every queued event can be
   converted, and a shutdown has set the end-of-file flag.
   */
  ghost predicate Ready(st: PluginState) {
    && Valid(st.converter.cache)
    && (st.shutDown ==> st.eofReached)
    && forall i :: 0 <= i < |st.queue| ==> Convertible(st.queue[i])
  }

  /** `TrcPluginState::new`: nothing observed yet and the stream closed. */
  function NewPlugin(queue: seq<Event>, eofSignal: bool, reg: Registry): (st: PluginState)
    requires forall i :: 0 <= i < |queue| ==> Convertible(queue[i])
    ensures Ready(st)
    ensures !st.firstEventObserved && !st.streamIsOpen && !st.shutDown
    ensures st.queue == queue && st.eofReached == eofSignal
    ensures st.converter.registry == reg
    ensures |st.converter.cache.strings| == 1 && GetById(st.converter.cache, 0) == []
  {
    PluginState(queue, false, eofSignal, false, false, Converter.New(reg))
  }

  // ---------------------------------------------------------------------
  // The event queue

  /** The producer side: the dispatcher appends an event. */
  function Enqueue(st: PluginState, e: Event): (r: PluginState)
    ensures r.queue == st.queue + [e]
    ensures r.(queue := st.queue) == st
  {
    st.(queue := st.queue + [e])
  }

  /** `read_event`: takes the oldest event, if any. */
  function ReadEvent(st: PluginState): (r: (PluginState, Option<Event>))
    ensures |st.queue| == 0 <==> r.1.None?
    ensures r.1.None? ==> r.0 == st
    ensures r.1.Some? ==> r.1.value == st.queue[0] && st.queue == [r.1.value] + r.0.queue
    ensures r.0.(queue := st.queue) == st
  {
    if |st.queue| == 0 then (st, None)
    else (st.(queue := st.queue[1..]), Some(st.queue[0]))
  }

  /** The events `k` successive reads return. */
  function ReadMany(st: PluginState, k: nat): seq<Event>
    decreases k
  {
    if k == 0 then []
    else
      var (st1, e) := ReadEvent(st);
      if e.None? then [] else [e.value] + ReadMany(st1, k - 1)
  }

  /** Reads return events in the order they were queued. */
  lemma {:induction false} ReadManyInOrder(st: PluginState, k: nat)
    requires k <= |st.queue|
    ensures ReadMany(st, k) == st.queue[..k]
    decreases k
  {
    if k > 0 {
      var (st1, e) := ReadEvent(st);
      ReadManyInOrder(st1, k - 1);
      assert st1.queue[..k - 1] == st.queue[1..k];
    }
  }

  /** Appending at the back never changes which event is read next. */
  lemma EnqueueKeepsFront(st: PluginState, e: Event)
    requires |st.queue| > 0
    ensures ReadEvent(Enqueue(st, e)).1 == ReadEvent(st).1
    ensures ReadEvent(Enqueue(st, e)).0 == Enqueue(ReadEvent(st).0, e)
  {
    assert (st.queue + [e])[1..] == st.queue[1..] + [e];
  }

  // ---------------------------------------------------------------------
  // One event

  /**
   `process_event`: marks that an event has been seen, converts it, and
   pushes the converted event into the buffer.
   */
  function ProcessEvent(st: PluginState, e: Event, buf: MsgBuffer<Msg>, env: Env)
    : (r: (PluginState, MsgBuffer<Msg>, Result<(), PluginError>))
    requires Valid(st.converter.cache) && Convertible(e) && Bounded(buf)
    ensures r.0.firstEventObserved && Valid(r.0.converter.cache)
    ensures r.0.(firstEventObserved := st.firstEventObserved, converter := st.converter) == st
    ensures r.0.converter == Convert(st.converter, e, env).0
    ensures Bounded(r.1)
    ensures r.2.Ok? <==> Convert(st.converter, e, env).1.Ok? && |buf.msgs| < buf.capacity
    ensures r.2.Ok? ==> r.1.msgs == buf.msgs + [EventMsg(Convert(st.converter, e, env).1.value)]
  {
    var st1 := st.(firstEventObserved := true);
    var (conv, res) := Convert(st1.converter, e, env);
    var st2 := st1.(converter := conv);
    match res
    case Err(err) => (st2, buf, Err(ConvertFailed(err)))
    case Ok(emitted) =>
      match Push(buf, Some(EventMsg(emitted)))
      case Err(err) => (st2, buf, Err(BufferFailed(err)))
      case Ok(b1) => (st2, b1, Ok(()))
  }

  // ---------------------------------------------------------------------
  // The iterator

  /** The packet end and stream end messages closing the stream. */
  const END_MSGS: seq<Msg> := [PacketEnd, StreamEnd]

  /** The stream beginning and packet beginning messages opening it. */
  const BEGIN_MSGS: seq<Msg> := [StreamBegin, PacketBegin]

  /** Taking the oldest event keeps the rest convertible, and the event too. */
  lemma ReadyAfterRead(st: PluginState)
    requires Ready(st) && |st.queue| > 0
    ensures Ready(ReadEvent(st).0) && Convertible(ReadEvent(st).1.value)
  {
    var rest := ReadEvent(st).0.queue;
    assert forall i :: 0 <= i < |rest| ==> rest[i] == st.queue[i + 1];
  }

  /**
   The early-shutdown branch. As written (`corrected` false) it sets the
   end-of-file flag and pushes the end messages whatever the stream's
   state, leaving the stream marked open. The corrected branch ends only a
   stream that is open, marks it closed, and records the shutdown so that
   every later call answers `Done`.
   */
  function ShutdownStep(st: PluginState, capacity: nat, corrected: bool): (r: Outcome)
    requires Ready(st) && capacity > 0
    ensures Ready(r.st) && r.st.eofReached
    ensures r.st.(eofReached := st.eofReached, streamIsOpen := st.streamIsOpen, shutDown := st.shutDown) == st
    ensures !corrected ==> r.st == st.(eofReached := true)
    ensures !corrected || st.streamIsOpen ==>
      && (r.status.Ok? <==> capacity >= 2)
      && (r.status.Ok? ==> r.status == Ok(Messages(2)) && r.msgs == END_MSGS)
    ensures r.status.Err? ==> r.msgs == [] && r.st == st.(eofReached := true)
    ensures corrected && r.status.Ok? ==> !r.st.streamIsOpen && r.st.shutDown
    ensures corrected && !st.streamIsOpen ==> r.status == Ok(Done) && r.msgs == []
  {
    var st1 := st.(eofReached := true);
    if corrected && !st.streamIsOpen then Outcome(st1.(shutDown := true), Ok(Done), [])
    else
      match PushAll(CtfStates.New<Msg>(capacity), END_MSGS)
      case Err(err) => Outcome(st1, Err(BufferFailed(err)), [])
      case Ok(b1) =>
        var st2 := if corrected then st1.(streamIsOpen := false, shutDown := true) else st1;
        Outcome(st2, Ok(Release(b1)), b1.msgs)
  }

  /**
   The branch for a queued event: the oldest event, converted, after the
   stream and packet beginning messages if the stream was closed. The
   stream is marked open before anything is pushed.
   */
  function EventStep(st: PluginState, capacity: nat, env: Env): (r: Outcome)
    requires Ready(st) && capacity > 0 && |st.queue| > 0
    ensures Ready(r.st) && r.st.streamIsOpen && r.st.eofReached == st.eofReached
    ensures r.st.queue == st.queue[1..]
    ensures StreamEnd !in r.msgs && PacketEnd !in r.msgs
    ensures r.status.Ok? ==> r.status.value.Messages? && r.status.value.count == |r.msgs|
    ensures r.status.Err? ==> r.msgs == []
    ensures st.firstEventObserved ==> r.st.firstEventObserved
  {
    var (st1, e) := ReadEvent(st);
    ReadyAfterRead(st);
    Emit(st1.(streamIsOpen := true), e.value, if st.streamIsOpen then [] else BEGIN_MSGS,
         capacity, env)
  }

  /** The beginning messages, if any, then the converted event, in one buffer. */
  function Emit(st: PluginState, e: Event, begins: seq<Msg>, capacity: nat, env: Env)
    : (r: Outcome)
    requires Ready(st) && Convertible(e) && capacity > 0
    requires StreamEnd !in begins && PacketEnd !in begins
    ensures Ready(r.st) && r.st.(firstEventObserved := st.firstEventObserved, converter := st.converter) == st
    ensures StreamEnd !in r.msgs && PacketEnd !in r.msgs
    ensures r.status.Ok? ==> r.status.value.Messages? && r.status.value.count == |r.msgs|
    ensures r.status.Err? ==> r.msgs == []
    ensures |begins| < capacity ==> r.st.firstEventObserved
  {
    match PushAll(CtfStates.New<Msg>(capacity), begins)
    case Err(err) => Outcome(st, Err(BufferFailed(err)), [])
    case Ok(b1) =>
      var (st1, b2, res) := ProcessEvent(st, e, b1, env);
      if res.Err? then Outcome(st1, Err(res.error), [])
      else Outcome(st1, Ok(Release(b2)), b2.msgs)
  }

  /**
   The event, once the beginning messages fit, is converted against the
   current converter state and goes out right after them.
   */
  lemma EmitConverts(st: PluginState, e: Event, begins: seq<Msg>, capacity: nat, env: Env)
    requires Ready(st) && Convertible(e) && capacity > 0
    requires StreamEnd !in begins && PacketEnd !in begins
    ensures var r := Emit(st, e, begins, capacity, env);
      var conv := Convert(st.converter, e, env);
      && (r.status.Ok? <==> |begins| < capacity && conv.1.Ok?)
      && (r.status.Ok? ==> r.msgs == begins + [EventMsg(conv.1.value)])
      && (|begins| < capacity ==> r.st.converter == conv.0)
  {
    var b0 := CtfStates.New<Msg>(capacity);
    if |begins| < capacity {
      var b1 := PushAll(b0, begins).value;
      var p := ProcessEvent(st, e, b1, env);
      assert Emit(st, e, begins, capacity, env) ==
        if p.2.Err? then Outcome(p.0, Err(p.2.error), []) else Outcome(p.0, Ok(Release(p.1)), p.1.msgs);
    }
  }

  /**
   The branch for an empty queue: `Done` once the stream was opened and
   closed again, the end messages at end of file, otherwise nothing yet.
   As written the end messages go out at end of file even when no event
   was ever seen, on every call; corrected, a closed stream at end of file
   is `Done`.
   */
  function IdleStep(st: PluginState, capacity: nat, corrected: bool): (r: Outcome)
    requires Ready(st) && capacity > 0 && |st.queue| == 0
    ensures r.st == st || r.st == st.(streamIsOpen := false)
    ensures !st.streamIsOpen && st.firstEventObserved ==> r == Outcome(st, Ok(Done), [])
    ensures corrected && !st.streamIsOpen && st.eofReached ==> r == Outcome(st, Ok(Done), [])
    ensures (st.streamIsOpen || !st.firstEventObserved) && !st.eofReached ==>
      r == Outcome(st, Ok(NoMessages), [])
    ensures (st.streamIsOpen || !st.firstEventObserved) && st.eofReached
            && (!corrected || st.streamIsOpen) ==>
      && (r.status.Ok? <==> capacity >= 2)
      && (r.status.Ok? ==> r.status == Ok(Messages(2)) && r.msgs == END_MSGS && !r.st.streamIsOpen)
      && (r.status.Err? ==> r.msgs == [] && r.st == st)
  {
    if !st.streamIsOpen && (st.firstEventObserved || (corrected && st.eofReached)) then
      Outcome(st, Ok(Done), [])
    else if st.eofReached then
      match PushAll(CtfStates.New<Msg>(capacity), END_MSGS)
      case Err(err) => Outcome(st, Err(BufferFailed(err)), [])
      case Ok(b1) => Outcome(st.(streamIsOpen := false), Ok(Release(b1)), b1.msgs)
    else Outcome(st, Ok(NoMessages), [])
  }

  /**
   `iterator_next`, in two versions: as the source writes it (`corrected`
   false), and corrected so that the stream is ended at most once and a
   shut-down or exhausted iterator answers `Done`.
   */
  function Next(st: PluginState, interrupted: bool, capacity: nat, env: Env,
                corrected: bool): (r: Outcome)
    requires Ready(st) && capacity > 0
    ensures Ready(r.st)
    ensures r.st.eofReached == (st.eofReached || interrupted)
    ensures st.firstEventObserved ==> r.st.firstEventObserved
    ensures r.status.Ok? && r.status.value.Messages? ==> r.status.value.count == |r.msgs|
    ensures !(r.status.Ok? && r.status.value.Messages?) ==> r.msgs == []
    ensures corrected && st.shutDown ==> r == Outcome(st, Ok(Done), [])
  {
    if interrupted && !st.eofReached then ShutdownStep(st, capacity, corrected)
    else if corrected && st.shutDown then Outcome(st, Ok(Done), [])
    else if |st.queue| > 0 then EventStep(st, capacity, env)
    else IdleStep(st, capacity, corrected)
  }

  /** The iterator as the source writes it. */
  function IteratorNextAsWritten(st: PluginState, interrupted: bool, capacity: nat, env: Env)
    : (r: Outcome)
    requires Ready(st) && capacity > 0
    ensures Ready(r.st) && r.st.eofReached == (st.eofReached || interrupted)
  {
    Next(st, interrupted, capacity, env, false)
  }

  /** The corrected iterator. */
  function IteratorNext(st: PluginState, interrupted: bool, capacity: nat, env: Env)
    : (r: Outcome)
    requires Ready(st) && capacity > 0
    ensures Ready(r.st) && r.st.eofReached == (st.eofReached || interrupted)
    ensures st.shutDown ==> r == Outcome(st, Ok(Done), [])
  {
    Next(st, interrupted, capacity, env, true)
  }

  /**
   An interrupt before end of file on an open stream (on any stream, as
   written) emits exactly the packet and stream end messages when the
   buffer has room for both, and sets the flag that keeps the branch from
   being taken again; only the corrected version marks the stream closed.
   */
  lemma EarlyShutdown(st: PluginState, capacity: nat, env: Env, corrected: bool)
    requires Ready(st) && capacity > 0 && !st.eofReached
    requires !corrected || st.streamIsOpen
    ensures var r := Next(st, true, capacity, env, corrected);
      && r.st.eofReached
      && r.st.queue == st.queue && r.st.converter == st.converter
      && (r.status.Ok? <==> capacity >= 2)
      && (r.status.Ok? ==> r.status.value == Messages(2) && r.msgs == END_MSGS)
      && (r.status.Ok? ==> r.st.streamIsOpen == (st.streamIsOpen && !corrected))
  {
  }

  /**
   A queued event on a closed stream is preceded by the stream and packet
   beginning messages; on an open stream it goes out alone. Either way it
   is the oldest event, converted, and the stream is open afterwards.
   */
  lemma EventMessages(st: PluginState, interrupted: bool, capacity: nat, env: Env,
                      corrected: bool)
    requires Ready(st) && capacity > 0 && |st.queue| > 0
    requires !(interrupted && !st.eofReached) && !(corrected && st.shutDown)
    requires capacity >= 3
    ensures var r := Next(st, interrupted, capacity, env, corrected);
      var conv := Convert(st.converter, st.queue[0], env);
      && r.st.queue == st.queue[1..] && r.st.streamIsOpen && r.st.firstEventObserved
      && r.st.converter == conv.0
      && (r.status.Ok? <==> conv.1.Ok?)
      && (r.status.Ok? ==>
            r.msgs == (if st.streamIsOpen then [] else BEGIN_MSGS) + [EventMsg(conv.1.value)])
  {
    ReadyAfterRead(st);
    var st1 := ReadEvent(st).0.(streamIsOpen := true);
    var begins := if st.streamIsOpen then [] else BEGIN_MSGS;
    assert st1.converter == st.converter;
    EmitConverts(st1, st.queue[0], begins, capacity, env);
    assert Next(st, interrupted, capacity, env, corrected) ==
      Emit(st1, st.queue[0], begins, capacity, env);
  }

  /** A buffer with one slot rejects the first event's opening, yet the stream is already marked open. */
  lemma SmallBufferRejectsOpening(st: PluginState, env: Env, corrected: bool)
    requires Ready(st) && |st.queue| > 0 && !st.streamIsOpen && !(corrected && st.shutDown)
    ensures Next(st, false, 1, env, corrected).status == Err(BufferFailed(Full))
    ensures Next(st, false, 1, env, corrected).st.streamIsOpen
  {
  }

  /**
   With the queue empty: `Done` once the stream was opened and closed (or,
   corrected, once it is closed at end of file), otherwise the end
   messages at end of file, otherwise nothing yet.
   */
  lemma EmptyQueue(st: PluginState, interrupted: bool, capacity: nat, env: Env, corrected: bool)
    requires Ready(st) && capacity >= 2 && |st.queue| == 0
    requires !(interrupted && !st.eofReached) && !(corrected && st.shutDown)
    ensures var r := Next(st, interrupted, capacity, env, corrected);
      && r.status.Ok?
      && (!st.streamIsOpen && st.firstEventObserved ==> r.status.value == Done && r.st == st)
      && (corrected && !st.streamIsOpen && st.eofReached ==> r.status.value == Done && r.st == st)
      && ((st.streamIsOpen || !st.firstEventObserved) && st.eofReached
          && (!corrected || st.streamIsOpen) ==>
            r.msgs == END_MSGS && r.st == st.(streamIsOpen := false))
      && ((st.streamIsOpen || !st.firstEventObserved) && !st.eofReached ==>
            r.status.value == NoMessages && r.st == st)
  {
  }

  // ---------------------------------------------------------------------
  // Closing the stream once

  /** The stream has been opened, closed, and the input is over. */
  predicate Finished(st: PluginState) {
    st.firstEventObserved && !st.streamIsOpen && st.eofReached
  }

  /**
   Once an event has been seen, a call of the corrected iterator that
   releases the stream end message leaves it finished.
   */
  lemma StreamEndFinishes(st: PluginState, interrupted: bool, capacity: nat, env: Env)
    requires Ready(st) && capacity > 0 && st.firstEventObserved
    ensures var r := IteratorNext(st, interrupted, capacity, env);
      StreamEnd in r.msgs ==> Finished(r.st)
  {
    if !(interrupted && !st.eofReached) && !st.shutDown && |st.queue| > 0 {
      var r := EventStep(st, capacity, env);
      assert StreamEnd !in r.msgs;
    }
  }

  /** A finished iterator with nothing queued reports `Done` forever, in either version. */
  lemma FinishedStaysDone(st: PluginState, interrupted: bool, capacity: nat, env: Env,
                          corrected: bool)
    requires Ready(st) && capacity > 0 && Finished(st) && |st.queue| == 0
    ensures Next(st, interrupted, capacity, env, corrected) == Outcome(st, Ok(Done), [])
  {
  }

  /**
   After an interrupt, the corrected iterator ends an open stream exactly
   once and ends no stream that was never begun; from then on every call
   answers `Done` and releases nothing, whatever is still queued or
   queued later.
   */
  lemma ShutdownThenDone(st: PluginState, capacity: nat, env: Env, later: seq<Event>,
                         again: bool, capacity': nat, env': Env)
    requires Ready(st) && capacity >= 2 && capacity' > 0 && !st.eofReached
    requires forall i :: 0 <= i < |later| ==> Convertible(later[i])
    ensures var r := IteratorNext(st, true, capacity, env);
      && r.status.Ok?
      && r.msgs == (if st.streamIsOpen then END_MSGS else [])
      && !r.st.streamIsOpen && r.st.shutDown
      && var st' := r.st.(queue := r.st.queue + later);
         Ready(st') && IteratorNext(st', again, capacity', env') == Outcome(st', Ok(Done), [])
  {
    var r := IteratorNext(st, true, capacity, env);
    var st' := r.st.(queue := r.st.queue + later);
    assert forall i :: 0 <= i < |st'.queue| ==> Convertible(st'.queue[i]) by {
      forall i | 0 <= i < |st'.queue|
        ensures Convertible(st'.queue[i])
      {
        if i >= |r.st.queue| {
          assert st'.queue[i] == later[i - |r.st.queue|];
        }
      }
    }
  }

  /**
   With no event ever seen, once the input is over or an interrupt
   arrives, the corrected iterator answers `Done`, releases nothing, and
   keeps answering `Done`.
   */
  lemma NoEventThenDone(st: PluginState, interrupted: bool, capacity: nat, env: Env,
                        again: bool)
    requires Ready(st) && capacity > 0 && |st.queue| == 0
    requires !st.firstEventObserved && !st.streamIsOpen && (st.eofReached || interrupted)
    ensures var r := IteratorNext(st, interrupted, capacity, env);
      && r.status == Ok(Done) && r.msgs == []
      && IteratorNext(r.st, again, capacity, env) == Outcome(r.st, Ok(Done), [])
  {
  }

  /**
   The source's early shutdown leaves `stream_is_open` set. With the
   event just queued still waiting, as the receive loop leaves it, the
   interrupt's call ends the stream, the next call emits the event after
   the stream end, and the call after that, finding the queue empty and
   the stream still marked open, ends the stream a second time.
   */
  lemma AsWrittenEndsTwice(st: PluginState, capacity: nat, env: Env)
    requires Ready(st) && capacity >= 3 && |st.queue| == 1
    requires !st.eofReached && st.streamIsOpen
    ensures var r1 := IteratorNextAsWritten(st, true, capacity, env);
      var r2 := IteratorNextAsWritten(r1.st, true, capacity, env);
      var r3 := IteratorNextAsWritten(r2.st, true, capacity, env);
      var conv := Convert(st.converter, st.queue[0], env);
      && r1.msgs == END_MSGS
      && (r2.status.Ok? <==> conv.1.Ok?)
      && (r2.status.Ok? ==> r2.msgs == [EventMsg(conv.1.value)])
      && r3.msgs == END_MSGS
  {
    var r1 := IteratorNextAsWritten(st, true, capacity, env);
    EventMessages(r1.st, true, capacity, env, false);
    var r2 := IteratorNextAsWritten(r1.st, true, capacity, env);
    assert r2.st.queue == [] && r2.st.streamIsOpen && r2.st.eofReached;
  }

  /**
   As written, an event still queued when the interrupt arrives goes out
   on the next call after the stream end message, with no new stream
   beginning.
   */
  lemma AsWrittenEventAfterEnd(st: PluginState, capacity: nat, env: Env)
    requires Ready(st) && capacity >= 3 && |st.queue| > 0
    requires !st.eofReached && st.streamIsOpen
    ensures var r := IteratorNextAsWritten(st, true, capacity, env);
      var r2 := IteratorNextAsWritten(r.st, false, capacity, env);
      var conv := Convert(st.converter, st.queue[0], env);
      && r.msgs == END_MSGS
      && (r2.status.Ok? <==> conv.1.Ok?)
      && (r2.status.Ok? ==> r2.msgs == [EventMsg(conv.1.value)])
  {
    var r := IteratorNextAsWritten(st, true, capacity, env);
    EventMessages(r.st, false, capacity, env, false);
  }

  /**
   As written, with no event ever seen, once the input is over or an
   interrupt arrives every call with an empty queue releases packet end
   and stream end again and leaves the state as it found it, so the
   iterator never answers `Done`.
   */
  lemma AsWrittenNeverDone(st: PluginState, interrupted: bool, capacity: nat, env: Env,
                           again: bool)
    requires Ready(st) && capacity >= 2 && |st.queue| == 0
    requires !st.firstEventObserved && !st.streamIsOpen && (st.eofReached || interrupted)
    ensures var r := IteratorNextAsWritten(st, interrupted, capacity, env);
      && r == Outcome(st.(eofReached := true), Ok(Messages(2)), END_MSGS)
      && IteratorNextAsWritten(r.st, again, capacity, env) == r
  {
  }
}

=== FILE: records.dfy ===
/**
 The trace records the converter builds from decoded payloads: `NAM`,
 `sched_switch`, `sched_migrate_task`, `IPC` and `IPCRES`.

 The builders that name a kernel object intern the chosen string in the
 string cache and read it back by index, as the source does; their
 contracts relate the result to the reference resolution below, which
 says what the record should hold.
 */
module Records {
  import opened Bytes
  import opened Wrappers
  import opened Texts
  import opened Events
  import opened Helpers
  import opened StringCaches
  import KO = KernelObjects
  import opened Registries
  import Layout

  // ---------------------------------------------------------------------
  // NAM

  datatype NamError = NameNotUtf8

  datatype NamRecord = NamRecord(obj: u64, id: u64, name: Text)

  /**
   `Nam::try_from`: decodes the name, interns it and reads it back. A name
   that is not UTF-8 is an error; a decoded name holds no NUL, so interning
   it cannot fail.
   */
  function NamTryFrom(ev: NamEvent, cache: StringCache): (r: (StringCache, Result<NamRecord, NamError>))
    requires Valid(cache)
    ensures Valid(r.0)
    ensures r.1.Ok? <==> I8ArrayToString(ev.name).Ok?
    ensures r.1.Err? ==> r.0 == cache && r.1.error == NameNotUtf8
    ensures r.1.Ok? ==> r.1.value.obj == ev.obj && r.1.value.id == ev.id
    ensures r.1.Ok? ==> r.1.value.name == I8ArrayToString(ev.name).value
    ensures r.1.Ok? ==> r.1.value.name in r.0.indices
  {
    match I8ArrayToString(ev.name)
    case Err(_) => (cache, Err(NameNotUtf8))
    case Ok(name) =>
      DecodedNameShape(ev.name);
      GetStrAfterInsert(cache, name);
      var c := Insert(cache, name).0;
      (c, Ok(NamRecord(ev.obj, ev.id, GetStr(c, name))))
  }

  /** The record's `obj` and `id` are the u64 values at bytes 48 and 56, unmasked. */
  lemma NamRecordFromFrame(f: Frame, cache: StringCache)
    requires Valid(cache)
    requires NamTryFrom(Layout.ParseNam(f), cache).1.Ok?
    ensures var rec := NamTryFrom(Layout.ParseNam(f), cache).1.value;
      && rec.obj == LeValue(f[48..56])
      && rec.id == LeValue(f[56..64])
      && I8ArrayToString(f[64..96]).Ok?
      && rec.name == I8ArrayToString(f[64..96]).value
  {
    Layout.NamOffsets(f);
  }

  // ---------------------------------------------------------------------
  // Resolving an object to a command name and a thread id

  /** Linux task states; the records only ever use `Running`. */
  datatype TaskState =
    | Running
    | Interruptible
    | UnInterruptible
    | Stopped
    | Traced
    | ExitDead
    | ExitZombie
    | Parked
    | Dead
    | WakeKill
    | Waking
    | NoLoad
    | New

  /** The entry at `key`, if any. */
  function Lookup(reg: Registry, key: u64): Option<KO.KernelObject>
  {
    if key in reg then Some(reg[key]) else None
  }

  /** The entry at `key` when it is a thread; a generic entry counts as absent. */
  function LookupThread(reg: Registry, key: u64): Option<KO.KernelObject>
  {
    if key in reg && reg[key].Thread? then Some(reg[key]) else None
  }

  /** The command name: the object's name, its debug id when the name is empty, else the pointer in decimal. */
  function ResolvedComm(found: Option<KO.KernelObject>, key: u64): Text
  {
    match found
    case Some(o) => if KO.Name(o) != [] then KO.Name(o) else KO.Id(o)
    case None => Decimal(key)
  }

  /** The thread id: the object's debug id read as an i64, else the pointer reinterpreted as i64. */
  function ResolvedTid(found: Option<KO.KernelObject>, key: u64): i64
  {
    if found.Some? && ParseI64(KO.Id(found.value)).Some? then ParseI64(KO.Id(found.value)).value
    else AsI64(key)
  }

  /**
   One side of a lookup as the builders perform it: the thread id, and the
   command name interned in the cache under the returned index.
   */
  function InternComm(cache: StringCache, found: Option<KO.KernelObject>, key: u64)
    : (r: (StringCache, Result<nat, NulError>, i64))
    requires Valid(cache)
    ensures Valid(r.0) && cache.strings <= r.0.strings
    ensures r.1.Ok? <==> NoNul(ResolvedComm(found, key))
    ensures r.1.Err? ==> r.0 == cache
    ensures r.1.Ok? ==> r.1.value < |r.0.strings| && r.0.strings[r.1.value] == ResolvedComm(found, key)
    ensures r.2 == ResolvedTid(found, key)
  {
    var tid := if found.Some? then
        match ParseI64(KO.Id(found.value))
        case Some(t) => t
        case None => AsI64(key)
      else AsI64(key);
    var comm := if found.Some? then
        (if KO.Name(found.value) != [] then KO.Name(found.value) else KO.Id(found.value))
      else Decimal(key);
    InsertPreservesValid(cache, comm);
    var (c, id) := Insert(cache, comm);
    (c, id, tid)
  }

  // ---------------------------------------------------------------------
  // sched_switch

  datatype SchedSwitchRecord = SchedSwitchRecord(
    prevComm: Text, prevTid: i64, prevPrio: i64, prevState: TaskState,
    nextComm: Text, nextTid: i64, nextPrio: i64)

  const NEXT_PRIO: i64 := 9999

  /** The record a context switch should yield, given the registry. */
  function ExpectedSwitch(ev: ContextSwitchEvent, reg: Registry): SchedSwitchRecord
  {
    var src := Mask(ev.common.ctx);
    var dst := Mask(ev.dst);
    SchedSwitchRecord(
      ResolvedComm(Lookup(reg, src), src), ResolvedTid(Lookup(reg, src), src),
      AsI64(ev.fromPrio), TaskState.Running,
      ResolvedComm(Lookup(reg, dst), dst), ResolvedTid(Lookup(reg, dst), dst),
      NEXT_PRIO)
  }

  /**
   `SchedSwitch::try_from`: the previous task is the running context
   (`common.ctx`), the next one is `dst`, both masked; the registry is
   only read. It fails only when a chosen name holds NUL.
   */
  function SchedSwitchTryFrom(ev: ContextSwitchEvent, cache: StringCache, reg: Registry)
    : (r: (StringCache, Result<SchedSwitchRecord, NulError>))
    requires Valid(cache)
    ensures Valid(r.0)
    ensures r.1.Ok? <==>
      NoNul(ExpectedSwitch(ev, reg).prevComm) && NoNul(ExpectedSwitch(ev, reg).nextComm)
    ensures r.1.Ok? ==> r.1.value == ExpectedSwitch(ev, reg)
  {
    var src := Mask(ev.common.ctx);
    var dst := Mask(ev.dst);
    var (c1, prevId, prevTid) := InternComm(cache, Lookup(reg, src), src);
    if prevId.Err? then (c1, Err(prevId.error))
    else
      var (c2, nextId, nextTid) := InternComm(c1, Lookup(reg, dst), dst);
      if nextId.Err? then (c2, Err(nextId.error))
      else
        (c2, Ok(SchedSwitchRecord(
          GetById(c2, prevId.value), prevTid, AsI64(ev.fromPrio), TaskState.Running,
          GetById(c2, nextId.value), nextTid, NEXT_PRIO)))
  }

  // ---------------------------------------------------------------------
  // sched_migrate_task

  datatype SchedMigrateTaskRecord = SchedMigrateTaskRecord(
    comm: Text, tid: i64, prio: i64, origCpu: i32, destCpu: i32)

  /** The record a migration should yield; only thread entries are resolved. */
  function ExpectedMigrate(ev: MigrationEvent, reg: Registry): SchedMigrateTaskRecord
  {
    var ctx := Mask(ev.common.ctx);
    var found := LookupThread(reg, ctx);
    SchedMigrateTaskRecord(
      ResolvedComm(found, ctx), ResolvedTid(found, ctx),
      if found.Some? then AsI64(found.value.thread.prio) else 0,
      AsI32(ev.srcCpu), AsI32(ev.targetCpu))
  }

  /** `SchedMigrateTask::try_from`. */
  function SchedMigrateTaskTryFrom(ev: MigrationEvent, cache: StringCache, reg: Registry)
    : (r: (StringCache, Result<SchedMigrateTaskRecord, NulError>))
    requires Valid(cache)
    ensures Valid(r.0)
    ensures r.1.Ok? <==> NoNul(ExpectedMigrate(ev, reg).comm)
    ensures r.1.Ok? ==> r.1.value == ExpectedMigrate(ev, reg)
  {
    var ctx := Mask(ev.common.ctx);
    var found := LookupThread(reg, ctx);
    var prio: i64 := if found.Some? then AsI64(found.value.thread.prio) else 0;
    var (c, commId, tid) := InternComm(cache, found, ctx);
    if commId.Err? then (c, Err(commId.error))
    else (c, Ok(SchedMigrateTaskRecord(
      GetById(c, commId.value), tid, prio, AsI32(ev.srcCpu), AsI32(ev.targetCpu))))
  }

  // ---------------------------------------------------------------------
  // IPC and IPC-RES: field projections

  datatype IpcRecord = IpcRecord(
    tag: u64, dword1: u64, dword2: u64, dst: u64, dbgId: u64, ipcLabel: u64,
    timeout: u32, toAbsRcv: u64, rcvName: Text)

  /** `Ipc::try_from`: never fails; the receiver name is the caller's. */
  function IpcTryFrom(ev: IpcEvent, rcvName: Text): (r: Result<IpcRecord, NulError>)
    ensures r.Ok?
  {
    Ok(IpcRecord(ev.tag, ev.dword[0], ev.dword[1], ev.dst, ev.dbgId, ev.ipcLabel,
      ev.timeout, ev.toAbsRcv, rcvName))
  }

  /** Each field of the IPC record is the little-endian value at its frame offset. */
  lemma IpcRecordFromFrame(f: Frame, rcvName: Text)
    ensures var rec := IpcTryFrom(Layout.ParseIpc(f), rcvName).value;
      && rec.tag == LeValue(f[48..56])
      && rec.dword1 == LeValue(f[56..64])
      && rec.dword2 == LeValue(f[64..72])
      && rec.dst == LeValue(f[72..80])
      && rec.dbgId == LeValue(f[80..88])
      && rec.ipcLabel == LeValue(f[88..96])
      && rec.timeout == LeValue(f[96..100])
      && rec.toAbsRcv == LeValue(f[104..112])
      && rec.rcvName == rcvName
  {
    Layout.IpcOffsets(f);
  }

  datatype IpcResRecord = IpcResRecord(
    haveSnd: u8, isNp: u8, tag: u64, dword1: u64, dword2: u64, result: u64,
    from: u64, dst: u64, pairEvent: u64)

  /** `IpcRes::try_from`: never fails. */
  function IpcResTryFrom(ev: IpcResEvent): (r: Result<IpcResRecord, NulError>)
    ensures r.Ok?
  {
    Ok(IpcResRecord(ev.haveSnd, ev.isNp, ev.tag, ev.dword[0], ev.dword[1], ev.result,
      ev.from, ev.dst, ev.pairEvent))
  }

  /** Each field of the IPC-RES record is the value at its frame offset; `dst` is not masked. */
  lemma IpcResRecordFromFrame(f: Frame)
    ensures var rec := IpcResTryFrom(Layout.ParseIpcRes(f)).value;
      && rec.haveSnd == f[46]
      && rec.isNp == f[47]
      && rec.tag == LeValue(f[48..56])
      && rec.dword1 == LeValue(f[56..64])
      && rec.dword2 == LeValue(f[64..72])
      && rec.result == LeValue(f[72..80])
      && rec.from == LeValue(f[80..88])
      && rec.dst == LeValue(f[88..96])
      && rec.pairEvent == LeValue(f[96..104])
  {
    Layout.IpcResOffsets(f);
  }

  // ---------------------------------------------------------------------
  // Consequences for registries the converter builds

  /** An object whose debug id is a decimal rendering in the i64 range resolves to that number as its tid. */
  lemma DecimalIdGivesTid(found: Option<KO.KernelObject>, key: u64, n: u64)
    requires found.Some? && KO.Id(found.value) == Decimal(n)
    ensures n <= I64_MAX ==> ResolvedTid(found, key) == n
    ensures n > I64_MAX ==> ResolvedTid(found, key) == AsI64(key)
  {
    ParseI64OfDecimal(n);
  }

  /** A resolved name from a clean registry holds no NUL. */
  lemma ResolvedCommNoNul(reg: Registry, key: u64, thread: bool)
    requires Clean(reg)
    ensures NoNul(ResolvedComm(if thread then LookupThread(reg, key) else Lookup(reg, key), key))
  {
    DecimalNoNul(key);
  }

  /** On a clean registry, `sched_switch` always succeeds. */
  lemma SchedSwitchSucceeds(ev: ContextSwitchEvent, cache: StringCache, reg: Registry)
    requires Valid(cache)
    ensures Clean(reg) ==> SchedSwitchTryFrom(ev, cache, reg).1.Ok?
  {
    if Clean(reg) {
      ResolvedCommNoNul(reg, Mask(ev.common.ctx), false);
      ResolvedCommNoNul(reg, Mask(ev.dst), false);
    }
  }

  /** On a clean registry, `sched_migrate_task` always succeeds. */
  lemma SchedMigrateTaskSucceeds(ev: MigrationEvent, cache: StringCache, reg: Registry)
    requires Valid(cache)
    ensures Clean(reg) ==> SchedMigrateTaskTryFrom(ev, cache, reg).1.Ok?
  {
    if Clean(reg) {
      ResolvedCommNoNul(reg, Mask(ev.common.ctx), true);
    }
  }
}

=== FILE: registry.dfy ===
/**
 The kernel-object registry: a map from masked object pointer to the
 object the trace has named, created or destroyed.

 Pointers are masked with `CTX_MASK = 0xFFFF_FFFF_FFFF_F000`, which clears
 their low 12 bits. On an unsigned 64-bit value that is the same as
 subtracting the remainder modulo 4096; `MaskClearsLowBits` shows the
 identity on 64-bit words, and `Mask` uses the arithmetic form.
 */
module Registries {
  import opened Bytes
  import opened Texts
  import opened KernelObjects

  const CTX_MASK: bv64 := 0xFFFF_FFFF_FFFF_F000
  const PAGE: nat := 0x1000

  type Registry = map<u64, KernelObject>

  /** The mask keeps the high bits and clears the low 12 bits. */
  lemma MaskClearsLowBits(b: bv64)
    ensures b & CTX_MASK == b - b % 0x1000
  {
    assert b & 0xFFF == b % 0x1000;
  }

  /** `p & CTX_MASK`: the start of the 4096-byte page holding `p`. */
  function Mask(p: u64): (k: u64)
    ensures k % PAGE == 0
    ensures k <= p < k + PAGE
  {
    p - p % PAGE
  }

  /** Masking an already masked pointer changes nothing. */
  lemma MaskIdempotent(p: u64)
    ensures Mask(Mask(p)) == Mask(p)
  {
  }

  /** Two pointers share a key exactly when they lie in the same page. */
  lemma MaskSameKey(p: u64, q: u64)
    ensures Mask(p) == Mask(q) <==> p / PAGE == q / PAGE
  {
  }

  /** Every name and debug id in the registry can become a C string. */
  predicate Clean(reg: Registry) {
    forall k :: k in reg ==> NoNul(Name(reg[k])) && NoNul(Id(reg[k]))
  }
}

=== FILE: string_cache.dfy ===
/**
 The string interning cache of the converter (`StringCache`).

 Every interned string gets the next free index; `strings` holds the
 C strings in index order and `indices` maps each string back to its
 index. A string holding a NUL byte cannot become a C string and is
 refused.
 */
module StringCaches {
  import opened Wrappers
  import opened Texts

  /** `CString::new` refused the key because it holds a NUL byte. */
  datatype NulError = NulError

  datatype StringCache = StringCache(indices: map<Text, nat>, strings: seq<Text>)

  /**
   `indices` and `strings` are inverse: a dense bijection between the
   interned strings and the indices `0 .. |strings|`, and no interned
   string holds NUL.
   */
  ghost predicate Valid(c: StringCache) {
    && (forall k :: k in c.indices ==> c.indices[k] < |c.strings| && c.strings[c.indices[k]] == k)
    && (forall i :: 0 <= i < |c.strings| ==> c.strings[i] in c.indices && c.indices[c.strings[i]] == i)
    && (forall i :: 0 <= i < |c.strings| ==> NoNul(c.strings[i]))
  }

  /** `StringCache::default()`. */
  function Empty(): (c: StringCache)
    ensures Valid(c) && |c.strings| == 0
  {
    StringCache(map[], [])
  }

  /**
   `insert_str`: the index of `key`, interning it first when it is new. An
   interned key keeps its index and leaves the cache as it is; a new key
   holding NUL is refused before anything changes; any other new key gets
   index `|strings|`.
   */
  function Insert(c: StringCache, key: Text): (r: (StringCache, Result<nat, NulError>))
    ensures key in c.indices ==> r.0 == c && r.1 == Ok(c.indices[key])
    ensures key !in c.indices ==> (r.1.Ok? <==> NoNul(key))
    ensures r.1.Err? ==> r.0 == c
    ensures key !in c.indices && r.1.Ok? ==>
      r.1.value == |c.strings| && r.0.strings == c.strings + [key]
  {
    if key in c.indices then (c, Ok(c.indices[key]))
    else if !NoNul(key) then (c, Err(NulError))
    else
      var id := |c.strings|;
      (StringCache(c.indices[key := id], c.strings + [key]), Ok(id))
  }

  /**
   `get_str`: the interned string equal to `key`; the source panics when
   `key` was never interned.
   */
  function GetStr(c: StringCache, key: Text): (s: Text)
    requires Valid(c) && key in c.indices
    ensures s == key
  {
    c.strings[c.indices[key]]
  }

  /** `get_str_by_id`: the string interned under index `id`. */
  function GetById(c: StringCache, id: nat): (s: Text)
    requires id < |c.strings|
    ensures Valid(c) ==> s in c.indices && c.indices[s] == id
    ensures Valid(c) ==> NoNul(s)
  {
    c.strings[id]
  }

  /** Interning keeps the cache a dense bijection. */
  lemma InsertPreservesValid(c: StringCache, key: Text)
    requires Valid(c)
    ensures Valid(Insert(c, key).0)
  {
    var (d, r) := Insert(c, key);
    if key !in c.indices && r.Ok? {
      var n := |c.strings|;
      forall k | k in d.indices
        ensures d.indices[k] < |d.strings| && d.strings[d.indices[k]] == k
      {
        if k != key {
          assert k in c.indices;
        }
      }
      forall i | 0 <= i < |d.strings|
        ensures d.strings[i] in d.indices && d.indices[d.strings[i]] == i
      {
        if i < n {
          assert d.strings[i] == c.strings[i];
          assert c.strings[i] != key;
        }
      }
    }
  }

  /** The index `Insert` returns leads back to the key. */
  lemma GetByIdOfInsert(c: StringCache, key: Text)
    requires Valid(c)
    requires Insert(c, key).1.Ok?
    ensures Insert(c, key).1.value < |Insert(c, key).0.strings|
    ensures GetById(Insert(c, key).0, Insert(c, key).1.value) == key
  {
  }

  /** Interning never changes an index already handed out. */
  lemma InsertKeepsIndices(c: StringCache, key: Text, k: Text)
    requires Valid(c) && k in c.indices
    ensures k in Insert(c, key).0.indices
    ensures Insert(c, key).0.indices[k] == c.indices[k]
    ensures c.strings <= Insert(c, key).0.strings
  {
    if key !in c.indices && NoNul(key) {
      assert c.strings[c.indices[k]] == k;
    }
  }

  /** Interning the same key twice changes nothing the second time. */
  lemma InsertIdempotent(c: StringCache, key: Text)
    requires Valid(c)
    requires Insert(c, key).1.Ok?
    ensures Insert(Insert(c, key).0, key) == Insert(c, key)
  {
  }

  /** After a successful `Insert`, `get_str` on the key cannot panic. */
  lemma GetStrAfterInsert(c: StringCache, key: Text)
    requires Valid(c)
    requires Insert(c, key).1.Ok?
    ensures Valid(Insert(c, key).0) && key in Insert(c, key).0.indices
    ensures GetStr(Insert(c, key).0, key) == key
  {
    InsertPreservesValid(c, key);
  }
}

=== FILE: text.dfy ===
/**
 Byte strings as the converter holds them.

 A Rust `String` is a UTF-8 byte vector; the model keeps it as `Text`, the
 sequence of those bytes. This module gives the two conversions the
 converter applies to integers: `u64::to_string` (decimal rendering) and
 `str::parse::<i64>` (decimal parsing with an optional sign).
 */
module Texts {
  import opened Bytes
  import opened Wrappers

  type Text = seq<u8>

  const ZERO: u8 := 48
  const PLUS: u8 := 43
  const MINUS: u8 := 45

  const I64_MAX: int := 0x7FFF_FFFF_FFFF_FFFF
  const I64_MIN: int := -0x8000_0000_0000_0000

  /** No byte of `t` is NUL, so `CString::new(t)` accepts it. */
  predicate NoNul(t: Text) {
    forall i :: 0 <= i < |t| ==> t[i] != 0
  }

  predicate IsDigit(b: u8) {
    ZERO <= b <= ZERO + 9
  }

  predicate AllDigits(t: Text) {
    forall i :: 0 <= i < |t| ==> IsDigit(t[i])
  }

  /** The value of a string of ASCII decimal digits, most significant first. */
  function DigitsValue(t: Text): nat
    requires AllDigits(t)
  {
    if |t| == 0 then 0 else 10 * DigitsValue(t[..|t| - 1]) + (t[|t| - 1] - ZERO)
  }

  /** `n.to_string()`: the shortest decimal rendering of `n`. */
  function Decimal(n: nat): (t: Text)
    ensures |t| >= 1 && AllDigits(t)
    ensures t[0] == ZERO <==> n == 0
  {
    if n < 10 then [ZERO + n] else Decimal(n / 10) + [ZERO + n % 10]
  }

  /** Reading a rendered number gives back the number. */
  lemma {:induction false} DigitsValueOfDecimal(n: nat)
    ensures DigitsValue(Decimal(n)) == n
  {
    if n >= 10 {
      DigitsValueOfDecimal(n / 10);
      var t := Decimal(n);
      assert t[..|t| - 1] == Decimal(n / 10);
    }
  }

  /** Distinct numbers render to distinct strings. */
  lemma DecimalInjective(m: nat, n: nat)
    requires Decimal(m) == Decimal(n)
    ensures m == n
  {
    DigitsValueOfDecimal(m);
    DigitsValueOfDecimal(n);
  }

  /** A decimal rendering never holds NUL, so interning it cannot fail. */
  lemma DecimalNoNul(n: nat)
    ensures NoNul(Decimal(n))
  {
  }

  /**
   `s.parse::<i64>()`: an optional `+` or `-` followed by at least one ASCII
   digit, with a value in the i64 range; anything else is an error.
   */
  function ParseI64(s: Text): Option<i64>
  {
    if |s| == 0 then None
    else if s[0] == MINUS then
      var d := s[1..];
      if |d| == 0 || !AllDigits(d) then None
      else if DigitsValue(d) > -I64_MIN then None
      else var v: i64 := 0 - DigitsValue(d) as int; Some(v)
    else
      var d := if s[0] == PLUS then s[1..] else s;
      if |d| == 0 || !AllDigits(d) then None
      else if DigitsValue(d) > I64_MAX then None
      else var v: i64 := DigitsValue(d); Some(v)
  }

  /**
   A u64 rendered by `to_string` parses back as an i64 exactly when it is at
   most `i64::MAX`; larger values fail to parse.
   */
  lemma ParseI64OfDecimal(n: u64)
    ensures n <= I64_MAX ==> ParseI64(Decimal(n)) == Some(n)
    ensures n > I64_MAX ==> ParseI64(Decimal(n)) == None
  {
    DigitsValueOfDecimal(n);
    var t := Decimal(n);
    assert t[0] != MINUS && t[0] != PLUS by {
      assert IsDigit(t[0]);
    }
  }

  /** The empty string never parses, so an empty debug id never yields a tid. */
  lemma ParseI64Empty()
    ensures ParseI64([]) == None
  {
  }
}

=== FILE: utf8.dfy ===
/**
 UTF-8 well-formedness, as `str::from_utf8` checks it.

 The accepted byte sequences are those of the Unicode Standard's table of
 well-formed UTF-8 byte sequences (Table 3-7): no overlong forms, no
 surrogates, nothing above U+10FFFF.
 */
module Utf8 {
  import opened Bytes

  predicate IsCont(b: u8) {
    0x80 <= b <= 0xBF
  }

  /**
   The length of the well-formed sequence at the head of `s`, or 0 when the
   head of `s` starts no well-formed sequence.
   */
  function HeadLength(s: seq<u8>): (n: nat)
    ensures n <= |s| && n <= 4
    ensures |s| > 0 && s[0] <= 0x7F ==> n == 1
  {
    if |s| == 0 then 0
    else
      var b0 := s[0];
      if b0 <= 0x7F then 1
      else if 0xC2 <= b0 <= 0xDF then
        if |s| >= 2 && IsCont(s[1]) then 2 else 0
      else if b0 == 0xE0 then
        if |s| >= 3 && 0xA0 <= s[1] <= 0xBF && IsCont(s[2]) then 3 else 0
      else if 0xE1 <= b0 <= 0xEC || 0xEE <= b0 <= 0xEF then
        if |s| >= 3 && IsCont(s[1]) && IsCont(s[2]) then 3 else 0
      else if b0 == 0xED then
        if |s| >= 3 && 0x80 <= s[1] <= 0x9F && IsCont(s[2]) then 3 else 0
      else if b0 == 0xF0 then
        if |s| >= 4 && 0x90 <= s[1] <= 0xBF && IsCont(s[2]) && IsCont(s[3]) then 4 else 0
      else if 0xF1 <= b0 <= 0xF3 then
        if |s| >= 4 && IsCont(s[1]) && IsCont(s[2]) && IsCont(s[3]) then 4 else 0
      else if b0 == 0xF4 then
        if |s| >= 4 && 0x80 <= s[1] <= 0x8F && IsCont(s[2]) && IsCont(s[3]) then 4 else 0
      else 0
  }

  /** `s` is a concatenation of well-formed UTF-8 sequences. */
  predicate Valid(s: seq<u8>)
    decreases |s|
  {
    |s| == 0 || (HeadLength(s) > 0 && Valid(s[HeadLength(s)..]))
  }

  /** A Unicode scalar value: a code point that is not a surrogate. */
  predicate IsScalar(cp: int) {
    0 <= cp < 0xD800 || 0xE000 <= cp <= 0x10FFFF
  }

  /** The UTF-8 encoding of one scalar value. */
  function EncodeScalar(cp: int): (s: seq<u8>)
    requires IsScalar(cp)
    ensures 1 <= |s| <= 4
  {
    if cp < 0x80 then [cp]
    else if cp < 0x800 then [0xC0 + cp / 0x40, 0x80 + cp % 0x40]
    else if cp < 0x1_0000 then
      [0xE0 + cp / 0x1000, 0x80 + (cp / 0x40) % 0x40, 0x80 + cp % 0x40]
    else
      [0xF0 + cp / 0x4_0000, 0x80 + (cp / 0x1000) % 0x40,
       0x80 + (cp / 0x40) % 0x40, 0x80 + cp % 0x40]
  }

  /** The scalar value a well-formed head sequence encodes. */
  function DecodeHead(s: seq<u8>): int
    requires HeadLength(s) > 0
  {
    var n := HeadLength(s);
    var b0, b1, b2, b3 := s[0] as int, if n > 1 then s[1] as int else 0,
      if n > 2 then s[2] as int else 0, if n > 3 then s[3] as int else 0;
    if n == 1 then b0
    else if n == 2 then (b0 - 0xC0) * 0x40 + (b1 - 0x80)
    else if n == 3 then (b0 - 0xE0) * 0x1000 + (b1 - 0x80) * 0x40 + (b2 - 0x80)
    else (b0 - 0xF0) * 0x4_0000 + (b1 - 0x80) * 0x1000 + (b2 - 0x80) * 0x40 + (b3 - 0x80)
  }

  /** Every scalar value's encoding is accepted as exactly one sequence. */
  lemma EncodeScalarAccepted(cp: int)
    requires IsScalar(cp)
    ensures HeadLength(EncodeScalar(cp)) == |EncodeScalar(cp)|
    ensures Valid(EncodeScalar(cp))
  {
    var s := EncodeScalar(cp);
    assert s[HeadLength(s)..] == [];
  }

  lemma Split2(a: int, b: int)
    requires 0 <= a < 0x20 && 0 <= b < 0x40
    ensures (a * 0x40 + b) / 0x40 == a && (a * 0x40 + b) % 0x40 == b
  {
  }

  lemma Split3(a: int, b: int, c: int)
    requires 0 <= a < 0x10 && 0 <= b < 0x40 && 0 <= c < 0x40
    ensures var x := a * 0x1000 + b * 0x40 + c;
      x / 0x1000 == a && (x / 0x40) % 0x40 == b && x % 0x40 == c
  {
    var x := a * 0x1000 + b * 0x40 + c;
    assert x / 0x40 == a * 0x40 + b;
  }

  lemma Split4(a: int, b: int, c: int, d: int)
    requires 0 <= a < 0x08 && 0 <= b < 0x40 && 0 <= c < 0x40 && 0 <= d < 0x40
    ensures var x := a * 0x4_0000 + b * 0x1000 + c * 0x40 + d;
      x / 0x4_0000 == a && (x / 0x1000) % 0x40 == b && (x / 0x40) % 0x40 == c && x % 0x40 == d
  {
    var x := a * 0x4_0000 + b * 0x1000 + c * 0x40 + d;
    assert x / 0x40 == a * 0x1000 + b * 0x40 + c;
    assert x / 0x1000 == a * 0x40 + b;
  }

  /** Every accepted head sequence is the encoding of a scalar value. */
  lemma AcceptedIsEncoding(s: seq<u8>)
    requires HeadLength(s) > 0
    ensures IsScalar(DecodeHead(s))
    ensures EncodeScalar(DecodeHead(s)) == s[..HeadLength(s)]
  {
    var n := HeadLength(s);
    if n == 1 {
      assert s[..1] == [s[0]];
    } else if n == 2 {
      Accepted2(s);
    } else if n == 3 {
      Accepted3(s);
    } else {
      Accepted4(s);
    }
  }

  lemma Accepted2(s: seq<u8>)
    requires HeadLength(s) == 2
    ensures IsScalar(DecodeHead(s)) && EncodeScalar(DecodeHead(s)) == s[..2]
  {
    var a, b := s[0] as int - 0xC0, s[1] as int - 0x80;
    assert DecodeHead(s) == a * 0x40 + b;
    Split2(a, b);
    assert s[..2] == [s[0], s[1]];
  }

  lemma Accepted3(s: seq<u8>)
    requires HeadLength(s) == 3
    ensures IsScalar(DecodeHead(s)) && EncodeScalar(DecodeHead(s)) == s[..3]
  {
    var a, b, c := s[0] as int - 0xE0, s[1] as int - 0x80, s[2] as int - 0x80;
    assert DecodeHead(s) == a * 0x1000 + b * 0x40 + c;
    Split3(a, b, c);
    assert s[..3] == [s[0], s[1], s[2]];
  }

  lemma Accepted4(s: seq<u8>)
    requires HeadLength(s) == 4
    ensures IsScalar(DecodeHead(s)) && EncodeScalar(DecodeHead(s)) == s[..4]
  {
    var a, b, c, d := s[0] as int - 0xF0, s[1] as int - 0x80, s[2] as int - 0x80, s[3] as int - 0x80;
    assert DecodeHead(s) == a * 0x4_0000 + b * 0x1000 + c * 0x40 + d;
    Split4(a, b, c, d);
    assert s[..4] == [s[0], s[1], s[2], s[3]];
  }

  /** Pure ASCII text is well-formed. */
  lemma {:induction false} AsciiValid(s: seq<u8>)
    requires forall i :: 0 <= i < |s| ==> s[i] <= 0x7F
    ensures Valid(s)
  {
    if |s| > 0 {
      AsciiValid(s[1..]);
    }
  }
}

=== FILE: wrappers.dfy ===
/**
 Failure-compatible wrappers used across the model: `Option` for absent
 values and `Result` for Rust's `Result<T, E>` returns.
 */
module Wrappers {

  datatype Option<+T> = None | Some(value: T) {

    predicate IsFailure() {
      None?
    }

    function PropagateFailure<U>(): Option<U>
      requires None?
    {
      None
    }

    function Extract(): T
      requires Some?
    {
      value
    }
  }

  datatype Result<+T, +E> = Ok(value: T) | Err(error: E) {

    predicate IsFailure() {
      Err?
    }

    function PropagateFailure<U>(): Result<U, E>
      requires Err?
    {
      Err(error)
    }

    function Extract(): T
      requires Ok?
    {
      value
    }
  }
}
